=== FILE: README.md ===
# bodge geometry core in Dafny

This project models the geometry core of the Rust crate `bodge`, together with the
algorithms its `maths` examples build on it:

- the shapes: axis-aligned boxes, circles, rays, line segments, implicit lines,
  triangles, polylines and closed vertex lists;
- the pairwise collision tests and the example scene that dispatches them;
- the lexicographic sort-key wrappers (`Sortable`, `Sortable2D`, `Sortable3D` and
  their payload-carrying variants);
- polyline simplification, both the greedy distance pass and Douglas-Peucker;
- Bowyer-Watson and ear-clipping triangulation.

Coordinates are exact reals. Floating-point rounding, infinities and NaN are not
modelled. Where the source relies on what NaN does to a comparison, the model makes
that outcome an explicit branch: a zero-length segment collides with nothing, and a
polyline whose first segment has zero length has no closest point. Where the
source compares square-rooted distances (a circle's containment test, the
circle-segment collision, the polyline's closest point, the simplification
tolerance), the model compares squared distances instead.
`Vectors.DistComparisonsMatchSqrt` proves the two comparisons agree. Where
a result itself needs a square root (a circle's closest point, a ray's normalised
axis, a circumcircle's radius), the root is passed in as a parameter together with
its defining property `d >= 0 && d*d == x`.

The source guards its inputs with `bodge_assert!` (src/macros.rs:1-8). It panics
only when the crate is built with its `bodge_assert` feature; in a default build
it expands to nothing. The preconditions below model the feature-enabled build,
where each check becomes a precondition stated exactly as the check reads:
- the points a line is built from differ, and a line's axis is not zero;
- a ray's axis has length one;
- a circle's radius field is positive.

What a default build computes on the excluded inputs is listed under "Left out".
Where the default build's answer is already an outcome the model has, the model
takes that input too: a triangle with two coinciding consecutive vertices has
no circumcentre, a triangle with a vertex on the midpoint of the opposite side
has no centroid and is not scaled, a box of negative size contains nothing and
clamps that axis to its upper bound, and solving a line for x or y, or
intersecting two lines, needs no valid line. A line's closest point keeps its
requirement in both builds, because a zero normal makes the source's `unwrap`
panic.

The checks that a value is finite hold for every real, so they disappear. The two
example algorithms can panic or run forever. Each of those outcomes is a `Result`
error instead:
- `BowyerWatson.Failure`: empty input, a super triangle that cannot be grown to
  cover the points within the fuel given, or a triangle without a circumcircle
  (the source's `unwrap`);
- `EarClipping.Failure`: a pass that finds no ear, where the source loops forever.

Modules, one file each:
- `Vectors`: vectors, squared distances, arithmetic lemmas.
- `Options`: `Option` and `Result`.
- `Selections`: index lists and `Vec::remove`.
- `Aabbs`, `Circles`, `Rays`, `Segments`, `Lines`.
- `Triangles`, with `TriangleExamples`.
- `Collision`, `Collidables`.
- `Polylines`, `VertexLists`.
- `SortKeys`.
- `Simplification`, `BowyerWatson`, `EarClipping`.

The ear test calls `Triangle2::is_clockwise`
(examples/maths/triangulation_ear_clipping.rs line 140), which has no definition in
src/geometry/triangle.rs. The model uses the clockwise formula of the triangle
renderer, src/bevy/debug_draw/drawable.rs line 150: twice the signed area is
negative.

## Model

| member | source | states |
|---|---|---|
| Aabbs.ClampScalar | src/geometry/aabb.rs:25-31 | one coordinate of `clamp`: with ordered bounds the result lies in [lo, hi], is the input when that is in range, and otherwise the bound the input passed; with the bounds in the wrong order it is the upper bound |
| Aabbs.ClosestPoint | src/geometry/aabb.rs:25-31 | for a box of non-negative size the clamped point lies in the closed box; a point already in the box is returned unchanged; an axis of negative size gives that axis's upper bound |
| Aabbs.ClosestPointIdempotent | src/geometry/aabb.rs:25-31 | clamping a clamped point changes nothing |
| Aabbs.ClosestPointIsNearest | src/geometry/aabb.rs:25-31 | no point of the closed box is nearer to the query than the clamped point |
| Aabbs.ContainsPoint | src/geometry/aabb.rs:33-39 | containment is the open box: inside the closed box and on none of its four boundary lines |
| Aabbs.ContainsPointFacts | src/geometry/aabb.rs:25-39 | a contained point is its own closest point; a box of zero or negative width or height contains nothing |
| Circles.ContainsPoint | src/geometry/circle.rs:32-35 | containment holds exactly when the squared distance to the centre is at most the square of half the radius field |
| Circles.ContainsPointIsDistanceTest | src/geometry/circle.rs:32-35 | with `d` the true distance, containment is `d <= radius * 0.5`, the source's test |
| Circles.CenterContained | src/geometry/circle.rs:9-15 | the centre of a valid circle is inside it |
| Circles.ContainsPointExample | src/geometry/circle.rs:42-47 | the unit test: the circle at (10, 10) with radius field 10 contains (15, 10) and not (16, 10) |
| Circles.ClosestPoint | src/geometry/circle.rs:24-30 | a contained point is returned as is; an outside point moves onto the boundary (squared distance to the centre equals the squared effective radius), staying on the segment from the centre towards it |
| Circles.OutsideDistance | src/geometry/circle.rs:24-30 | outside the disc the distance exceeds the effective radius, so the boundary point lies strictly between the centre and the query |
| Rays.New | src/geometry/line_ray.rs:20-27 | the constructed ray is valid (unit axis) with the given start, and its axis times the input's length is the input axis |
| Rays.Param | src/geometry/line_ray.rs:29-32 | the projection parameter is clamped at zero, so it is never negative |
| Rays.ClosestPoint | src/geometry/line_ray.rs:29-32 | the result is a point of the ray (parameter at least 0), and no point of the ray is nearer to the query |
| Rays.ClosestPointBehindStart | src/geometry/line_ray.rs:29-32 | every point that projects behind the start maps to the start |
| Rays.ClosestPointOfStart | src/geometry/line_ray.rs:29-32 | the start is its own closest point |
| Rays.ClosestPointIdempotent | src/geometry/line_ray.rs:29-32 | projecting a projected point changes nothing |
| Rays.Segment | src/geometry/line_ray.rs:34-37 | the segment starts at the ray's start, its points are the ray's points with the parameter scaled by `length`, and its squared length is `length²` |
| Rays.Line | src/geometry/line_ray.rs:39-42 | the supporting line is valid and every point of the ray lies on it |
| Segments.Center | src/geometry/line_segment.rs:26-29 | the centre is the point at parameter one half, and twice it is the sum of the endpoints |
| Segments.CenterEquidistant | src/geometry/line_segment.rs:26-29 | the centre is equally far from both endpoints |
| Segments.Clamp01 | src/geometry/line_segment.rs:41-45 | `clamp(0., 1.)` returns a value in [0, 1] that equals its input when the input is already in [0, 1] |
| Segments.ClosestPoint | src/geometry/line_segment.rs:41-45 | on a segment of non-zero length, the result is a point of the segment (parameter in [0, 1]), and no point of the segment is nearer to the query |
| Segments.ClosestPointOfEndpoints | src/geometry/line_segment.rs:41-45 | each endpoint is its own closest point |
| Segments.PerpendicularBisector | src/geometry/line_segment.rs:47-50 | the bisector is a valid line through the centre |
| Segments.BisectorIsEquidistantSet | src/geometry/line_segment.rs:47-50 | a point lies on the bisector exactly when it is equally far from both endpoints |
| Segments.BisectorNormalisationIsScaling | src/geometry/line_segment.rs:47-50 | building the bisector from the direction scaled by any positive factor, as the source's normalisation does, gives this model's bisector with scaled coefficients |
| Segments.IsSame | src/geometry/line_segment.rs:52-55 | two segments are the same exactly when they are equal or one is the other reversed |
| Segments.IsSameReflexiveSymmetric | src/geometry/line_segment.rs:52-55 | `is_same` is reflexive and symmetric, and holds between a segment and its reverse |
| Segments.Line | src/geometry/line_segment.rs:57-59 | the supporting line of a segment of non-zero length is valid and passes through both endpoints |
| Segments.SegmentOnLine | src/geometry/line_segment.rs:57-59 | every point of the segment lies on its supporting line |
| Lines.FromPoints | src/geometry/line.rs:24-31 | the line through two distinct points is valid and passes through both |
| Lines.FromPointAxis | src/geometry/line.rs:33-36 | the line is valid, passes through the point and the point moved by the axis, and has the normal (axis.y, -axis.x) |
| Lines.X | src/geometry/line.rs:38-45 | x is defined exactly when `a != 0`, and is then the unique x putting (x, y) on the line |
| Lines.Y | src/geometry/line.rs:47-54 | y is defined exactly when `b != 0`, and is then the unique y putting (x, y) on the line |
| Lines.IntersectionPoint | src/geometry/line.rs:70-81 | there is no intersection exactly when the determinant vanishes; otherwise the point lies on both lines |
| Lines.IntersectionUnique | src/geometry/line.rs:70-81 | when the determinant is non-zero, any common point of the two lines is the intersection |
| Lines.IntersectionSymmetric | src/geometry/line.rs:70-81 | the intersection does not depend on the order of the two lines |
| Lines.ClosestPoint | src/geometry/line.rs:61-68 | the foot of the perpendicular lies on the line, and the offset to the query is parallel to the normal; the source's `unwrap` cannot fail |
| Lines.ClosestPointOnLine | src/geometry/line.rs:61-68 | a point on the line is its own closest point |
| Lines.ClosestPointIsNearest | src/geometry/line.rs:61-68 | no point of the line is nearer to the query than the closest point |
| Lines.ScaledSameLine | src/geometry/line.rs:11-15 | scaling a line's coefficients by a non-zero factor keeps its point set, its validity and its intersection with any valid line |
| Triangles.SetA | src/geometry/triangle.rs:33-36 | `set_a` replaces vertex a and keeps b and c |
| Triangles.SetB | src/geometry/triangle.rs:43-46 | `set_b` replaces vertex b and keeps a and c |
| Triangles.SetC | src/geometry/triangle.rs:53-56 | `set_c` replaces vertex c and keeps a and b |
| Triangles.Edges | src/geometry/triangle.rs:109-127 | the three edges start at a, b and c in turn, each starting where the previous one ends, the last closing back at a |
| Triangles.Circumcenter | src/geometry/triangle.rs:129-134 | there is no circumcentre exactly when the vertices are collinear, coinciding consecutive vertices included; otherwise the point is equally far from all three vertices |
| Triangles.CircumcenterIgnoresNormalisation | src/geometry/triangle.rs:129-134 | the intersection of the bisectors built from normalised edge directions, as the source builds them, is the model's circumcentre |
| Triangles.Circumcircle | src/geometry/triangle.rs:136-143 | there is a circumcircle exactly when there is a circumcentre; it is centred there and passes the circle's validity check |
| Triangles.CircumcircleContains | src/geometry/triangle.rs:136-143 | a point lies in the circumcircle exactly when it is no farther from the circumcentre than vertex a |
| Triangles.Centroid | src/geometry/triangle.rs:145-150 | the medians meet exactly when the vertices are not collinear, and then at the average of the three vertices |
| Triangles.Scale | src/geometry/triangle.rs:152-164 | each vertex's offset from the centroid is multiplied by the factor; without a centroid the triangle is unchanged |
| Triangles.ScaleByOne | src/geometry/triangle.rs:152-158 | scaling by one is the identity |
| Triangles.ScaleKeepsCentroid | src/geometry/triangle.rs:145-158 | scaling by a non-zero factor keeps the centroid where it is, and keeps both medians proper lines exactly when they were |
| Triangles.UndefinedCentroidCollinear | src/geometry/triangle.rs:145-150 | a vertex on the midpoint of the opposite side (a median through two equal points) makes the triangle collinear, so the centroid is absent there |
| Triangles.Sign | src/geometry/triangle.rs:167-169 | the `sign` helper is twice the signed area of its three points |
| Triangles.ContainsPoint | src/geometry/triangle.rs:166-176 | a point is contained exactly when it lies on the same side of all three edges, a point on an edge's line counting with either side |
| Triangles.ContainsCombinations | src/geometry/triangle.rs:166-176 | every convex combination of the vertices is contained, whichever way the vertices turn |
| Triangles.ContainedIsCombination | src/geometry/triangle.rs:166-176 | for a triangle of non-zero area, every contained point is a convex combination of the vertices |
| Triangles.ContainsPointIsClosedTriangle | src/geometry/triangle.rs:166-176 | for a triangle of non-zero area, the sign test holds exactly for the points of the closed triangle |
| Triangles.ContainsVertices | src/geometry/triangle.rs:166-176 | every vertex is contained |
| Triangles.ContainsEdgePoints | src/geometry/triangle.rs:166-176 | every point of an edge is contained (the boundary counts as inside) |
| Triangles.ContainsPointSymmetric | src/geometry/triangle.rs:166-176 | containment does not depend on the starting vertex or on the order the vertices are listed in |
| Triangles.IsClockwise | src/bevy/debug_draw/drawable.rs:147-150 | a triangle is clockwise exactly when twice its signed area is negative |
| TriangleExamples.RightCircumcenter | src/geometry/triangle.rs:129-134 | a right triangle with legs along the axes has its circumcentre at the midpoint of its hypotenuse |
| TriangleExamples.RightCentroid | src/geometry/triangle.rs:145-150 | the same triangle has its centroid a third of the way along each leg |
| Collision.CircleCircle | src/collision/colliding.rs:12-17 | two circles collide exactly when the squared distance between the centres is below the squared sum of the effective radii |
| Collision.CircleCircleIsDistanceTest | src/collision/colliding.rs:12-17 | for valid circles this is the distance between the centres being below the sum of the effective radii |
| Collision.CircleCircleSymmetric | src/collision/colliding.rs:12-17 | the circle test is symmetric |
| Collision.CircleCollidesWithItself | src/collision/colliding.rs:12-17 | a valid circle collides with itself |
| Collision.CirclesShareAPoint | src/collision/colliding.rs:12-17 | colliding valid circles share a point strictly inside both |
| Collision.CircleSegment | src/collision/colliding.rs:19-24 | a zero-length segment never collides, and a collision needs a positive effective radius |
| Collision.CircleSegmentOverlaps | src/collision/colliding.rs:19-24 | a segment of non-zero length collides with a circle exactly when some point of the segment lies strictly inside it |
| Collision.SegmentCircle | src/collision/colliding.rs:26-30 | segment against circle holds exactly when the segment has non-zero length and some point of it lies strictly inside the circle |
| Collision.Ccw | src/collision/colliding.rs:34-36 | `ccw` holds exactly when the three points turn strictly counter-clockwise |
| Collision.SegmentSegment | src/collision/colliding.rs:32-40 | the test holds exactly when each segment's endpoints lie on different sides of the other's line (strictly left or not), and segments that collide share a point |
| Collision.SegmentSegmentSymmetric | src/collision/colliding.rs:32-40 | the segment test does not depend on which segment comes first |
| Collision.CollinearNeverCollide | src/collision/colliding.rs:32-40 | segments on one line never collide, because the turn test is strict |
| Collision.NoSelfCollision | src/collision/colliding.rs:32-40 | no segment collides with itself |
| Collision.StraddlingSegmentsMeet | src/collision/colliding.rs:32-40 | segments that straddle each other's lines have a common point |
| Collision.SegmentSegmentExamples | src/collision/colliding.rs:32-40 | a horizontal segment is crossed by a vertical one that runs from below it to above it, and not by one that lies wholly above it |
| Collidables.Colliding | examples/maths/colliding.rs:80-92 | the dispatcher picks the test for the two shapes' kinds, and every collision it reports is a real overlap of the two shapes |
| Collidables.CollidingSymmetric | examples/maths/colliding.rs:80-92 | the dispatcher gives the same answer for every pair of kinds with the arguments swapped |
| Collidables.DragCircle | examples/maths/colliding.rs:172-178 | the dragged circle is centred on the first handle, its radius field is at least two, it is valid, and it contains the second handle |
| Collidables.Rebuild | examples/maths/colliding.rs:167-179 | rebuilding a shape from its handles keeps its kind; a segment runs between the two handles, and a circle is valid and contains the second handle |
| Collidables.Reset | examples/maths/colliding.rs:205-215 | a kind switch installs a shape of the chosen kind; the circle is valid, and the zero-length segment collides with nothing |
| Collidables.NothingHitsAPoint | examples/maths/colliding.rs:205-215 | a zero-length segment collides with no shape, in either argument position |
| Collidables.Initial | examples/maths/colliding.rs:63-71 | the initial pair is a segment and a valid circle, and they do not collide |
| Polylines.LineSegments | src/geometry/polyline.rs:13-28 | an empty polyline has no segments; otherwise there is one segment per consecutive vertex pair and no closing segment |
| Polylines.SegmentsChain | src/geometry/polyline.rs:13-28 | the segments run from the first vertex to the last, each starting where the previous one ends |
| Polylines.BestIndex | src/geometry/polyline.rs:36-45 | the scan keeps a segment of non-zero length whose closest point is no farther than any other such segment's, and strictly nearer than every earlier one's |
| Polylines.ClosestPoint | src/geometry/polyline.rs:30-48 | a single vertex is its own answer; otherwise there is no answer exactly when the first segment has zero length, and the answer is some segment's closest point |
| Polylines.ClosestPointIsNearest | src/geometry/polyline.rs:30-48 | no point of any segment is nearer to the query than the answer |
| Polylines.EarliestWins | src/geometry/polyline.rs:39-45 | on ties the earliest segment wins: every earlier segment of non-zero length has a strictly farther closest point |
| Polylines.NearestPoint | src/geometry/polyline.rs:30-48 | the corrected closest point: a single vertex is its own answer, and whenever the first segment has non-zero length the answer is the one the scan as written gives |
| Polylines.NearestPointIsNearest | src/geometry/polyline.rs:30-48 | with zero-length segments skipped wherever they occur, no point of any segment is nearer to the query than the corrected answer |
| Polylines.NearestPointOnPolyline | src/geometry/polyline.rs:30-48 | the corrected answer is a point of one of the polyline's segments |
| Polylines.ZeroLengthFirstSegment | src/geometry/polyline.rs:36-38 | for vertices x, x, y with x != y the scan as written has no answer (its first distance is not a number), while the corrected one answers with the closest point of the segment from x to y |
| VertexLists.Next | src/geometry/vertex_list.rs:18 | the next index wraps around: it is `(i + 1) % n` |
| VertexLists.Edges | src/geometry/vertex_list.rs:14-25 | one edge per vertex, from it to the next, the last one closing back to the first vertex |
| VertexLists.EdgesClosePolyline | src/geometry/vertex_list.rs:14-25 | the closed edges are the open polyline's segments followed by the closing edge |
| VertexLists.IsSimplePolygon | src/geometry/vertex_list.rs:27-42 | the double loop answers true exactly when no examined pair of non-adjacent edges collides |
| VertexLists.ScanPairs | src/geometry/vertex_list.rs:29-41 | the double loop with its early exit, for any pairwise test, answers true exactly when no examined pair hits |
| VertexLists.SmallListsAreSimple | src/geometry/vertex_list.rs:27-42 | every list of at most three vertices is simple |
| VertexLists.IsClockwise | src/geometry/vertex_list.rs:44-52 | a list is clockwise exactly when its shoelace sum is positive |
| VertexLists.ShoelaceReverse | src/geometry/vertex_list.rs:44-72 | reversing the vertices negates the shoelace sum |
| VertexLists.MakeClockwise | src/geometry/vertex_list.rs:54-62 | the result is the list or its reverse, with the same vertices; it is clockwise unless the signed area is zero, when it is the reverse and still not clockwise |
| VertexLists.MakeCounterclockwise | src/geometry/vertex_list.rs:64-72 | the result is the list or its reverse, with the same vertices, and is never clockwise |
| VertexLists.MakeCounterclockwiseIdempotent | src/geometry/vertex_list.rs:64-72 | normalising twice gives the same list as normalising once |
| Selections.RemoveAt | examples/maths/triangulation_ear_clipping.rs:170 | `Vec::remove` shortens the list by one, keeps the elements before the index and shifts the later ones down |
| SortKeys.CompareReals | src/utility/sortable.rs:16-19 | the comparison of two finite scalars answers Less, Equal or Greater exactly as `<`, `==` and `>` do |
| SortKeys.LexCmpLessIffLexLess | src/utility/sortable.rs:199-224 | the recursive lexicographic comparison answers Less exactly when the keys agree on a prefix and are first smaller at the next position |
| SortKeys.LexCmpEqualIffSame | src/utility/sortable.rs:177-189 | the lexicographic comparison answers Equal exactly for identical key lists |
| SortKeys.LexCmpAntisymmetric | src/utility/sortable.rs:199-224 | swapping the arguments flips the answer |
| SortKeys.LexCmpTransitive | src/utility/sortable.rs:199-224 | the strict order is transitive |
| SortKeys.SortableEq | src/utility/sortable.rs:6-11 | `eq` holds exactly for equal wrappers, and agrees with `cmp` answering Equal |
| SortKeys.SortableCmp | src/utility/sortable.rs:15-27 | `cmp` is the lexicographic order on the single key, Less and Greater matching the scalar's order |
| SortKeys.SortableWithEq | src/utility/sortable.rs:42-47 | `eq` compares the keys only, and agrees with `cmp` answering Equal |
| SortKeys.SortableWithCmp | src/utility/sortable.rs:51-63 | `cmp` is the lexicographic order on the key alone, as without a payload: less exactly when the key is smaller |
| SortKeys.Sortable2DEq | src/utility/sortable.rs:71-79 | `eq` holds exactly when both keys agree |
| SortKeys.Sortable2DCmp | src/utility/sortable.rs:86-109 | `cmp` is the lexicographic order on the two keys |
| SortKeys.Sortable2DWithEq | src/utility/sortable.rs:130-138 | `eq` holds exactly when both keys agree, whatever the payloads |
| SortKeys.Sortable2DWithCmp | src/utility/sortable.rs:145-168 | `cmp` is the lexicographic order on the two keys, ignoring the payload |
| SortKeys.Sortable3DEq | src/utility/sortable.rs:177-189 | `eq` holds exactly when all three keys agree |
| SortKeys.Sortable3DCmp | src/utility/sortable.rs:199-235 | `cmp` is the lexicographic order on the three keys |
| SortKeys.Sortable3DWithEq | src/utility/sortable.rs:261-274 | `eq` holds exactly when all three keys agree, whatever the payloads |
| SortKeys.Sortable3DWithCmp | src/utility/sortable.rs:285-323 | `cmp` is the lexicographic order on the three keys, ignoring the payload |
| SortKeys.Sortable3DEqMatchesCmp | src/utility/sortable.rs:177-235 | on checked keys, `eq` agrees with `cmp` answering Equal |
| SortKeys.Sortable3DCmpIsOrder | src/utility/sortable.rs:226-235 | `cmp` is antisymmetric and transitive, so the `Ord` implementation is a total order |
| SortKeys.PayloadIgnored | src/utility/sortable.rs:245-323 | changing the payloads changes neither `eq` nor `cmp`, which match the key-only wrapper's |
| SortKeys.SortableExamples | src/utility/sortable.rs:361-376 | every assertion of the one-key wrapper's unit test: equality, inequality and both strict comparisons |
| SortKeys.SortableWithExamples | src/utility/sortable.rs:379-396 | every assertion of the one-key payload wrapper's unit test, including equality with different payloads and the payload reads |
| SortKeys.Sortable2DExamples | src/utility/sortable.rs:399-423 | every assertion of the two-key wrapper's unit test: equality, inequality in each key and both comparisons on each key |
| SortKeys.Sortable2DWithExamples | src/utility/sortable.rs:426-452 | every assertion of the two-key payload wrapper's unit test, payload reads included |
| SortKeys.Sortable3DExamples | src/utility/sortable.rs:455-488 | every assertion of the three-key wrapper's unit test: equality, inequality in each key and both comparisons on each key |
| SortKeys.Sortable3DWithExamples | src/utility/sortable.rs:491-526 | every assertion of the three-key payload wrapper's unit test, payload reads included |
| Vectors.DistComparisonsMatchSqrt | examples/maths/polyline_simplification.rs:189 | comparing squared distances against squared bounds gives the same answers as comparing the distance itself |
| Simplification.FarFrom | examples/maths/polyline_simplification.rs:189 | the greedy test holds exactly when the distance exceeds the tolerance |
| Simplification.KeptFrom | examples/maths/polyline_simplification.rs:179-198 | from index `i` on, the pass keeps increasing indices not below `i`, none for an empty rest, always ending with the final input vertex |
| Simplification.KeptFromIsGreedyTail | examples/maths/polyline_simplification.rs:179-198 | the pass's indices satisfy the independent description of a greedy tail |
| Simplification.KeptFromUnique | examples/maths/polyline_simplification.rs:179-198 | any index list satisfying the greedy-tail description is what the pass computes |
| Simplification.KeptIndices | examples/maths/polyline_simplification.rs:176-200 | the kept indices are increasing, none for an empty input, and otherwise run from the first vertex to the last |
| Simplification.GreedySelectionUnique | examples/maths/polyline_simplification.rs:176-200 | an index list is a greedy selection (first and last vertex kept, each kept vertex far from the previous one, each dropped vertex near it) exactly when it is what the pass keeps |
| Simplification.GreedyIndices | examples/maths/polyline_simplification.rs:176-200 | for a tolerance, the kept indices are increasing and run from the first vertex to the last |
| Simplification.GreedyKeepsFarDropsNear | examples/maths/polyline_simplification.rs:189-190 | each kept vertex other than the final one is farther than the tolerance from the one kept before it, and each dropped vertex is within the tolerance of the last one kept |
| Simplification.Greedy | examples/maths/polyline_simplification.rs:176-200 | the output is a subsequence of the input that keeps its first and last vertex, and is empty only for an empty input |
| Simplification.KeptIndicesIdempotent | examples/maths/polyline_simplification.rs:176-200 | running the pass on its own output keeps every vertex |
| Simplification.GreedyIdempotent | examples/maths/polyline_simplification.rs:176-200 | simplifying a simplified polyline again with the same tolerance changes nothing |
| Simplification.Furthest | examples/maths/polyline_simplification.rs:219-231 | the scan returns the first index of maximal distance from the anchor segment |
| Simplification.Subdivide | examples/maths/polyline_simplification.rs:209-277 | the result is increasing indices from the anchor's start to its end, and every dropped vertex lies within the tolerance of the output segment spanning it, or that segment has zero length |
| Simplification.SubdivideKeepsOnlyEnds | examples/maths/polyline_simplification.rs:217-232 | the result is just the anchor's two ends exactly when no vertex in between lies beyond the tolerance, or the anchor has zero length |
| Simplification.SubdivideSplitsAtFurthest | examples/maths/polyline_simplification.rs:232-266 | when the furthest vertex lies beyond the tolerance, the result is the two halves split there and joined with the split vertex appearing once |
| Simplification.PeuckerIndices | examples/maths/polyline_simplification.rs:279-296 | none for an empty input, the only vertex of a single one, otherwise increasing indices from the first vertex to the last, every dropped vertex within the tolerance of its spanning segment |
| Simplification.DouglasPeucker | examples/maths/polyline_simplification.rs:279-296 | the output is a subsequence of the input that keeps its first and last vertex |
| Simplification.DouglasPeuckerWithinTolerance | examples/maths/polyline_simplification.rs:217-296 | every dropped vertex lies within the tolerance of the output segment spanning it, unless that segment has zero length |
| Simplification.DouglasPeuckerFlat | examples/maths/polyline_simplification.rs:279-296 | with no vertex beyond the tolerance from the chord, the output is the first and last vertex |
| BowyerWatson.SumPrepend | examples/maths/triangulation_bowyer_watson.rs:136-139 | the sum the loop accumulates from first to last equals the sum taken from the front |
| BowyerWatson.Center | examples/maths/triangulation_bowyer_watson.rs:136-140 | the centre, counted once per point, adds up to the sum of the points: it is their average |
| BowyerWatson.CenterOfOnePoint | examples/maths/triangulation_bowyer_watson.rs:136-140 | the average of one point is that point |
| BowyerWatson.InitialSuperTriangle | examples/maths/triangulation_bowyer_watson.rs:141-145 | the first super triangle has the source's shape around the centre, its medians are proper lines and it has a circumcircle |
| BowyerWatson.Grow | examples/maths/triangulation_bowyer_watson.rs:146-159 | a grown triangle contains every point, and a triangle that already contains them all is returned unchanged |
| BowyerWatson.GrowFuelIndependent | examples/maths/triangulation_bowyer_watson.rs:146-159 | more fuel never changes a successful growth's result |
| BowyerWatson.InCircumcircleIsContainment | examples/maths/triangulation_bowyer_watson.rs:176-177 | the squared circumcircle test is the source's `circumcircle().contains_point` |
| BowyerWatson.BadFrom | examples/maths/triangulation_bowyer_watson.rs:174-194 | the scan fails exactly when some triangle has no circumcircle; otherwise it lists, in increasing order, exactly the triangles whose circumcircle contains the point |
| BowyerWatson.OwnBoundary | examples/maths/triangulation_bowyer_watson.rs:199-218 | a bad triangle contributes exactly those of its edges that no other bad triangle shares |
| BowyerWatson.BoundaryFrom | examples/maths/triangulation_bowyer_watson.rs:198-219 | the edges gathered from the bad triangles listed from a position on are exactly their unshared edges |
| BowyerWatson.Boundary | examples/maths/triangulation_bowyer_watson.rs:195-219 | the boundary holds exactly the edges of bad triangles that no other bad triangle shares |
| BowyerWatson.RemoveDescending | examples/maths/triangulation_bowyer_watson.rs:236-238 | removing from the highest index down shortens the list by the number of indices removed |
| BowyerWatson.Without | examples/maths/triangulation_bowyer_watson.rs:236-238 | the survivors of a removal are elements of the list, and every unlisted element survives |
| BowyerWatson.RemoveDescendingIsWithout | examples/maths/triangulation_bowyer_watson.rs:236-238 | removing by descending index deletes exactly the listed triangles and keeps the others in order |
| BowyerWatson.Fan | examples/maths/triangulation_bowyer_watson.rs:239-242 | one new triangle per boundary edge, made of the edge's ends and the point |
| BowyerWatson.Replace | examples/maths/triangulation_bowyer_watson.rs:236-242 | after replacement the unlisted triangles come first in order, followed by the fan |
| BowyerWatson.Insert | examples/maths/triangulation_bowyer_watson.rs:173-243 | insertion fails exactly when a triangle has no circumcircle; otherwise it replaces the bad triangles by the fan of their boundary, and with no bad triangle changes nothing |
| BowyerWatson.InsertKeepsVertices | examples/maths/triangulation_bowyer_watson.rs:173-243 | insertion only uses existing vertices and the new point |
| BowyerWatson.InsertAll | examples/maths/triangulation_bowyer_watson.rs:173-244 | inserting no points leaves the triangles as they are, and the only failure is a missing circumcircle |
| BowyerWatson.InsertAllKeepsVertices | examples/maths/triangulation_bowyer_watson.rs:173-244 | after all insertions every vertex is an input point or a vertex of the super triangle |
| BowyerWatson.DropSuper | examples/maths/triangulation_bowyer_watson.rs:269-278 | the final filter keeps exactly the triangles sharing no vertex with the super triangle |
| BowyerWatson.SuperTriangle | examples/maths/triangulation_bowyer_watson.rs:141-160 | a super triangle exists exactly when the growth loop succeeds within the fuel |
| BowyerWatson.AllowedIn | examples/maths/triangulation_bowyer_watson.rs:162-278 | a vertex is allowed exactly when it is an input point or a vertex of the super triangle |
| BowyerWatson.DropSuperLeavesInputs | examples/maths/triangulation_bowyer_watson.rs:269-278 | after the filter, every vertex of every triangle is an input point |
| BowyerWatson.RunLeavesInputs | examples/maths/triangulation_bowyer_watson.rs:162-278 | inserting every point into the super triangle and filtering leaves only input points as vertices |
| BowyerWatson.Triangulate | examples/maths/triangulation_bowyer_watson.rs:131-281 | the run fails on no points and when the super triangle cannot be grown; a successful run's triangles have only input points as vertices |
| EarClipping.Prev | examples/maths/triangulation_ear_clipping.rs:125 | the previous index wraps around: it is `(i + n - 1) % n` |
| EarClipping.CandidateSides | examples/maths/triangulation_ear_clipping.rs:124-138 | the candidate triangle's corner is the vertex examined, and its first two sides are the polygon's edges into and out of that vertex |
| EarClipping.EarIsEmptyCorner | examples/maths/triangulation_ear_clipping.rs:140-151 | a vertex is an ear exactly when its corner turns clockwise and no other vertex of the list lies in the closed candidate triangle |
| EarClipping.FirstEar | examples/maths/triangulation_ear_clipping.rs:123-173 | the scan returns the first ear at or after an index, or none when there is none |
| EarClipping.Clip | examples/maths/triangulation_ear_clipping.rs:122-185 | a successful run on `n` vertices emits `n - 2` triangles made of list vertices, every one but the last turning clockwise |
| EarClipping.EarThenRest | examples/maths/triangulation_ear_clipping.rs:168-172 | an ear's triangle in front of triangles from the shortened list keeps both properties |
| EarClipping.NoEarFails | examples/maths/triangulation_ear_clipping.rs:122-174 | a pass that finds no ear fails the run where the source would loop forever |
| EarClipping.ClipsFirstEar | examples/maths/triangulation_ear_clipping.rs:168-172 | the first ear is the one clipped: its triangle comes first and only its vertex is removed |
| EarClipping.Triangulate | examples/maths/triangulation_ear_clipping.rs:105-186 | fewer than three vertices or a polygon that is not simple give no triangles; otherwise the counterclockwise list is clipped into `n - 2` triangles of input vertices |

## Left out

- Floating point: rounding, infinities and NaN. Finiteness checks hold for every real. NaN appears only where the source depends on it, as explicit branches: zero-length segments in collision, closest point and Douglas-Peucker.
- Square roots. `length`, `axis` and `normalize` on segments, lines and rays take the root as a parameter with its defining property, or are not modelled.
- `Line2::axis` (src/geometry/line.rs:56-59) and `LineSegment2::length` and `axis` (src/geometry/line_segment.rs:31-39) are not modelled, because each is a square root and nothing in the model needs them.
- The triangle's angles and angle bisectors (src/geometry/triangle.rs:58-107) are not modelled. They need `acos`, `atan2` and normalisation, and no modelled algorithm uses them.
- The getters `a`, `b`, `c` are the datatype's fields. The data accessors of the payload wrappers are the `data` field, and the mutable ones (`data_mut`) have no counterpart in immutable data.
- Building a `Sortable*` wrapper runs no check. The panics come from the `assert!` on `SortableCheck` (src/utility/sortable.rs:325-340) inside the comparisons. `eq` panics when a key of its left-hand operand is not finite. `partial_cmp` and `cmp` panic when a key on either side is not finite. The model keeps the check as a predicate and states exactly those demands as the requires of `SortableEq`, `SortableCmp` and their siblings. A non-finite key is only distinguished, never ordered.
- `PartialOrd` and `Ord` both return the same comparison in the source. The model has one comparison per wrapper.
- `SortKeys.SortableCmp` and the other comparisons are proved to be a total order directly only for three keys (`Sortable3DCmpIsOrder`). The one- and two-key comparisons are proved equal to the same `LexCmp`, whose order properties are lemmas.
- Rendering, the stepper, the egui panels and the dragging of handles in the examples. The handles reach the model as parameters.
- `BowyerWatson.Grow`: the source's growth loop has no bound. The model takes a `fuel` count and fails with `SuperTriangleNotFound` when it runs out. `GrowFuelIndependent` shows that fuel only cuts the loop short.
- `BowyerWatson.Triangulate`: an empty input fails with `EmptyInput`. The source divides by zero there and goes on with a NaN super triangle.
- `BowyerWatson.Triangulate` does not prove that the result is a Delaunay triangulation, nor that the final 1.2 scaling keeps every point inside. Only the vertex property is proved.
- `EarClipping.Clip`: the source loops forever when a pass finds no ear. The model fails with `NoEar`. That a simple polygon always has an ear (the two-ears theorem) is not proved, so success is not promised.
- `EarClipping.Triangulate` does not prove that the triangles cover the polygon without overlap.
- `Segments.PerpendicularBisector` keeps the unnormalised direction. `BisectorNormalisationIsScaling` and `Lines.ScaledSameLine` show this describes the same line with scaled coefficients.
- `Collision.SegmentSegment` is proved sound (colliding segments share a point) but not complete. Touching and collinear overlapping segments are reported as not colliding, as the source's strict test does.
- `Collidables.Colliding` states soundness only. Each kind's test is characterised exactly by its own member in `Collision`.
- `Circles.ClosestPoint` and `Triangles.Circumcircle` take the square-rooted distance as a parameter rather than computing it.
- `Rays.New`: a zero axis normalises to zero in the source and then fails the validity check. The model requires a non-zero axis. In a default build the check is empty and the ray keeps the zero axis; that ray is not modelled.
- `Rays.ClosestPoint`: in a default build a ray whose axis is not of unit length still computes `start + max(0, (p - start)·axis)·axis`. That point is not the nearest one, and the model requires a unit axis.
- `Lines.FromPoints` and `Lines.FromPointAxis`: in a default build, equal points or a zero axis give the line with all-zero coefficients. The model requires distinct points and a non-zero axis. Every line lemma needs a non-zero normal.
- `Segments.PerpendicularBisector`: in a default build a zero-length segment gives the line with all-zero coefficients. The model requires a segment of non-zero length. `Triangles.Circumcenter` handles the one place this reaches a result, returning no centre.
- `Circles.ContainsPoint` and the other circle queries: in a default build a non-positive radius field is not rejected; containment then holds only for the centre (radius 0) or for no point. The model requires a positive radius field.
- The source's unit tests with literal numbers for the circumcentre and the centroid, and for the segment crossing, are stated symbolically (`TriangleExamples`, `Collision.SegmentSegmentExamples`). The literal cases are instances.
- Constructors that only run a validity check (`new` on every shape) are the datatype constructors plus the `Valid` predicates.

## Findings

| source | as written | input that shows it | evidently intended | confidence | as-written member | corrected member |
|---|---|---|---|---|---|---|
| src/geometry/polyline.rs:36-46 | the scan starts from the first segment's distance; a zero-length first segment makes that distance 0/0, a NaN that no later `<` comparison can beat, so a NaN point is returned | vertices (0,0), (0,0), (1,0) and any finite query | zero-length segments skipped wherever they occur and the nearest point of the polyline returned | high, not executed | Polylines.ClosestPoint, Polylines.ZeroLengthFirstSegment | Polylines.NearestPoint, Polylines.NearestPointIsNearest |

=== FILE: aabbs.dfy ===
/** Axis-aligned boxes given by their centre and full size. */
module Aabbs {
  import opened Vectors

  datatype Aabb = Aabb(position: Vec2, size: Vec2)

  /** The validity check: no negative extent. */
  predicate Valid(b: Aabb) { b.size.x >= 0.0 && b.size.y >= 0.0 }

  /** The lower-left and upper-right corners. */
  function Min(b: Aabb): Vec2 { Sub(b.position, Mul(b.size, 0.5)) }
  function Max(b: Aabb): Vec2 { Add(b.position, Mul(b.size, 0.5)) }

  /** The closed box, boundary included. */
  predicate InBounds(b: Aabb, p: Vec2)
  {
    Min(b).x <= p.x <= Max(b).x && Min(b).y <= p.y <= Max(b).y
  }

  /** One component of glam's `clamp`: `max` with the lower bound, then `min`
      with the upper one. glam checks the order of the bounds only in its
      debug-assertion build; without the check, bounds in the wrong order
      give the upper bound. */
  function ClampScalar(x: real, lo: real, hi: real): (r: real)
    ensures lo <= hi ==> lo <= r <= hi
    ensures lo <= x <= hi ==> r == x
    ensures lo <= hi && x < lo ==> r == lo
    ensures x > hi ==> r == hi
    ensures lo > hi ==> r == hi
  {
    var m := if x > lo then x else lo;
    if m < hi then m else hi
  }

  /** The nearest point of the box: each coordinate clamped to its range.
      On an axis of negative size the range is empty and the coordinate is
      the upper bound `position + size * 0.5`. */
  function ClosestPoint(b: Aabb, p: Vec2): (r: Vec2)
    ensures Valid(b) ==> InBounds(b, r)
    ensures InBounds(b, p) ==> r == p
    ensures b.size.x < 0.0 ==> r.x == Max(b).x
    ensures b.size.y < 0.0 ==> r.y == Max(b).y
  {
    Vec2(ClampScalar(p.x, Min(b).x, Max(b).x), ClampScalar(p.y, Min(b).y, Max(b).y))
  }

  /** Clamping a point that is already clamped changes nothing. */
  lemma ClosestPointIdempotent(b: Aabb, p: Vec2)
    ensures ClosestPoint(b, ClosestPoint(b, p)) == ClosestPoint(b, p)
  {
  }

  /** The clamped point is nearest coordinate by coordinate, hence in squared
      distance, among all points of the box. */
  lemma ClosestPointIsNearest(b: Aabb, p: Vec2, q: Vec2)
    requires InBounds(b, q)
    ensures DistSq(p, ClosestPoint(b, p)) <= DistSq(p, q)
  {
    var r := ClosestPoint(b, p);
    NearerSquare(p.x - r.x, p.x - q.x);
    NearerSquare(p.y - r.y, p.y - q.y);
  }

  /** A difference of no greater magnitude has no greater square. */
  lemma NearerSquare(d: real, e: real)
    requires (d >= 0.0 && e >= d) || (d <= 0.0 && e <= d)
    ensures Sq(d) <= Sq(e)
  {
    if d >= 0.0 && e >= d {
      SquareMonotonic(d, e);
    } else {
      SquareMonotonic(-d, -e);
      ProdNegNeg(d, d);
      ProdNegNeg(e, e);
    }
  }

  /** Strict containment: the open box. Boundary points are outside. */
  function ContainsPoint(b: Aabb, p: Vec2): (r: bool)
    ensures r <==> InBounds(b, p) && p.x != Min(b).x && p.x != Max(b).x
                                  && p.y != Min(b).y && p.y != Max(b).y
  {
    p.x > b.position.x - b.size.x * 0.5
    && p.x < b.position.x + b.size.x * 0.5
    && p.y > b.position.y - b.size.y * 0.5
    && p.y < b.position.y + b.size.y * 0.5
  }

  /** A contained point is its own closest point, and a box with no width or
      no height contains nothing. */
  lemma ContainsPointFacts(b: Aabb, p: Vec2)
    ensures ContainsPoint(b, p) ==> ClosestPoint(b, p) == p
    ensures b.size.x <= 0.0 || b.size.y <= 0.0 ==> !ContainsPoint(b, p)
  {
  }
}

=== FILE: bowyerwatson.dfy ===
/** Bowyer-Watson triangulation of a point set: start from a triangle that
    contains every point, insert the points one at a time by replacing the
    triangles whose circumcircle contains the new point with a fan of
    triangles around it, and finally drop every triangle that touches the
    starting triangle. */
module BowyerWatson {
  import opened Options
  import opened Vectors
  import opened Selections
  import Segments
  import Circles
  import Triangles

  /** Why a run aborts. */
  datatype Failure =
    | EmptyInput
      // the centre of no points is 0/0
    | SuperTriangleNotFound
      // the growth loop ran out of fuel before containing every point
    | NoCircumcircle
      // a triangle has no circumcircle, so the source's `unwrap` panics

  // ---------------------------------------------------------------------------
  // The super triangle

  /** The sum of the points, added in order. */
  function Sum(points: seq<Vec2>): Vec2
  {
    if |points| == 0 then Zero else Add(Sum(points[..|points| - 1]), points[|points| - 1])
  }

  /** Accumulating from the front gives the same sum as the loop, which
      adds the points from first to last. */
  lemma {:induction false} SumPrepend(p: Vec2, points: seq<Vec2>)
    ensures Sum([p] + points) == Add(p, Sum(points))
    decreases |points|
  {
    var all := [p] + points;
    if |points| > 0 {
      var init := points[..|points| - 1];
      assert all[..|all| - 1] == [p] + init;
      SumPrepend(p, init);
    } else {
      assert all[..|all| - 1] == [];
    }
  }

  /** The average of the points: the point that, counted once per input
      point, adds up to their sum. */
  function Center(points: seq<Vec2>): (c: Vec2)
    requires |points| > 0
    ensures Mul(c, |points| as real) == Sum(points)
  {
    var n := |points| as real;
    var s := Sum(points);
    assert s.x * (1.0 / n) * n == s.x && s.y * (1.0 / n) * n == s.y;
    Mul(s, 1.0 / n)
  }

  /** The average of a single point is that point. */
  lemma CenterOfOnePoint(p: Vec2)
    ensures Center([p]) == p
  {
    assert [p][..0] == [];
    assert Sum([p]) == Add(Zero, p) == p;
    assert 1.0 / (|[p]| as real) == 1.0;
  }

  /** The first super triangle, placed around the centre `c`. Its medians are
      proper lines and its vertices are not collinear, so it can be scaled
      and has a circumcircle. */
  function InitialSuperTriangle(c: Vec2): (t: Triangles.Triangle2)
    ensures Triangles.CentroidDefined(t)
    ensures HasCircumcircle(t)
    ensures Sub(t.b, t.a) == Vec2(0.0, 200.0) && Sub(t.c, t.a) == Vec2(250.0, 100.0)
  {
    var t := Triangles.Triangle2(Add(c, Vec2(-100.0, -100.0)), Add(c, Vec2(-100.0, 100.0)), Add(c, Vec2(150.0, 0.0)));
    assert Orientation(t.a, t.b, t.c) == -50000.0;
    t
  }

  /** Every point lies in the triangle. */
  predicate ContainsAll(t: Triangles.Triangle2, points: seq<Vec2>)
  {
    forall i :: 0 <= i < |points| ==> Triangles.ContainsPoint(t, points[i])
  }

  /** The growth loop: while some point lies outside, scale the triangle by
      1.1 about its centroid. The source loops until it succeeds; here at
      most `fuel` rounds are taken. */
  function Grow(t: Triangles.Triangle2, points: seq<Vec2>, fuel: nat): (r: Option<Triangles.Triangle2>)
    requires Triangles.CentroidDefined(t)
    ensures r.Some? ==> ContainsAll(r.value, points) && Triangles.CentroidDefined(r.value)
    ensures ContainsAll(t, points) ==> r == Some(t)
    decreases fuel
  {
    if ContainsAll(t, points) then Some(t)
    else if fuel == 0 then None
    else
      Triangles.ScaleKeepsCentroid(t, 1.1);
      Grow(Triangles.Scale(t, 1.1), points, fuel - 1)
  }

  /** Fuel only cuts the loop short: a run that succeeds gives the same
      triangle with any more fuel. */
  lemma {:induction false} GrowFuelIndependent(t: Triangles.Triangle2, points: seq<Vec2>, fuel: nat, more: nat)
    requires Triangles.CentroidDefined(t) && fuel <= more
    requires Grow(t, points, fuel).Some?
    ensures Grow(t, points, more) == Grow(t, points, fuel)
    decreases fuel
  {
    if !ContainsAll(t, points) {
      var u := Triangles.Scale(t, 1.1);
      Triangles.ScaleKeepsCentroid(t, 1.1);
      assert Grow(t, points, fuel) == Grow(u, points, fuel - 1);
      assert Grow(t, points, more) == Grow(u, points, more - 1);
      GrowFuelIndependent(u, points, fuel - 1, more - 1);
    }
  }

  // ---------------------------------------------------------------------------
  // Bad triangles

  /** The triangle has a circumcircle: its vertices are not collinear, which
      is exactly when the circumcentre exists. */
  predicate HasCircumcircle(t: Triangles.Triangle2)
  {
    Orientation(t.a, t.b, t.c) != 0.0
  }

  /** The circumcircle test: `p` is no farther from the circumcentre than
      the vertices are. */
  predicate InCircumcircle(t: Triangles.Triangle2, p: Vec2)
    requires HasCircumcircle(t)
  {
    var cc := Triangles.Circumcenter(t).value;
    DistSq(cc, p) <= DistSq(cc, t.a)
  }

  /** The test is the circumcircle's point containment, whatever the square
      root of the radius computation. */
  lemma InCircumcircleIsContainment(t: Triangles.Triangle2, dist: real, p: Vec2)
    requires HasCircumcircle(t)
    requires dist >= 0.0 && Sq(dist) == DistSq(Triangles.Circumcenter(t).value, t.a)
    ensures Triangles.Circumcircle(t, dist).Some?
    ensures Circles.ContainsPoint(Triangles.Circumcircle(t, dist).value, p) <==> InCircumcircle(t, p)
  {
    Triangles.CircumcircleContains(t, dist, p);
  }

  /** The indices, from `i` on, of the triangles whose circumcircle contains
      `p`, in order; the scan aborts at a triangle without a circumcircle. */
  function BadFrom(tris: seq<Triangles.Triangle2>, p: Vec2, i: nat): (r: Result<seq<nat>, Failure>)
    requires i <= |tris|
    ensures r.Err? <==> exists j :: i <= j < |tris| && !HasCircumcircle(tris[j])
    ensures r.Err? ==> r.error == NoCircumcircle
    ensures r.Ok? ==> Increasing(r.value, |tris|) && forall k :: 0 <= k < |r.value| ==> i <= r.value[k]
    ensures r.Ok? ==> forall j :: i <= j < |tris| ==> (j in r.value <==> InCircumcircle(tris[j], p))
    decreases |tris| - i
  {
    if i == |tris| then Ok([])
    else if !HasCircumcircle(tris[i]) then Err(NoCircumcircle)
    else
      match BadFrom(tris, p, i + 1)
      case Err(e) => Err(e)
      case Ok(rest) =>
        var here := if InCircumcircle(tris[i], p) then [i] else [];
        BadStep(tris, p, i, here, rest);
        Ok(here + rest)
  }

  /** Putting `i`, when its triangle is bad, in front of the bad indices
      after it gives the bad indices from `i` on. */
  lemma BadStep(tris: seq<Triangles.Triangle2>, p: Vec2, i: nat, here: seq<nat>, rest: seq<nat>)
    requires i < |tris| && forall j :: i <= j < |tris| ==> HasCircumcircle(tris[j])
    requires here == if InCircumcircle(tris[i], p) then [i] else []
    requires Increasing(rest, |tris|) && forall k :: 0 <= k < |rest| ==> i + 1 <= rest[k]
    requires forall j :: i + 1 <= j < |tris| ==> (j in rest <==> InCircumcircle(tris[j], p))
    ensures Increasing(here + rest, |tris|) && forall k :: 0 <= k < |here + rest| ==> i <= (here + rest)[k]
    ensures forall j :: i <= j < |tris| ==> (j in here + rest <==> InCircumcircle(tris[j], p))
  {
    if here != [] {
      ConsIncreasing(i, rest, |tris|);
    }
    assert forall j :: j in here + rest <==> j in here || j in rest;
  }

  // ---------------------------------------------------------------------------
  // Boundary of the bad region

  /** Some other bad triangle has an edge that `is_same` as `e`. */
  predicate SharedEdge(tris: seq<Triangles.Triangle2>, bad: seq<nat>, owner: nat, e: Segments.LineSegment2)
    requires forall k :: 0 <= k < |bad| ==> bad[k] < |tris|
  {
    exists k, m :: 0 <= k < |bad| && bad[k] != owner && 0 <= m < 3
                   && Segments.IsSame(e, Triangles.Edges(tris[bad[k]])[m])
  }

  /** The edges of the bad triangle at `owner` that no other bad triangle
      shares, in edge order. */
  function OwnBoundary(tris: seq<Triangles.Triangle2>, bad: seq<nat>, owner: nat): (r: seq<Segments.LineSegment2>)
    requires owner < |tris| && forall k :: 0 <= k < |bad| ==> bad[k] < |tris|
    ensures forall e :: e in r <==> e in Triangles.Edges(tris[owner]) && !SharedEdge(tris, bad, owner, e)
  {
    var es := Triangles.Edges(tris[owner]);
    (if SharedEdge(tris, bad, owner, es[0]) then [] else [es[0]])
    + (if SharedEdge(tris, bad, owner, es[1]) then [] else [es[1]])
    + (if SharedEdge(tris, bad, owner, es[2]) then [] else [es[2]])
  }

  /** The boundary edges contributed by the bad triangles from position `k`
      of `bad` on. */
  function BoundaryFrom(tris: seq<Triangles.Triangle2>, bad: seq<nat>, k: nat): (r: seq<Segments.LineSegment2>)
    requires k <= |bad| && forall j :: 0 <= j < |bad| ==> bad[j] < |tris|
    ensures forall e :: e in r <==>
              exists j :: k <= j < |bad| && e in Triangles.Edges(tris[bad[j]]) && !SharedEdge(tris, bad, bad[j], e)
    decreases |bad| - k
  {
    if k == |bad| then []
    else
      var own := OwnBoundary(tris, bad, bad[k]);
      var rest := BoundaryFrom(tris, bad, k + 1);
      assert forall e :: e in own + rest <==> e in own || e in rest;
      own + rest
  }

  /** The boundary of the bad region: every edge of a bad triangle that no
      other bad triangle shares, and only those. */
  function Boundary(tris: seq<Triangles.Triangle2>, bad: seq<nat>): (r: seq<Segments.LineSegment2>)
    requires forall j :: 0 <= j < |bad| ==> bad[j] < |tris|
    ensures forall e :: e in r <==>
              exists j :: 0 <= j < |bad| && e in Triangles.Edges(tris[bad[j]]) && !SharedEdge(tris, bad, bad[j], e)
  {
    BoundaryFrom(tris, bad, 0)
  }

  // ---------------------------------------------------------------------------
  // Removal by descending index

  /** The source's removal loop: remove the listed indices from the highest
      down, so that no removal shifts an index still to be removed. */
  function RemoveDescending<X>(s: seq<X>, idx: seq<nat>): (r: seq<X>)
    requires Increasing(idx, |s|)
    ensures |r| == |s| - |idx|
    decreases |idx|
  {
    if |idx| == 0 then s
    else
      var last := idx[|idx| - 1];
      RemoveDescending(RemoveAt(s, last), idx[..|idx| - 1])
  }

  /** The elements from index `i` on whose index is not listed, in order. */
  function Without<X>(s: seq<X>, idx: seq<nat>, i: nat): (r: seq<X>)
    requires i <= |s|
    ensures forall x :: x in r ==> x in s[i..]
    ensures forall j :: i <= j < |s| && j !in idx ==> s[j] in r
    decreases |s| - i
  {
    if i == |s| then []
    else (if i in idx then [] else [s[i]]) + Without(s, idx, i + 1)
  }

  /** Removing by descending index deletes exactly the listed elements and
      keeps the others in order. */
  lemma {:induction false} RemoveDescendingIsWithout<X>(s: seq<X>, idx: seq<nat>)
    requires Increasing(idx, |s|)
    ensures RemoveDescending(s, idx) == Without(s, idx, 0)
    decreases |idx|
  {
    if |idx| > 0 {
      var last := idx[|idx| - 1];
      var front := idx[..|idx| - 1];
      var t := RemoveAt(s, last);
      FrontBelowLast(idx, front, |s|);
      assert RemoveDescending(s, idx) == RemoveDescending(t, front);
      RemoveDescendingIsWithout(t, front);
      WithoutAfterRemoval(s, idx, 0);
    } else {
      WithoutNoneListed(s, idx, 0);
    }
  }

  /** Every index but the highest is below it, and they still fit once one
      element is gone. */
  lemma FrontBelowLast(idx: seq<nat>, front: seq<nat>, n: nat)
    requires Increasing(idx, n) && |idx| > 0 && front == idx[..|idx| - 1]
    ensures forall j :: j in front ==> j < idx[|idx| - 1]
    ensures forall j :: j in idx ==> j <= idx[|idx| - 1]
    ensures Increasing(front, n - 1)
  {
    assert forall k :: 0 <= k < |front| ==> front[k] == idx[k];
    forall j | j in front
      ensures j < idx[|idx| - 1]
    {
      var k :| 0 <= k < |front| && front[k] == j;
      assert idx[k] == j;
    }
    forall j | j in idx
      ensures j <= idx[|idx| - 1]
    {
      var k :| 0 <= k < |idx| && idx[k] == j;
    }
  }

  /** Dropping the highest listed index first and then the others gives the
      same survivors as dropping them all at once. */
  lemma {:induction false} WithoutAfterRemoval<X>(s: seq<X>, idx: seq<nat>, i: nat)
    requires Increasing(idx, |s|) && |idx| > 0 && i <= idx[|idx| - 1]
    ensures Without(RemoveAt(s, idx[|idx| - 1]), idx[..|idx| - 1], i) == Without(s, idx, i)
    decreases idx[|idx| - 1] - i
  {
    var last := idx[|idx| - 1];
    var front := idx[..|idx| - 1];
    var t := RemoveAt(s, last);
    FrontBelowLast(idx, front, |s|);
    if i == last {
      WithoutAtLast(s, idx);
    } else {
      WithoutAfterRemoval(s, idx, i + 1);
      ListedBelowLast(idx, i);
      WithoutStep(t, front, s, idx, i);
    }
  }

  /** Below the highest listed index, an index is listed before and after
      the highest one is dropped alike. */
  lemma ListedBelowLast(idx: seq<nat>, i: nat)
    requires |idx| > 0 && i < idx[|idx| - 1]
    ensures (i in idx[..|idx| - 1]) <==> (i in idx)
  {
    assert idx == idx[..|idx| - 1] + [idx[|idx| - 1]];
  }

  /** Two selections that agree after `i`, on the element at `i` and on
      whether `i` is listed agree from `i` on. */
  lemma WithoutStep<X>(s1: seq<X>, idx1: seq<nat>, s2: seq<X>, idx2: seq<nat>, i: nat)
    requires i < |s1| && i < |s2| && s1[i] == s2[i]
    requires (i in idx1) <==> (i in idx2)
    requires Without(s1, idx1, i + 1) == Without(s2, idx2, i + 1)
    ensures Without(s1, idx1, i) == Without(s2, idx2, i)
  {
  }

  /** At the highest listed index both sides keep exactly what follows it. */
  lemma WithoutAtLast<X>(s: seq<X>, idx: seq<nat>)
    requires Increasing(idx, |s|) && |idx| > 0
    ensures Without(RemoveAt(s, idx[|idx| - 1]), idx[..|idx| - 1], idx[|idx| - 1]) == Without(s, idx, idx[|idx| - 1])
  {
    var last := idx[|idx| - 1];
    var front := idx[..|idx| - 1];
    var t := RemoveAt(s, last);
    FrontBelowLast(idx, front, |s|);
    WithoutNoneListed(t, front, last);
    WithoutNoneListed(s, idx, last + 1);
    assert t[last..] == s[last + 1..];
  }

  /** From an index past every listed one, nothing is removed. */
  lemma {:induction false} WithoutNoneListed<X>(s: seq<X>, idx: seq<nat>, i: nat)
    requires i <= |s| && forall j :: j in idx ==> j < i
    ensures Without(s, idx, i) == s[i..]
    decreases |s| - i
  {
    if i < |s| {
      WithoutNoneListed(s, idx, i + 1);
      assert s[i..] == [s[i]] + s[i + 1..];
    }
  }

  // ---------------------------------------------------------------------------
  // Inserting one point

  /** One new triangle per boundary edge: the edge's ends and the point. */
  function Fan(edges: seq<Segments.LineSegment2>, p: Vec2): (r: seq<Triangles.Triangle2>)
    ensures |r| == |edges|
    ensures forall i :: 0 <= i < |r| ==> r[i] == Triangles.Triangle2(edges[i].start, edges[i].end, p)
  {
    seq(|edges|, i requires 0 <= i < |edges| => Triangles.Triangle2(edges[i].start, edges[i].end, p))
  }

  /** Replace the listed triangles by the fan of `boundary` around `p`: the
      other triangles keep their order and the fan follows them. */
  function Replace(tris: seq<Triangles.Triangle2>, bad: seq<nat>, boundary: seq<Segments.LineSegment2>, p: Vec2)
    : (r: seq<Triangles.Triangle2>)
    requires Increasing(bad, |tris|)
    ensures |bad| <= |tris|
    ensures |r| == |tris| - |bad| + |boundary|
    ensures r[..|tris| - |bad|] == Without(tris, bad, 0)
    ensures r[|tris| - |bad|..] == Fan(boundary, p)
  {
    var kept := RemoveDescending(tris, bad);
    RemoveDescendingIsWithout(tris, bad);
    var fan := Fan(boundary, p);
    assert (kept + fan)[..|kept|] == kept && (kept + fan)[|kept|..] == fan;
    kept + fan
  }

  /** One insertion step. It fails exactly when some triangle has no
      circumcircle. Otherwise the triangles whose circumcircle contains `p`
      are removed, the others keep their order, and one triangle per
      boundary edge is appended; when no triangle is bad nothing changes. */
  function Insert(tris: seq<Triangles.Triangle2>, p: Vec2): (r: Result<seq<Triangles.Triangle2>, Failure>)
    ensures r.Err? <==> BadFrom(tris, p, 0).Err?
    ensures r.Ok? ==> r.value == Replace(tris, BadFrom(tris, p, 0).value, Boundary(tris, BadFrom(tris, p, 0).value), p)
    ensures r.Ok? && BadFrom(tris, p, 0).value == [] ==> r.value == tris
  {
    match BadFrom(tris, p, 0)
    case Err(e) => Err(e)
    case Ok(bad) =>
      if |bad| == 0 then
        WithoutNoneListed(tris, bad, 0);
        Ok(tris)
      else
        Ok(Replace(tris, bad, Boundary(tris, bad), p))
  }

  /** Every vertex of every triangle satisfies `ok`. */
  predicate VerticesSatisfy(tris: seq<Triangles.Triangle2>, ok: Vec2 -> bool)
  {
    forall i :: 0 <= i < |tris| ==> ok(tris[i].a) && ok(tris[i].b) && ok(tris[i].c)
  }

  /** Insertion only ever uses existing vertices and the new point. */
  lemma InsertKeepsVertices(tris: seq<Triangles.Triangle2>, p: Vec2, ok: Vec2 -> bool)
    requires VerticesSatisfy(tris, ok) && ok(p)
    requires Insert(tris, p).Ok?
    ensures VerticesSatisfy(Insert(tris, p).value, ok)
  {
    var bad := BadFrom(tris, p, 0).value;
    var boundary := Boundary(tris, bad);
    var r := Insert(tris, p).value;
    var n := |tris| - |bad|;
    WithoutKeepsVertices(tris, bad, 0, ok);
    BoundaryEndsSatisfy(tris, bad, ok);
    FanKeepsVertices(boundary, p, ok);
    assert r == r[..n] + r[n..];
    ConcatKeepsVertices(r[..n], r[n..], ok);
  }

  /** Survivors of a removal are triangles of the original list. */
  lemma WithoutKeepsVertices(tris: seq<Triangles.Triangle2>, bad: seq<nat>, i: nat, ok: Vec2 -> bool)
    requires i <= |tris| && VerticesSatisfy(tris, ok)
    ensures VerticesSatisfy(Without(tris, bad, i), ok)
  {
    var w := Without(tris, bad, i);
    forall k | 0 <= k < |w|
      ensures ok(w[k].a) && ok(w[k].b) && ok(w[k].c)
    {
      assert w[k] in tris[i..];
    }
  }

  /** The ends of boundary edges are vertices of bad triangles. */
  lemma BoundaryEndsSatisfy(tris: seq<Triangles.Triangle2>, bad: seq<nat>, ok: Vec2 -> bool)
    requires forall j :: 0 <= j < |bad| ==> bad[j] < |tris|
    requires VerticesSatisfy(tris, ok)
    ensures forall e :: e in Boundary(tris, bad) ==> ok(e.start) && ok(e.end)
  {
    forall e | e in Boundary(tris, bad)
      ensures ok(e.start) && ok(e.end)
    {
      var j :| 0 <= j < |bad| && e in Triangles.Edges(tris[bad[j]]);
      EdgeEndsAreVertices(tris[bad[j]], e);
    }
  }

  /** A fan around a point uses only the point and the edges' ends. */
  lemma FanKeepsVertices(edges: seq<Segments.LineSegment2>, p: Vec2, ok: Vec2 -> bool)
    requires ok(p) && forall e :: e in edges ==> ok(e.start) && ok(e.end)
    ensures VerticesSatisfy(Fan(edges, p), ok)
  {
    var f := Fan(edges, p);
    forall k | 0 <= k < |f|
      ensures ok(f[k].a) && ok(f[k].b) && ok(f[k].c)
    {
      assert edges[k] in edges;
    }
  }

  lemma ConcatKeepsVertices(a: seq<Triangles.Triangle2>, b: seq<Triangles.Triangle2>, ok: Vec2 -> bool)
    requires VerticesSatisfy(a, ok) && VerticesSatisfy(b, ok)
    ensures VerticesSatisfy(a + b, ok)
  {
    forall k | 0 <= k < |a + b|
      ensures ok((a + b)[k].a) && ok((a + b)[k].b) && ok((a + b)[k].c)
    {
      if k >= |a| {
        assert (a + b)[k] == b[k - |a|];
      }
    }
  }

  /** Each end of an edge of a triangle is one of its vertices. */
  lemma EdgeEndsAreVertices(t: Triangles.Triangle2, e: Segments.LineSegment2)
    requires e in Triangles.Edges(t)
    ensures e.start == t.a || e.start == t.b || e.start == t.c
    ensures e.end == t.a || e.end == t.b || e.end == t.c
  {
  }

  // ---------------------------------------------------------------------------
  // The whole algorithm

  /** Insert the points from index `i` on, in order. */
  function InsertAll(points: seq<Vec2>, tris: seq<Triangles.Triangle2>, i: nat): (r: Result<seq<Triangles.Triangle2>, Failure>)
    requires i <= |points|
    ensures r.Err? ==> r.error == NoCircumcircle
    ensures i == |points| ==> r == Ok(tris)
    decreases |points| - i
  {
    if i == |points| then Ok(tris)
    else
      match Insert(tris, points[i])
      case Err(e) => Err(e)
      case Ok(next) => InsertAll(points, next, i + 1)
  }

  /** Insertion keeps every vertex an input point or a super vertex. */
  lemma {:induction false} InsertAllKeepsVertices(points: seq<Vec2>, tris: seq<Triangles.Triangle2>, i: nat, ok: Vec2 -> bool)
    requires i <= |points| && VerticesSatisfy(tris, ok)
    requires forall j :: i <= j < |points| ==> ok(points[j])
    requires InsertAll(points, tris, i).Ok?
    ensures VerticesSatisfy(InsertAll(points, tris, i).value, ok)
    decreases |points| - i
  {
    if i < |points| {
      InsertKeepsVertices(tris, points[i], ok);
      InsertAllKeepsVertices(points, Insert(tris, points[i]).value, i + 1, ok);
    }
  }

  /** `v` is a vertex of the triangle `st`. */
  predicate IsVertexOf(v: Vec2, st: Triangles.Triangle2)
  {
    v == st.a || v == st.b || v == st.c
  }

  /** The triangle shares a vertex with the super triangle. */
  predicate TouchesSuper(t: Triangles.Triangle2, st: Triangles.Triangle2)
  {
    IsVertexOf(t.a, st) || IsVertexOf(t.b, st) || IsVertexOf(t.c, st)
  }

  /** The final `retain`: keep, in order, the triangles with no vertex equal
      to a vertex of the super triangle. */
  function DropSuper(tris: seq<Triangles.Triangle2>, st: Triangles.Triangle2): (r: seq<Triangles.Triangle2>)
    ensures forall t :: t in r <==> t in tris && !TouchesSuper(t, st)
    ensures |r| <= |tris|
  {
    if |tris| == 0 then []
    else
      var rest := DropSuper(tris[1..], st);
      assert forall t :: t in tris <==> t == tris[0] || t in tris[1..];
      (if TouchesSuper(tris[0], st) then [] else [tris[0]]) + rest
  }

  /** The super triangle the run uses: the grown triangle scaled once more
      by 1.2. */
  function SuperTriangle(points: seq<Vec2>, fuel: nat): (r: Option<Triangles.Triangle2>)
    requires |points| > 0
    ensures r.Some? <==> Grow(InitialSuperTriangle(Center(points)), points, fuel).Some?
  {
    match Grow(InitialSuperTriangle(Center(points)), points, fuel)
    case None => None
    case Some(st) => Some(Triangles.Scale(st, 1.2))
  }

  /** The vertices a run may produce: input points and super vertices. */
  function AllowedIn(points: seq<Vec2>, st: Triangles.Triangle2): (ok: Vec2 -> bool)
    ensures forall v :: ok(v) <==> v in points || IsVertexOf(v, st)
  {
    (v: Vec2) => v in points || IsVertexOf(v, st)
  }

  /** After the final filter only input points remain as vertices. */
  lemma DropSuperLeavesInputs(tris: seq<Triangles.Triangle2>, st: Triangles.Triangle2, points: seq<Vec2>)
    requires VerticesSatisfy(tris, AllowedIn(points, st))
    ensures Triangles.VerticesIn(DropSuper(tris, st), points)
  {
    var r := DropSuper(tris, st);
    forall i | 0 <= i < |r|
      ensures r[i].a in points && r[i].b in points && r[i].c in points
    {
      assert r[i] in r;
      var j :| 0 <= j < |tris| && tris[j] == r[i];
    }
  }

  /** The triangulation. It fails on no points, when the growth loop runs
      out of fuel, and when a triangle without a circumcircle turns up;
      otherwise every vertex of every resulting triangle is an input point. */
  function Triangulate(points: seq<Vec2>, fuel: nat): (r: Result<seq<Triangles.Triangle2>, Failure>)
    ensures |points| == 0 <==> r == Err(EmptyInput)
    ensures |points| > 0 && SuperTriangle(points, fuel).None? ==> r == Err(SuperTriangleNotFound)
    ensures r.Ok? ==> Triangles.VerticesIn(r.value, points)
  {
    if |points| == 0 then Err(EmptyInput)
    else
      match SuperTriangle(points, fuel)
      case None => Err(SuperTriangleNotFound)
      case Some(st) =>
        match InsertAll(points, [st], 0)
        case Err(e) => Err(e)
        case Ok(tris) =>
          RunLeavesInputs(points, st, tris);
          Ok(DropSuper(tris, st))
  }

  /** Inserting every point into the super triangle and dropping what
      touches it leaves only input points as vertices. */
  lemma RunLeavesInputs(points: seq<Vec2>, st: Triangles.Triangle2, tris: seq<Triangles.Triangle2>)
    requires InsertAll(points, [st], 0) == Ok(tris)
    ensures Triangles.VerticesIn(DropSuper(tris, st), points)
  {
    var ok := AllowedIn(points, st);
    assert VerticesSatisfy([st], ok);
    InsertAllKeepsVertices(points, [st], 0, ok);
    DropSuperLeavesInputs(tris, st, points);
  }
}

=== FILE: circles.dfy ===
/** Circles. The stored `radius` field is twice the radius the queries use:
    containment compares distances against `radius * 0.5`. */
module Circles {
  import opened Vectors

  datatype Circle = Circle(center: Vec2, radius: real)

  /** The validity check: a positive radius field. */
  predicate Valid(c: Circle) { c.radius > 0.0 }

  /** The radius the queries actually use: half the stored field. */
  function EffectiveRadius(c: Circle): real { c.radius * 0.5 }

  /** `distance(center, p) <= radius * 0.5`, compared on squares. */
  function ContainsPoint(c: Circle, p: Vec2): (r: bool)
    requires Valid(c)
    ensures r <==> DistSq(c.center, p) <= Sq(EffectiveRadius(c))
  {
    DistLe(c.center, p, c.radius * 0.5)
  }

  /** With `d` the true distance, containment is `d <= radius/2`. */
  lemma ContainsPointIsDistanceTest(c: Circle, p: Vec2, d: real)
    requires Valid(c)
    requires d >= 0.0 && Sq(d) == DistSq(c.center, p)
    ensures ContainsPoint(c, p) <==> d <= c.radius * 0.5
  {
    DistComparisonsMatchSqrt(c.center, p, d, c.radius * 0.5);
  }

  /** The centre of a valid circle is always inside it. */
  lemma CenterContained(c: Circle)
    requires Valid(c)
    ensures ContainsPoint(c, c.center)
  {
    assert Sub(c.center, c.center) == Zero;
    SquareNonNegative(EffectiveRadius(c));
  }

  /** The source's unit test: the circle at (10, 10) with radius field 10
      contains (15, 10) but not (16, 10). */
  lemma ContainsPointExample()
    ensures ContainsPoint(Circle(Vec2(10.0, 10.0), 10.0), Vec2(15.0, 10.0))
    ensures !ContainsPoint(Circle(Vec2(10.0, 10.0), 10.0), Vec2(16.0, 10.0))
  {
    assert Sq(5.0) == 25.0;
    assert Sq(0.0) == 0.0;
    assert Sq(-5.0) == 25.0;
    assert Sq(-6.0) == 36.0;
    assert DistSq(Vec2(10.0, 10.0), Vec2(15.0, 10.0)) == 25.0;
    assert DistSq(Vec2(10.0, 10.0), Vec2(16.0, 10.0)) == 36.0;
  }

  /** The nearest point of the disc. A contained point is returned as is; an
      outside point is pulled along the ray from the centre onto the
      boundary. The distance from the centre to `p`, a square root, is
      supplied by the caller through its defining property. */
  function ClosestPoint(c: Circle, p: Vec2, dist: real): (r: Vec2)
    requires Valid(c)
    requires dist >= 0.0 && Sq(dist) == DistSq(p, c.center)
    ensures ContainsPoint(c, p) ==> r == p
    ensures !ContainsPoint(c, p) ==>
              DistSq(r, c.center) == Sq(EffectiveRadius(c))
              && exists k :: 0.0 < k < 1.0 && r == Add(c.center, Mul(Sub(p, c.center), k))
  {
    if ContainsPoint(c, p) then p
    else
      OutsideDistance(c, p, dist);
      var k := EffectiveRadius(c) / dist;
      var r := Add(c.center, Mul(Sub(p, c.center), k));
      assert Sub(r, c.center) == Mul(Sub(p, c.center), k);
      NormSqScaled(Sub(p, c.center), k);
      SqQuotient(EffectiveRadius(c), dist);
      r
  }

  /** Outside the disc the distance exceeds the effective radius, so the
      scale factor onto the boundary lies strictly between 0 and 1. */
  lemma OutsideDistance(c: Circle, p: Vec2, dist: real)
    requires Valid(c) && !ContainsPoint(c, p)
    requires dist >= 0.0 && Sq(dist) == DistSq(p, c.center)
    ensures dist > EffectiveRadius(c) > 0.0
    ensures 0.0 < EffectiveRadius(c) / dist < 1.0
  {
    DistSqSymmetric(p, c.center);
    ContainsPointIsDistanceTest(c, p, dist);
    QuotientInUnitInterval(EffectiveRadius(c), dist);
  }
}

=== FILE: collidables.dfy ===
/** The interactive collision scene: two shapes, each a line segment or a
    circle, tested against each other through one dispatcher. */
module Collidables {
  import opened Vectors
  import Segments
  import Circles
  import Collision

  datatype Collidable =
    | LineSegment(segment: Segments.LineSegment2)
    | Circle(circle: Circles.Circle)

  /** The shape kinds offered by the scene's selector. */
  datatype Kind = LineSegmentKind | CircleKind

  function KindOf(c: Collidable): Kind
  {
    match c
    case LineSegment(_) => LineSegmentKind
    case Circle(_) => CircleKind
  }

  /** What a collision promises geometrically: two segments share a point; a
      segment has a point strictly inside the circle; two valid circles have
      a point strictly inside both. */
  ghost predicate Overlapping(a: Collidable, b: Collidable)
  {
    match (a, b)
    case (LineSegment(s), LineSegment(o)) =>
      exists t, u :: 0.0 <= t <= 1.0 && 0.0 <= u <= 1.0
                     && Segments.PointAt(s, t) == Segments.PointAt(o, u)
    case (LineSegment(s), Circle(c)) => SegmentReachesInto(s, c)
    case (Circle(c), LineSegment(s)) => SegmentReachesInto(s, c)
    case (Circle(c1), Circle(c2)) =>
      Circles.Valid(c1) && Circles.Valid(c2) ==>
        exists p :: DistSq(p, c1.center) < Sq(Circles.EffectiveRadius(c1))
                    && DistSq(p, c2.center) < Sq(Circles.EffectiveRadius(c2))
  }

  ghost predicate SegmentReachesInto(s: Segments.LineSegment2, c: Circles.Circle)
  {
    exists u :: 0.0 <= u <= 1.0 && DistSq(Segments.PointAt(s, u), c.center) < Sq(Circles.EffectiveRadius(c))
  }

  /** The dispatcher: the collision test for the two payloads' types. Every
      reported collision is a real overlap. */
  function Colliding(a: Collidable, b: Collidable): (r: bool)
    ensures r ==> Overlapping(a, b)
  {
    match (a, b)
    case (LineSegment(s), LineSegment(o)) =>
      Collision.SegmentSegment(s, o)
    case (LineSegment(s), Circle(c)) => Collision.SegmentCircle(s, c)
    case (Circle(c), LineSegment(s)) =>
      if Collision.CircleSegment(c, s) then
        Collision.CircleSegmentOverlaps(c, s);
        true
      else false
    case (Circle(c1), Circle(c2)) =>
      if Collision.CircleCircle(c1, c2) then
        if Circles.Valid(c1) && Circles.Valid(c2) then
          Collision.CirclesShareAPoint(c1, c2);
          true
        else true
      else false
  }

  /** The dispatcher is symmetric for every pair of kinds. */
  lemma CollidingSymmetric(a: Collidable, b: Collidable)
    ensures Colliding(a, b) == Colliding(b, a)
  {
    match (a, b)
    case (LineSegment(s), LineSegment(o)) =>
      Collision.SegmentSegmentSymmetric(s, o);
    case (LineSegment(s), Circle(c)) =>
    case (Circle(c), LineSegment(s)) =>
    case (Circle(c1), Circle(c2)) =>
      Collision.CircleCircleSymmetric(c1, c2);
  }

  /** The circle rebuilt from two dragged handles: centred on the first, with
      the stored radius twice the handles' distance `d` but at least two. The
      distance, a square root, is supplied through its defining property.
      The circle is valid and the second handle lies in it. */
  function DragCircle(p0: Vec2, p1: Vec2, d: real): (r: Circles.Circle)
    requires d >= 0.0 && Sq(d) == DistSq(p0, p1)
    ensures r.center == p0 && r.radius >= 2.0 && Circles.Valid(r)
    ensures Circles.ContainsPoint(r, p1)
  {
    var r := Circles.Circle(p0, (if d > 1.0 then d else 1.0) * 2.0);
    DistSqSymmetric(p0, p1);
    Circles.ContainsPointIsDistanceTest(r, p1, d);
    r
  }

  /** Rebuilding a shape from its two handles keeps its kind. */
  function Rebuild(c: Collidable, p0: Vec2, p1: Vec2, d: real): (r: Collidable)
    requires d >= 0.0 && Sq(d) == DistSq(p0, p1)
    ensures KindOf(r) == KindOf(c)
    ensures r.LineSegment? ==> r.segment.start == p0 && r.segment.end == p1
    ensures r.Circle? ==> Circles.Valid(r.circle) && Circles.ContainsPoint(r.circle, p1)
  {
    match c
    case LineSegment(_) => LineSegment(Segments.LineSegment2(p0, p1))
    case Circle(_) => Circle(DragCircle(p0, p1, d))
  }

  /** The shape a kind switch installs: a zero-length segment at the origin
      or a circle of radius one there. Both pass their validity checks, but
      the segment is degenerate, so it collides with nothing. */
  function Reset(k: Kind): (r: Collidable)
    ensures KindOf(r) == k
    ensures r.Circle? ==> Circles.Valid(r.circle)
    ensures r.LineSegment? ==> forall o :: !Colliding(r, o) && !Colliding(o, r)
  {
    match k
    case LineSegmentKind =>
      var s := Segments.LineSegment2(Zero, Zero);
      NothingHitsAPoint(s);
      LineSegment(s)
    case CircleKind => Circle(Circles.Circle(Zero, 1.0))
  }

  /** A zero-length segment collides with no shape. */
  lemma NothingHitsAPoint(s: Segments.LineSegment2)
    requires Segments.Degenerate(s)
    ensures forall o :: !Colliding(LineSegment(s), o) && !Colliding(o, LineSegment(s))
  {
    forall o
      ensures !Colliding(LineSegment(s), o) && !Colliding(o, LineSegment(s))
    {
      match o
      case LineSegment(t) =>
        Collision.DegenerateTurn(s.start, t.start);
        Collision.DegenerateTurn(s.start, t.end);
        Collision.SegmentSegmentSymmetric(s, t);
      case Circle(_) =>
    }
  }

  /** The scene's initial pair: a zero-length segment and a circle of stored
      radius ten, both at the origin. They do not collide. */
  function Initial(): (r: (Collidable, Collidable))
    ensures KindOf(r.0) == LineSegmentKind && KindOf(r.1) == CircleKind
    ensures Circles.Valid(r.1.circle)
    ensures !Colliding(r.0, r.1)
  {
    var s := Segments.LineSegment2(Zero, Zero);
    NothingHitsAPoint(s);
    (LineSegment(s), Circle(Circles.Circle(Zero, 10.0)))
  }
}

=== FILE: collision.dfy ===
/** Pairwise collision tests between circles and line segments. */
module Collision {
  import opened Vectors
  import Lines
  import Segments
  import Circles

  // ---------------------------------------------------------------------------
  // Circle against circle

  /** The centres are strictly closer than the sum of the two effective
      radii, compared squared. Neither circle needs to be valid. */
  function CircleCircle(c1: Circles.Circle, c2: Circles.Circle): (r: bool)
    ensures r <==> DistSq(c1.center, c2.center)
                   < Sq(Circles.EffectiveRadius(c1) + Circles.EffectiveRadius(c2))
  {
    var combined := (c1.radius + c2.radius) * 0.5;
    DistSq(c1.center, c2.center) < combined * combined
  }

  /** For valid circles, the squared test is the distance test: the centres'
      distance `d` is below the sum of the effective radii. */
  lemma CircleCircleIsDistanceTest(c1: Circles.Circle, c2: Circles.Circle, d: real)
    requires Circles.Valid(c1) && Circles.Valid(c2)
    requires d >= 0.0 && Sq(d) == DistSq(c1.center, c2.center)
    ensures CircleCircle(c1, c2) <==> d < Circles.EffectiveRadius(c1) + Circles.EffectiveRadius(c2)
  {
    DistComparisonsMatchSqrt(c1.center, c2.center, d,
      Circles.EffectiveRadius(c1) + Circles.EffectiveRadius(c2));
  }

  /** The test is symmetric. */
  lemma CircleCircleSymmetric(c1: Circles.Circle, c2: Circles.Circle)
    ensures CircleCircle(c1, c2) == CircleCircle(c2, c1)
  {
    DistSqSymmetric(c1.center, c2.center);
    assert Circles.EffectiveRadius(c1) + Circles.EffectiveRadius(c2)
        == Circles.EffectiveRadius(c2) + Circles.EffectiveRadius(c1);
  }

  /** A valid circle collides with itself. */
  lemma CircleCollidesWithItself(c: Circles.Circle)
    requires Circles.Valid(c)
    ensures CircleCircle(c, c)
  {
    SelfDistance(c.center);
    CircleCircleIsDistanceTest(c, c, 0.0);
  }

  /** Soundness for valid circles: colliding circles share a point strictly
      inside both effective radii (the point dividing the centres' segment
      in the ratio of the radii). */
  lemma CirclesShareAPoint(c1: Circles.Circle, c2: Circles.Circle)
    requires Circles.Valid(c1) && Circles.Valid(c2) && CircleCircle(c1, c2)
    ensures exists p :: DistSq(p, c1.center) < Sq(Circles.EffectiveRadius(c1))
                        && DistSq(p, c2.center) < Sq(Circles.EffectiveRadius(c2))
  {
    var r1 := Circles.EffectiveRadius(c1);
    var r2 := Circles.EffectiveRadius(c2);
    var p := Lerp(c1.center, c2.center, r1 / (r1 + r2));
    NearFirst(c1.center, c2.center, r1, r1 + r2);
    NearSecond(c1.center, c2.center, r1, r2);
  }

  /** The point dividing `ab` at fraction `h / d` lies within `h` of `a`
      when `a` and `b` lie within `d` of each other. */
  lemma NearFirst(a: Vec2, b: Vec2, h: real, d: real)
    requires 0.0 < h && 0.0 < d && DistSq(a, b) < Sq(d)
    ensures DistSq(Lerp(a, b, h / d), a) < Sq(h)
  {
    var k := h / d;
    assert k * d == h;
    DivisionPoint(a, b, k);
    DistSqSymmetric(a, b);
    SqQuotient(h, d);
    ScaledBelow(k, DistSq(a, b), d, h);
  }

  /** The same point lies within `g` of `b`, where `h + g` is the distance
      bound. */
  lemma NearSecond(a: Vec2, b: Vec2, h: real, g: real)
    requires 0.0 < h && 0.0 < g && DistSq(a, b) < Sq(h + g)
    ensures DistSq(Lerp(a, b, h / (h + g)), b) < Sq(g)
  {
    var d := h + g;
    var k := h / d;
    assert k * d == h;
    Lines.Quotient(1.0 - k, d, g);
    DivisionPoint(a, b, k);
    SqQuotient(g, d);
    ScaledBelow(1.0 - k, DistSq(a, b), d, g);
  }

  /** The squared distances from the point at fraction `k` between two points. */
  lemma DivisionPoint(a: Vec2, b: Vec2, k: real)
    ensures DistSq(Lerp(a, b, k), a) == Sq(k) * DistSq(b, a)
    ensures DistSq(Lerp(a, b, k), b) == Sq(1.0 - k) * DistSq(a, b)
  {
    assert Sub(Lerp(a, b, k), a) == Mul(Sub(b, a), k);
    NormSqScaled(Sub(b, a), k);
    assert Sub(Lerp(a, b, k), b) == Mul(Sub(a, b), 1.0 - k);
    NormSqScaled(Sub(a, b), 1.0 - k);
  }

  /** Scaling both sides of `d < r²` by a positive square. */
  lemma ScaledBelow(k: real, d: real, r: real, kr: real)
    requires k != 0.0 && d < Sq(r) && Sq(k) * Sq(r) == Sq(kr)
    ensures Sq(k) * d < Sq(kr)
  {
    SquarePositive(k);
    MulPositive(Sq(k), Sq(r) - d);
    assert Prod(Sq(k), Sq(r) - d) == Sq(k) * Sq(r) - Sq(k) * d;
  }

  lemma SelfDistance(v: Vec2)
    ensures DistSq(v, v) == 0.0 == Sq(0.0)
  {
    assert Sub(v, v) == Vec2(0.0, 0.0);
    assert Sq(0.0) == 0.0;
  }

  // ---------------------------------------------------------------------------
  // Circle against segment

  /** The segment's closest point to the centre is strictly within the
      effective radius. On a zero-length segment the source's closest point
      is 0/0, a NaN, and every comparison with it fails: no collision. */
  function CircleSegment(c: Circles.Circle, s: Segments.LineSegment2): (r: bool)
    ensures Segments.Degenerate(s) ==> !r
    ensures r ==> Circles.EffectiveRadius(c) > 0.0
  {
    if Segments.Degenerate(s) then false
    else DistLt(Segments.ClosestPoint(s, c.center), c.center, Circles.EffectiveRadius(c))
  }

  /** A proper segment collides with a circle exactly when some point of the
      segment lies strictly inside the circle's effective radius. */
  lemma CircleSegmentOverlaps(c: Circles.Circle, s: Segments.LineSegment2)
    requires !Segments.Degenerate(s)
    ensures CircleSegment(c, s) <==>
              Circles.EffectiveRadius(c) > 0.0 &&
              exists u :: 0.0 <= u <= 1.0 &&
                DistSq(Segments.PointAt(s, u), c.center) < Sq(Circles.EffectiveRadius(c))
  {
    var q := Segments.ClosestPoint(s, c.center);
    var t := Segments.Param(s, c.center);
    if CircleSegment(c, s) {
      assert Segments.PointAt(s, t) == q;
    }
    forall u | 0.0 <= u <= 1.0
      ensures DistSq(q, c.center) <= DistSq(Segments.PointAt(s, u), c.center)
    {
      Segments.ProjectionIsNearest(s, c.center, u);
      DistSqSymmetric(c.center, q);
      DistSqSymmetric(c.center, Segments.PointAt(s, u));
    }
  }

  /** Segment against circle is circle against segment with the arguments
      swapped; so it, too, holds exactly when the two overlap. */
  function SegmentCircle(s: Segments.LineSegment2, c: Circles.Circle): (r: bool)
    ensures r <==> !Segments.Degenerate(s) && Circles.EffectiveRadius(c) > 0.0 &&
                   exists u :: 0.0 <= u <= 1.0 &&
                     DistSq(Segments.PointAt(s, u), c.center) < Sq(Circles.EffectiveRadius(c))
  {
    if Segments.Degenerate(s) then CircleSegment(c, s)
    else
      CircleSegmentOverlaps(c, s);
      CircleSegment(c, s)
  }

  // ---------------------------------------------------------------------------
  // Segment against segment

  /** The source's `ccw` helper: (a, b, c) turn strictly counter-clockwise. */
  function Ccw(a: Vec2, b: Vec2, c: Vec2): (r: bool)
    ensures r <==> Orientation(a, b, c) > 0.0
  {
    (c.y - a.y) * (b.x - a.x) > (b.y - a.y) * (c.x - a.x)
  }

  /** Each segment's endpoints fall on different sides of the other's
      supporting line, where "side" means strictly to the left or not. */
  predicate Straddles(s: Segments.LineSegment2, o: Segments.LineSegment2)
  {
    (Orientation(o.start, o.end, s.start) > 0.0) != (Orientation(o.start, o.end, s.end) > 0.0)
    && (Orientation(s.start, s.end, o.start) > 0.0) != (Orientation(s.start, s.end, o.end) > 0.0)
  }

  /** The segment test: it holds exactly when the segments straddle each
      other's lines, and segments that collide really share a point. */
  function SegmentSegment(s: Segments.LineSegment2, o: Segments.LineSegment2): (r: bool)
    ensures r <==> Straddles(s, o)
    ensures r ==> exists t, u :: 0.0 <= t <= 1.0 && 0.0 <= u <= 1.0
                                 && Segments.PointAt(s, t) == Segments.PointAt(o, u)
  {
    assert Orientation(s.start, o.start, o.end) == Orientation(o.start, o.end, s.start);
    assert Orientation(s.end, o.start, o.end) == Orientation(o.start, o.end, s.end);
    var r := Ccw(s.start, o.start, o.end) != Ccw(s.end, o.start, o.end)
             && Ccw(s.start, s.end, o.start) != Ccw(s.start, s.end, o.end);
    if r then
      StraddlingSegmentsMeet(s, o);
      r
    else r
  }

  /** The test does not depend on which segment comes first. */
  lemma SegmentSegmentSymmetric(s: Segments.LineSegment2, o: Segments.LineSegment2)
    ensures SegmentSegment(s, o) == SegmentSegment(o, s)
  {
    assert Orientation(s.start, o.start, o.end) == Orientation(o.start, o.end, s.start);
    assert Orientation(s.end, o.start, o.end) == Orientation(o.start, o.end, s.end);
    assert Orientation(s.start, s.end, o.start) == Orientation(o.start, s.start, s.end);
    assert Orientation(s.start, s.end, o.end) == Orientation(o.end, s.start, s.end);
  }

  /** Because the turn test is strict, segments lying on one line never
      collide; in particular no segment collides with itself. */
  lemma CollinearNeverCollide(s: Segments.LineSegment2, o: Segments.LineSegment2)
    requires Orientation(s.start, s.end, o.start) == 0.0
    requires Orientation(s.start, s.end, o.end) == 0.0
    ensures !SegmentSegment(s, o)
  {
  }

  lemma NoSelfCollision(s: Segments.LineSegment2)
    ensures !SegmentSegment(s, s)
  {
    assert Orientation(s.start, s.end, s.start) == 0.0;
    assert Orientation(s.start, s.end, s.end) == 0.0;
  }

  /** Segments that straddle each other's lines share a point: the crossing
      parameter along each is where its turn against the other changes sign. */
  lemma StraddlingSegmentsMeet(s: Segments.LineSegment2, o: Segments.LineSegment2)
    requires Straddles(s, o)
    ensures exists t, u :: 0.0 <= t <= 1.0 && 0.0 <= u <= 1.0
                           && Segments.PointAt(s, t) == Segments.PointAt(o, u)
  {
    var d1 := Orientation(o.start, o.end, s.start);
    var d2 := Orientation(o.start, o.end, s.end);
    var e1 := Orientation(s.start, s.end, o.start);
    var e2 := Orientation(s.start, s.end, o.end);
    var t := CrossingParam(d1, d2);
    var u := CrossingParam(e1, e2);
    var p := Segments.PointAt(s, t);
    var q := Segments.PointAt(o, u);
    OrientationAlong(o.start, o.end, s, t);
    OrientationAlong(s.start, s.end, o, u);
    PointAtOnOwnLine(s, t);
    PointAtOnOwnLine(o, u);
    LinesMeetOnce(s, o, p, q);
  }

  /** Nothing turns about a zero-length base. */
  lemma DegenerateTurn(a: Vec2, x: Vec2)
    ensures Orientation(a, a, x) == 0.0
  {
    assert Sub(a, a) == Vec2(0.0, 0.0);
  }

  /** Every point of a segment is collinear with its endpoints. */
  lemma PointAtOnOwnLine(s: Segments.LineSegment2, t: real)
    ensures Orientation(s.start, s.end, Segments.PointAt(s, t)) == 0.0
  {
    OrientationAlong(s.start, s.end, s, t);
  }

  /** Two segments whose turns differ somewhere are proper and not parallel,
      so their lines meet in exactly one point. */
  lemma LinesMeetOnce(s: Segments.LineSegment2, o: Segments.LineSegment2, p: Vec2, q: Vec2)
    requires Orientation(o.start, o.end, s.start) != Orientation(o.start, o.end, s.end)
    requires Orientation(s.start, s.end, p) == 0.0 && Orientation(o.start, o.end, p) == 0.0
    requires Orientation(s.start, s.end, q) == 0.0 && Orientation(o.start, o.end, q) == 0.0
    ensures p == q
  {
    if o.start == o.end {
      DegenerateTurn(o.start, s.start);
      DegenerateTurn(o.start, s.end);
    }
    var ls := Lines.FromPoints(s.start, s.end);
    var lo := Lines.FromPoints(o.start, o.end);
    OnLineIsCollinear(s.start, s.end, p);
    OnLineIsCollinear(s.start, s.end, q);
    OnLineIsCollinear(o.start, o.end, p);
    OnLineIsCollinear(o.start, o.end, q);
    assert Lines.Det(ls, lo)
        == Orientation(o.start, o.end, s.start) - Orientation(o.start, o.end, s.end);
    Lines.IntersectionUnique(ls, lo, p);
    Lines.IntersectionUnique(ls, lo, q);
  }

  /** Where the signed turn changes sign along a segment: the parameter at
      which the linear interpolation of `d1` and `d2` reaches zero. */
  function CrossingParam(d1: real, d2: real): (t: real)
    requires (d1 > 0.0) != (d2 > 0.0)
    ensures d1 != d2
    ensures 0.0 <= t <= 1.0
    ensures d1 + t * (d2 - d1) == 0.0
  {
    var t := d1 / (d1 - d2);
    if d1 > 0.0 then
      Segments.QuotientBounds(d1, d1 - d2);
      t
    else
      Segments.QuotientBounds(-d1, d2 - d1);
      assert -d1 / (d2 - d1) == t;
      t
  }

  /** The turn of a moving point is linear in the point's parameter. */
  lemma OrientationAlong(a: Vec2, b: Vec2, s: Segments.LineSegment2, t: real)
    ensures Orientation(a, b, Segments.PointAt(s, t))
         == Orientation(a, b, s.start) + t * (Orientation(a, b, s.end) - Orientation(a, b, s.start))
  {
  }

  /** A point lies on the line through two distinct points exactly when the
      three are collinear. */
  lemma OnLineIsCollinear(a: Vec2, b: Vec2, p: Vec2)
    requires a != b
    ensures Lines.OnLine(Lines.FromPoints(a, b), p) <==> Orientation(a, b, p) == 0.0
  {
    var l := Lines.FromPoints(a, b);
    assert l.a * p.x + l.b * p.y - l.c == -Orientation(a, b, p);
  }

  /** Two crossing cases, with the numbers replaced by any positive values:
      the segment (0,0)–(w,0) is crossed by the vertical segment at x = m
      from below the axis to above it, but not by one lying wholly above the
      axis. With w = 10, m = 5 and heights ±5 and 1..5 these are the
      segments (0,0)–(10,0), (5,-5)–(5,5) and (5,1)–(5,5). */
  lemma SegmentSegmentExamples(w: real, m: real, lo: real, hi: real)
    requires 0.0 < m < w && lo > 0.0 && hi > 0.0
    ensures SegmentSegment(Segments.LineSegment2(Vec2(0.0, 0.0), Vec2(w, 0.0)),
                           Segments.LineSegment2(Vec2(m, -lo), Vec2(m, hi)))
    ensures !SegmentSegment(Segments.LineSegment2(Vec2(0.0, 0.0), Vec2(w, 0.0)),
                            Segments.LineSegment2(Vec2(m, lo), Vec2(m, hi)))
  {
    var a := Vec2(0.0, 0.0);
    var b := Vec2(w, 0.0);
    assert Orientation(a, Vec2(m, -lo), Vec2(m, hi)) == Prod(m, lo + hi);
    MulPositive(m, lo + hi);
    assert Orientation(b, Vec2(m, -lo), Vec2(m, hi)) == -Prod(w - m, lo + hi);
    MulPositive(w - m, lo + hi);
    assert Orientation(a, b, Vec2(m, -lo)) == -Prod(w, lo);
    MulPositive(w, lo);
    assert Orientation(a, b, Vec2(m, hi)) == Prod(w, hi);
    MulPositive(w, hi);
    assert Orientation(a, b, Vec2(m, lo)) == Prod(w, lo);
  }
}

=== FILE: earclipping.dfy ===
/** Ear-clipping triangulation of a simple polygon: normalise the vertex
    order, then repeatedly cut off the first ear (a vertex whose triangle
    with its two neighbours turns the polygon's way and holds no other
    vertex) until three vertices remain. */
module EarClipping {
  import opened Options
  import opened Vectors
  import opened Selections
  import Triangles
  import VertexLists
  import Segments

  /** Why a run aborts: a pass over the remaining vertices found no ear, on
      which the source would repeat the same pass forever. */
  datatype Failure = NoEar

  /** The index before `i` in a cyclic list of `n`: the source's
      `(i + n - 1) % n`. */
  function Prev(i: nat, n: nat): (k: nat)
    requires i < n
    ensures k < n
    ensures k == (i + n - 1) % n
  {
    if i == 0 then
      ModBelow(n - 1, n);
      n - 1
    else
      ModBelow(i - 1, n);
      assert i + n - 1 == (i - 1) + n;
      ModShift(i - 1, n);
      i - 1
  }

  lemma ModBelow(a: int, n: int)
    requires 0 <= a < n
    ensures a % n == a
  {
  }

  lemma ModShift(a: int, n: int)
    requires 0 <= a < n
    ensures (a + n) % n == a
  {
    assert (a + n) / n == 1;
  }

  /** The candidate triangle at `i`: its predecessor, itself and its
      successor, wrapping around. */
  function Candidate(vs: seq<Vec2>, i: nat): Triangles.Triangle2
    requires i < |vs|
  {
    Triangles.Triangle2(vs[Prev(i, |vs|)], vs[i], vs[VertexLists.Next(i, |vs|)])
  }

  /** The candidate's corner is vertex `i`, and its first two sides are the
      polygon's edges into and out of that vertex. */
  lemma CandidateSides(vs: seq<Vec2>, i: nat)
    requires i < |vs|
    ensures Candidate(vs, i).b == vs[i]
    ensures Segments.LineSegment2(Candidate(vs, i).a, Candidate(vs, i).b)
         == VertexLists.Edges(VertexLists.VertexList2(vs))[Prev(i, |vs|)]
    ensures Segments.LineSegment2(Candidate(vs, i).b, Candidate(vs, i).c)
         == VertexLists.Edges(VertexLists.VertexList2(vs))[i]
  {
    assert VertexLists.Next(Prev(i, |vs|), |vs|) == i;
  }

  /** The ear test: the candidate triangle is clockwise by the triangle
      test, and no vertex at an index other than its three lies in it
      (boundary included). */
  predicate IsEar(vs: seq<Vec2>, i: nat)
    requires i < |vs|
  {
    var n := |vs|;
    var t := Candidate(vs, i);
    Triangles.IsClockwise(t)
    && forall j :: 0 <= j < n && j != Prev(i, n) && j != i && j != VertexLists.Next(i, n) ==>
         !Triangles.ContainsPoint(t, vs[j])
  }

  /** An ear is a clockwise corner whose closed triangle holds no vertex of
      the list other than its own three corners. */
  lemma EarIsEmptyCorner(vs: seq<Vec2>, i: nat)
    requires i < |vs|
    ensures IsEar(vs, i) <==>
              Orientation(vs[Prev(i, |vs|)], vs[i], vs[VertexLists.Next(i, |vs|)]) < 0.0
              && forall j :: 0 <= j < |vs| && j != Prev(i, |vs|) && j != i && j != VertexLists.Next(i, |vs|) ==>
                   !Triangles.InClosedTriangle(Candidate(vs, i), vs[j])
  {
    var n := |vs|;
    var t := Candidate(vs, i);
    if Orientation(t.a, t.b, t.c) < 0.0 {
      forall j | 0 <= j < n
        ensures Triangles.ContainsPoint(t, vs[j]) <==> Triangles.InClosedTriangle(t, vs[j])
      {
        Triangles.ContainsPointIsClosedTriangle(t, vs[j]);
      }
    }
  }

  /** The first ear at index `i` or later, if any: the scan stops at the
      first vertex that passes the test. */
  function FirstEar(vs: seq<Vec2>, i: nat): (r: Option<nat>)
    requires i <= |vs|
    ensures r.Some? ==> i <= r.value < |vs| && IsEar(vs, r.value)
    ensures r.Some? ==> forall j :: i <= j < r.value ==> !IsEar(vs, j)
    ensures r.None? ==> forall j :: i <= j < |vs| ==> !IsEar(vs, j)
    decreases |vs| - i
  {
    if i == |vs| then None
    else if IsEar(vs, i) then Some(i)
    else FirstEar(vs, i + 1)
  }

  /** Every triangle but the last turns clockwise. */
  predicate ClockwiseButLast(ts: seq<Triangles.Triangle2>)
  {
    forall k :: 0 <= k < |ts| - 1 ==> Orientation(ts[k].a, ts[k].b, ts[k].c) < 0.0
  }

  /** The clipping loop on at least three vertices: while more than three
      remain, emit the first ear's triangle and remove its middle vertex;
      then emit the last three vertices as a triangle. Each emitted triangle
      is made of vertices of the list, every one but the final one is an
      ear and so turns clockwise; it fails when a pass finds no ear. */
  function Clip(vs: seq<Vec2>): (r: Result<seq<Triangles.Triangle2>, Failure>)
    requires |vs| >= 3
    ensures r.Ok? ==> |r.value| == |vs| - 2
    ensures r.Ok? ==> Triangles.VerticesIn(r.value, vs)
    ensures r.Ok? ==> ClockwiseButLast(r.value)
    decreases |vs|
  {
    if |vs| == 3 then Ok([Triangles.Triangle2(vs[0], vs[1], vs[2])])
    else
      match FirstEar(vs, 0)
      case None => Err(NoEar)
      case Some(i) =>
        match Clip(RemoveAt(vs, i))
        case Err(e) => Err(e)
        case Ok(rest) =>
          EarThenRest(vs, i, rest);
          Ok([Candidate(vs, i)] + rest)
  }

  /** An ear's triangle in front of triangles made from the list without
      the ear's vertex keeps both properties. */
  lemma EarThenRest(vs: seq<Vec2>, i: nat, rest: seq<Triangles.Triangle2>)
    requires i < |vs| && IsEar(vs, i)
    requires Triangles.VerticesIn(rest, RemoveAt(vs, i)) && ClockwiseButLast(rest)
    ensures Triangles.VerticesIn([Candidate(vs, i)] + rest, vs)
    ensures ClockwiseButLast([Candidate(vs, i)] + rest)
  {
    var r := [Candidate(vs, i)] + rest;
    assert forall k :: 1 <= k < |r| ==> r[k] == rest[k - 1];
  }

  /** A pass that finds no ear fails the run instead of looping forever. */
  lemma NoEarFails(vs: seq<Vec2>)
    requires |vs| > 3
    requires forall j :: 0 <= j < |vs| ==> !IsEar(vs, j)
    ensures Clip(vs) == Err(NoEar)
  {
  }

  /** The first ear is the one clipped: its triangle is emitted first and
      only its vertex is removed, the others keeping their order. */
  lemma ClipsFirstEar(vs: seq<Vec2>, i: nat)
    requires |vs| > 3 && i < |vs| && IsEar(vs, i)
    requires forall j :: 0 <= j < i ==> !IsEar(vs, j)
    requires Clip(vs).Ok?
    ensures Clip(RemoveAt(vs, i)).Ok?
    ensures Clip(vs).value == [Candidate(vs, i)] + Clip(RemoveAt(vs, i)).value
  {
  }

  /** Ear clipping on a vertex list: no triangles for fewer than three
      vertices or for a polygon that is not simple; otherwise the list is
      made counterclockwise and clipped. A successful run on `n` vertices
      gives `n - 2` triangles made of input vertices. */
  function Triangulate(vertices: seq<Vec2>): (r: Result<seq<Triangles.Triangle2>, Failure>)
    ensures |vertices| < 3 ==> r == Ok([])
    ensures |vertices| >= 3 && !VertexLists.Simple(VertexLists.VertexList2(vertices)) ==> r == Ok([])
    ensures r.Ok? && |vertices| >= 3 && VertexLists.Simple(VertexLists.VertexList2(vertices)) ==>
              |r.value| == |vertices| - 2
    ensures r.Ok? ==> Triangles.VerticesIn(r.value, vertices)
  {
    var l := VertexLists.VertexList2(vertices);
    if |vertices| < 3 then Ok([])
    else if !VertexLists.Simple(l) then Ok([])
    else
      var vs := VertexLists.MakeCounterclockwise(l).vertices;
      assert forall x :: x in vs ==> x in vertices by {
        forall x | x in vs
          ensures x in vertices
        {
          assert x in multiset(vs);
        }
      }
      Clip(vs)
  }
}

=== FILE: lines.dfy ===
/** Infinite lines in implicit form `a·x + b·y = c`. */
module Lines {
  import opened Options
  import opened Vectors

  datatype Line2 = Line2(a: real, b: real, c: real)

  /** The validity check every line operation asserts: the normal (a, b) is
      not the zero vector. */
  predicate Valid(l: Line2) { l.a != 0.0 || l.b != 0.0 }

  /** The point satisfies the line's equation. */
  predicate OnLine(l: Line2, p: Vec2) { l.a * p.x + l.b * p.y == l.c }

  /** The determinant of the 2×2 system formed by two lines. */
  function Det(l: Line2, m: Line2): real { l.a * m.b - m.a * l.b }

  /** The line through two distinct points. */
  function FromPoints(p1: Vec2, p2: Vec2): (l: Line2)
    requires p1 != p2
    ensures Valid(l)
    ensures OnLine(l, p1) && OnLine(l, p2)
  {
    var a := p2.y - p1.y;
    var b := p1.x - p2.x;
    Line2(a, b, a * p1.x + b * p1.y)
  }

  /** The line through `p` running along a non-zero `axis`. */
  function FromPointAxis(p: Vec2, axis: Vec2): (l: Line2)
    requires axis != Zero
    ensures Valid(l)
    ensures OnLine(l, p) && OnLine(l, Add(p, axis))
    ensures l.a == axis.y && l.b == -axis.x
  {
    FromPoints(p, Add(p, axis))
  }

  /** Solve the equation for x at a given y: defined exactly when the line
      is not horizontal, and then the unique such point. */
  function X(l: Line2, y: real): (r: Option<real>)
    ensures r.Some? <==> l.a != 0.0
    ensures r.Some? ==> OnLine(l, Vec2(r.value, y))
    ensures r.Some? ==> forall x :: OnLine(l, Vec2(x, y)) ==> x == r.value
  {
    if l.a != 0.0 then Some((l.c - l.b * y) / l.a) else None
  }

  /** Solve the equation for y at a given x: defined exactly when the line
      is not vertical, and then the unique such point. */
  function Y(l: Line2, x: real): (r: Option<real>)
    ensures r.Some? <==> l.b != 0.0
    ensures r.Some? ==> OnLine(l, Vec2(x, r.value))
    ensures r.Some? ==> forall y :: OnLine(l, Vec2(x, y)) ==> y == r.value
  {
    if l.b != 0.0 then Some((l.c - l.a * x) / l.b) else None
  }

  /** The common point of two lines, by Cramer's rule. It is absent exactly
      when the determinant vanishes (parallel or identical lines); otherwise
      it lies on both lines and is the only such point. */
  function IntersectionPoint(l: Line2, m: Line2): (r: Option<Vec2>)
    ensures r.None? <==> Det(l, m) == 0.0
    ensures r.Some? ==> OnLine(l, r.value) && OnLine(m, r.value)
  {
    var det := Det(l, m);
    if det != 0.0 then
      Some(Vec2((m.b * l.c - l.b * m.c) / det, (l.a * m.c - m.a * l.c) / det))
    else
      None
  }

  /** When two lines cross, they have no other common point. */
  lemma IntersectionUnique(l: Line2, m: Line2, p: Vec2)
    requires Valid(l) && Det(l, m) != 0.0
    requires OnLine(l, p) && OnLine(m, p)
    ensures IntersectionPoint(l, m) == Some(p)
  {
    var det := Det(l, m);
    assert det * p.x == m.b * l.c - l.b * m.c;
    assert det * p.y == l.a * m.c - m.a * l.c;
    Quotient(p.x, det, m.b * l.c - l.b * m.c);
    Quotient(p.y, det, l.a * m.c - m.a * l.c);
    var q := Vec2((m.b * l.c - l.b * m.c) / det, (l.a * m.c - m.a * l.c) / det);
    assert q == p;
    assert IntersectionPoint(l, m).Some?;
    assert IntersectionPoint(l, m).value.x == q.x;
    assert IntersectionPoint(l, m).value.y == q.y;
    assert IntersectionPoint(l, m) == Some(q);
  }

  lemma Quotient(x: real, d: real, n: real)
    requires d != 0.0 && d * x == n
    ensures x == n / d
  {
  }

  /** The intersection does not depend on the order of the two lines. */
  lemma IntersectionSymmetric(l: Line2, m: Line2)
    requires Valid(l) && Valid(m)
    ensures IntersectionPoint(l, m) == IntersectionPoint(m, l)
  {
    assert Det(m, l) == -Det(l, m);
    if Det(l, m) != 0.0 {
      var p := IntersectionPoint(l, m).value;
      IntersectionUnique(m, l, p);
    }
  }

  /** The line through `p` perpendicular to `l`, as the source builds it for
      the closest point. */
  function Perpendicular(l: Line2, p: Vec2): Line2
  {
    Line2(l.b, -l.a, l.b * p.x - l.a * p.y)
  }

  /** The foot of the perpendicular from `p`: it lies on the line, and the
      offset from it to `p` is parallel to the normal (a, b). The determinant
      of the system is −(a² + b²), never zero on a valid line, so the source's
      unwrap cannot fail. */
  function ClosestPoint(l: Line2, p: Vec2): (r: Vec2)
    requires Valid(l)
    ensures OnLine(l, r)
    ensures Cross(Sub(p, r), Vec2(l.a, l.b)) == 0.0
  {
    PerpendicularDet(l, p);
    IntersectionPoint(l, Perpendicular(l, p)).value
  }

  lemma PerpendicularDet(l: Line2, p: Vec2)
    requires Valid(l)
    ensures Det(l, Perpendicular(l, p)) == -NormSq(Vec2(l.a, l.b))
    ensures Det(l, Perpendicular(l, p)) != 0.0
  {
    NormSqPositive(Vec2(l.a, l.b));
  }

  /** A point already on the line is its own closest point. */
  lemma ClosestPointOnLine(l: Line2, p: Vec2)
    requires Valid(l) && OnLine(l, p)
    ensures ClosestPoint(l, p) == p
  {
    PerpendicularDet(l, p);
    IntersectionUnique(l, Perpendicular(l, p), p);
  }

  /** The closest point is the nearest point of the line: no point on the line
      is at a smaller squared distance. */
  lemma ClosestPointIsNearest(l: Line2, p: Vec2, q: Vec2)
    requires Valid(l) && OnLine(l, q)
    ensures DistSq(p, ClosestPoint(l, p)) <= DistSq(p, q)
  {
    var r := ClosestPoint(l, p);
    var u := Sub(p, r);
    var w := Sub(r, q);
    // w runs along the line, u along its normal: they are orthogonal.
    assert l.a * w.x + l.b * w.y == 0.0;
    assert u.x * l.b == u.y * l.a;
    PerpendicularOffsets(l.a, l.b, u, w);
    SquareNonNegative(w.x);
    SquareNonNegative(w.y);
    assert Sub(p, q) == Add(u, w);
    PythagorasSum(u, w);
  }

  /** An offset parallel to a non-zero normal and one orthogonal to it are orthogonal. */
  lemma PerpendicularOffsets(a: real, b: real, u: Vec2, w: Vec2)
    requires a != 0.0 || b != 0.0
    requires a * w.x + b * w.y == 0.0
    requires u.x * b == u.y * a
    ensures Dot(u, w) == 0.0
  {
    if a != 0.0 {
      assert w.x == -b * w.y / a;
      assert u.y == u.x * b / a;
    } else {
      assert w.y == -a * w.x / b;
      assert u.x == u.y * a / b;
    }
  }

  /** Squared lengths add across orthogonal offsets. */
  lemma PythagorasSum(u: Vec2, w: Vec2)
    requires Dot(u, w) == 0.0
    ensures NormSq(Add(u, w)) == NormSq(u) + NormSq(w)
  {
  }

  /** Scaling a line's coefficients by a non-zero factor. */
  function Scaled(l: Line2, k: real): Line2 { Line2(l.a * k, l.b * k, l.c * k) }

  /** Scaling by a non-zero factor describes the same line: the point set, the
      validity and every intersection are unchanged. This is why the model may
      build perpendicular bisectors from an unnormalised axis. */
  lemma ScaledSameLine(l: Line2, k: real, m: Line2, p: Vec2)
    requires k != 0.0
    ensures OnLine(Scaled(l, k), p) <==> OnLine(l, p)
    ensures Valid(Scaled(l, k)) <==> Valid(l)
    ensures Valid(l) && Valid(m) ==> IntersectionPoint(Scaled(l, k), m) == IntersectionPoint(l, m)
  {
    ScaledOnLine(l, k, p);
    ScaledValid(l, k);
    if Valid(l) && Valid(m) {
      ScaledIntersection(l, k, m);
    }
  }

  lemma ScaledOnLine(l: Line2, k: real, p: Vec2)
    requires k != 0.0
    ensures OnLine(Scaled(l, k), p) <==> OnLine(l, p)
  {
    assert l.a * k * p.x + l.b * k * p.y == (l.a * p.x + l.b * p.y) * k;
  }

  lemma ScaledValid(l: Line2, k: real)
    requires k != 0.0
    ensures Valid(Scaled(l, k)) <==> Valid(l)
  {
    if l.a != 0.0 { MulNonZero(l.a, k); }
    if l.b != 0.0 { MulNonZero(l.b, k); }
  }

  lemma ScaledIntersection(l: Line2, k: real, m: Line2)
    requires k != 0.0 && Valid(l) && Valid(m)
    ensures Valid(Scaled(l, k))
    ensures IntersectionPoint(Scaled(l, k), m) == IntersectionPoint(l, m)
  {
    var s := Scaled(l, k);
    ScaledValid(l, k);
    assert Det(s, m) == Det(l, m) * k;
    if Det(l, m) != 0.0 {
      MulNonZero(Det(l, m), k);
      var q := IntersectionPoint(l, m).value;
      ScaledOnLine(l, k, q);
      IntersectionUnique(s, m, q);
    }
  }

  lemma MulNonZero(a: real, k: real)
    requires a != 0.0 && k != 0.0
    ensures a * k != 0.0
  {
  }
}

=== FILE: options.dfy ===
/** Optional values and error results shared by the geometry modules. */
module Options {

  /** A value that may be absent: an `Option` in the modelled library. */
  datatype Option<+T> = None | Some(value: T)

  /** The outcome of an algorithm that can abort. */
  datatype Result<+T, +E> = Ok(value: T) | Err(error: E)
}

=== FILE: polylines.dfy ===
/** Open chains of vertices. */
module Polylines {
  import opened Options
  import opened Vectors
  import Segments

  datatype Polyline = Polyline(vertices: seq<Vec2>)

  /** The open chain's segments: one from each vertex to the next, with no
      closing segment back to the first vertex. */
  function LineSegments(p: Polyline): (r: seq<Segments.LineSegment2>)
    ensures |p.vertices| == 0 ==> r == []
    ensures |p.vertices| > 0 ==> |r| == |p.vertices| - 1
    ensures forall i :: 0 <= i < |r| ==> r[i].start == p.vertices[i] && r[i].end == p.vertices[i + 1]
  {
    if |p.vertices| == 0 then []
    else seq(|p.vertices| - 1, i requires 0 <= i < |p.vertices| - 1 =>
               Segments.LineSegment2(p.vertices[i], p.vertices[i + 1]))
  }

  /** The segments form a chain from the first vertex to the last: each
      starts where the previous one ends. */
  lemma SegmentsChain(p: Polyline)
    requires |p.vertices| >= 2
    ensures var r := LineSegments(p);
            r[0].start == p.vertices[0] && r[|r| - 1].end == p.vertices[|p.vertices| - 1]
            && forall i :: 0 <= i < |r| - 1 ==> r[i].end == r[i + 1].start
  {
  }

  /** The closest point of the proper segment `i` to `q`. The source compares
      square-rooted distances; comparing squared ones is equivalent. */
  function SegmentClosest(segs: seq<Segments.LineSegment2>, i: nat, q: Vec2): Vec2
    requires i < |segs| && !Segments.Degenerate(segs[i])
  {
    Segments.ClosestPoint(segs[i], q)
  }

  /** The segment the source's scan settles on after looking at the first `n`
      segments: the first one is taken unconditionally, and a later one
      replaces the current choice only when its closest point is strictly
      nearer. A zero-length later segment yields a NaN distance and never
      replaces anything. */
  function BestIndex(segs: seq<Segments.LineSegment2>, q: Vec2, n: nat): (k: nat)
    requires 1 <= n <= |segs| && !Segments.Degenerate(segs[0])
    ensures k < n && !Segments.Degenerate(segs[k])
    ensures forall j :: 0 <= j < n && !Segments.Degenerate(segs[j]) ==>
              DistSq(q, SegmentClosest(segs, k, q)) <= DistSq(q, SegmentClosest(segs, j, q))
    ensures forall j :: 0 <= j < k && !Segments.Degenerate(segs[j]) ==>
              DistSq(q, SegmentClosest(segs, k, q)) < DistSq(q, SegmentClosest(segs, j, q))
  {
    if n == 1 then 0
    else
      var b := BestIndex(segs, q, n - 1);
      var i := n - 1;
      if !Segments.Degenerate(segs[i])
         && DistSq(q, SegmentClosest(segs, i, q)) < DistSq(q, SegmentClosest(segs, b, q))
      then i
      else b
  }

  /** The nearest point of the polyline to `q`. A single vertex is its own
      answer. Otherwise the answer is `None` exactly when the first segment
      has zero length: its NaN distance can never be beaten, so the source
      returns a NaN point. */
  function ClosestPoint(p: Polyline, q: Vec2): (r: Option<Vec2>)
    requires |p.vertices| > 0
    ensures |p.vertices| == 1 ==> r == Some(p.vertices[0])
    ensures |p.vertices| > 1 ==> (r.None? <==> p.vertices[0] == p.vertices[1])
    ensures |p.vertices| > 1 && r.Some? ==>
              var segs := LineSegments(p);
              exists k :: 0 <= k < |segs| && !Segments.Degenerate(segs[k])
                          && r.value == Segments.ClosestPoint(segs[k], q)
  {
    if |p.vertices| == 1 then Some(p.vertices[0])
    else
      var segs := LineSegments(p);
      if Segments.Degenerate(segs[0]) then None
      else
        var k := BestIndex(segs, q, |segs|);
        Some(SegmentClosest(segs, k, q))
  }

  /** No point of any segment is strictly nearer to `q` than the answer. */
  lemma ClosestPointIsNearest(p: Polyline, q: Vec2, i: nat, u: real)
    requires |p.vertices| > 1 && ClosestPoint(p, q).Some?
    requires i < |p.vertices| - 1 && 0.0 <= u <= 1.0
    ensures DistSq(q, ClosestPoint(p, q).value) <= DistSq(q, Segments.PointAt(LineSegments(p)[i], u))
  {
    var segs := LineSegments(p);
    var k := BestIndex(segs, q, |segs|);
    assert ClosestPoint(p, q).value == SegmentClosest(segs, k, q);
    var j, w := ProperSegmentThrough(segs, i, u);
    Segments.ProjectionIsNearest(segs[j], q, w);
  }

  /** When the first segment is proper, every point of every segment is a
      point of some proper segment: a zero-length segment's only point is
      the end of the segment before it. */
  lemma ProperSegmentThrough(segs: seq<Segments.LineSegment2>, i: nat, u: real) returns (j: nat, w: real)
    requires i < |segs| && !Segments.Degenerate(segs[0]) && 0.0 <= u <= 1.0
    requires forall m :: 0 <= m < |segs| - 1 ==> segs[m].end == segs[m + 1].start
    ensures j < |segs| && !Segments.Degenerate(segs[j]) && 0.0 <= w <= 1.0
    ensures Segments.PointAt(segs[j], w) == Segments.PointAt(segs[i], u)
    decreases i
  {
    if !Segments.Degenerate(segs[i]) {
      j, w := i, u;
    } else {
      PointAtDegenerate(segs[i], u);
      PointAtDegenerate(segs[i - 1], 1.0);
      PointAtEnd(segs[i - 1]);
      j, w := ProperSegmentThrough(segs, i - 1, 1.0);
    }
  }

  lemma PointAtDegenerate(s: Segments.LineSegment2, u: real)
    ensures Segments.Degenerate(s) ==> Segments.PointAt(s, u) == s.start
  {
    if Segments.Degenerate(s) {
      assert Segments.Direction(s) == Vec2(0.0, 0.0);
    }
  }

  lemma PointAtEnd(s: Segments.LineSegment2)
    ensures Segments.PointAt(s, 1.0) == s.end
  {
  }

  /** On ties the earliest segment wins: every earlier proper segment's
      closest point is strictly farther. */
  lemma EarliestWins(p: Polyline, q: Vec2)
    requires |p.vertices| > 1 && ClosestPoint(p, q).Some?
    ensures var segs := LineSegments(p);
            var k := BestIndex(segs, q, |segs|);
            ClosestPoint(p, q).value == Segments.ClosestPoint(segs[k], q)
            && forall j :: 0 <= j < k && !Segments.Degenerate(segs[j]) ==>
                 DistSq(q, ClosestPoint(p, q).value) < DistSq(q, Segments.ClosestPoint(segs[j], q))
  {
  }
  // ---------------------------------------------------------------------------
  // The closest point with zero-length segments skipped wherever they occur

  /** The first segment of non-zero length at index `i` or later, if any. */
  function FirstProper(segs: seq<Segments.LineSegment2>, i: nat): (r: Option<nat>)
    requires i <= |segs|
    ensures r.Some? ==> i <= r.value < |segs| && !Segments.Degenerate(segs[r.value])
    ensures r.Some? ==> forall j :: i <= j < r.value ==> Segments.Degenerate(segs[j])
    ensures r.None? ==> forall j :: i <= j < |segs| ==> Segments.Degenerate(segs[j])
    decreases |segs| - i
  {
    if i == |segs| then None
    else if !Segments.Degenerate(segs[i]) then Some(i)
    else FirstProper(segs, i + 1)
  }

  /** The nearest point of the polyline to `q`, as the scan evidently means
      it: the scan starts at the first segment of non-zero length instead of
      at the first segment, so a zero-length segment never decides. When
      every segment has zero length, all vertices coincide and the first one
      is the answer. Wherever the source's scan gives a point, this is it. */
  function NearestPoint(p: Polyline, q: Vec2): (r: Vec2)
    requires |p.vertices| > 0
    ensures |p.vertices| == 1 ==> r == p.vertices[0]
    ensures |p.vertices| > 1 && p.vertices[0] != p.vertices[1] ==> ClosestPoint(p, q) == Some(r)
  {
    if |p.vertices| == 1 then p.vertices[0]
    else
      var segs := LineSegments(p);
      match FirstProper(segs, 0)
      case None => p.vertices[0]
      case Some(f) =>
        var rest := segs[f..];
        assert f == 0 ==> rest == segs;
        SegmentClosest(rest, BestIndex(rest, q, |rest|), q)
  }

  /** Across a run of zero-length segments the start point does not move. */
  lemma {:induction false} DegenerateRun(segs: seq<Segments.LineSegment2>, a: nat, b: nat)
    requires a <= b < |segs|
    requires forall m :: 0 <= m < |segs| - 1 ==> segs[m].end == segs[m + 1].start
    requires forall j :: a <= j < b ==> Segments.Degenerate(segs[j])
    ensures segs[a].start == segs[b].start
    decreases b - a
  {
    if a < b {
      DegenerateRun(segs, a + 1, b);
    }
  }

  lemma PointAtStart(s: Segments.LineSegment2)
    ensures Segments.PointAt(s, 0.0) == s.start
  {
  }

  /** No point of any segment is strictly nearer to `q` than the answer,
      whatever zero-length segments the polyline has. */
  lemma NearestPointIsNearest(p: Polyline, q: Vec2, i: nat, u: real)
    requires |p.vertices| > 1 && i < |p.vertices| - 1 && 0.0 <= u <= 1.0
    ensures DistSq(q, NearestPoint(p, q)) <= DistSq(q, Segments.PointAt(LineSegments(p)[i], u))
  {
    var segs := LineSegments(p);
    PointAtDegenerate(segs[i], u);
    match FirstProper(segs, 0)
    case None =>
      DegenerateRun(segs, 0, i);
    case Some(f) =>
      var rest := segs[f..];
      if i >= f {
        assert rest[i - f] == segs[i];
        BestBeatsProperTail(rest, q, i - f, u);
      } else {
        DegenerateRun(segs, i, f);
        BestBeatsStart(rest, q);
      }
  }

  /** The answer is a point of the polyline. */
  lemma NearestPointOnPolyline(p: Polyline, q: Vec2)
    requires |p.vertices| > 1
    ensures exists i, u :: 0 <= i < |p.vertices| - 1 && 0.0 <= u <= 1.0
                           && NearestPoint(p, q) == Segments.PointAt(LineSegments(p)[i], u)
  {
    var segs := LineSegments(p);
    match FirstProper(segs, 0)
    case None =>
      PointAtStart(segs[0]);
      assert NearestPoint(p, q) == Segments.PointAt(segs[0], 0.0);
    case Some(f) =>
      var rest := segs[f..];
      var k := BestIndex(rest, q, |rest|);
      assert rest[k] == segs[f + k];
      var t := Segments.Param(rest[k], q);
      assert NearestPoint(p, q) == Segments.PointAt(segs[f + k], t);
  }

  /** The scan's answer over a chain whose first segment is proper beats
      every point of the chain. */
  lemma BestBeatsProperTail(segs: seq<Segments.LineSegment2>, q: Vec2, i: nat, u: real)
    requires i < |segs| && !Segments.Degenerate(segs[0]) && 0.0 <= u <= 1.0
    requires forall m :: 0 <= m < |segs| - 1 ==> segs[m].end == segs[m + 1].start
    ensures DistSq(q, SegmentClosest(segs, BestIndex(segs, q, |segs|), q)) <= DistSq(q, Segments.PointAt(segs[i], u))
  {
    var j, w := ProperSegmentThrough(segs, i, u);
    Segments.ProjectionIsNearest(segs[j], q, w);
  }

  /** In particular it beats the chain's start. */
  lemma BestBeatsStart(segs: seq<Segments.LineSegment2>, q: Vec2)
    requires |segs| > 0 && !Segments.Degenerate(segs[0])
    ensures DistSq(q, SegmentClosest(segs, BestIndex(segs, q, |segs|), q)) <= DistSq(q, segs[0].start)
  {
    PointAtStart(segs[0]);
    Segments.ProjectionIsNearest(segs[0], q, 0.0);
  }

  /** A zero-length first segment: the source's scan gives no point (a NaN),
      while the polyline plainly has a nearest point, that of its one proper
      segment. */
  lemma ZeroLengthFirstSegment(x: Vec2, y: Vec2, q: Vec2)
    requires x != y
    ensures ClosestPoint(Polyline([x, x, y]), q).None?
    ensures NearestPoint(Polyline([x, x, y]), q) == Segments.ClosestPoint(Segments.LineSegment2(x, y), q)
  {
    var p := Polyline([x, x, y]);
    var segs := LineSegments(p);
    assert Segments.Degenerate(segs[0]) && !Segments.Degenerate(segs[1]);
    assert FirstProper(segs, 0) == Some(1);
    var rest := segs[1..];
    assert rest == [Segments.LineSegment2(x, y)];
    assert BestIndex(rest, q, 1) == 0;
  }
}

=== FILE: rays.dfy ===
/** Rays: a start point and a unit direction. */
module Rays {
  import opened Vectors
  import Lines
  import Segments

  datatype LineRay2 = LineRay2(start: Vec2, axis: Vec2)

  /** The validity check: the axis is normalised, stated without a square
      root as a squared length of one. */
  predicate Valid(r: LineRay2) { NormSq(r.axis) == 1.0 }

  /** The point `start + axis·t`; the ray itself is the part with `t >= 0`. */
  function PointAt(r: LineRay2, t: real): Vec2 { Add(r.start, Mul(r.axis, t)) }

  /** `new`: the axis is normalised. The length of `axis`, a square root, is
      supplied by the caller through its defining property; a zero axis would
      normalise to zero and fail the validity check. */
  function New(start: Vec2, axis: Vec2, length: real): (r: LineRay2)
    requires axis != Zero
    requires length >= 0.0 && Sq(length) == NormSq(axis)
    ensures Valid(r) && r.start == start
    ensures Mul(r.axis, length) == axis
  {
    NormSqPositive(axis);
    assert length != 0.0;
    NormSqScaled(axis, 1.0 / length);
    SqQuotient(1.0, length);
    LineRay2(start, Mul(axis, 1.0 / length))
  }

  /** The projection parameter, clamped below at zero. */
  function Param(r: LineRay2, p: Vec2): (t: real)
    ensures t >= 0.0
  {
    var e := Dot(Sub(p, r.start), r.axis);
    if e > 0.0 then e else 0.0
  }

  /** The point of the ray nearest to `p`: a point of the ray, and no point
      of the ray is strictly nearer to `p`. */
  function ClosestPoint(r: LineRay2, p: Vec2): (q: Vec2)
    requires Valid(r)
    ensures q == PointAt(r, Param(r, p)) && Param(r, p) >= 0.0
    ensures forall u :: u >= 0.0 ==> DistSq(p, q) <= DistSq(p, PointAt(r, u))
  {
    assert forall u :: u >= 0.0 ==> DistSq(p, PointAt(r, Param(r, p))) <= DistSq(p, PointAt(r, u)) by {
      forall u | u >= 0.0
        ensures DistSq(p, PointAt(r, Param(r, p))) <= DistSq(p, PointAt(r, u))
      {
        ProjectionIsNearest(r, p, u);
      }
    }
    Add(r.start, Mul(r.axis, Param(r, p)))
  }

  /** Points that project behind the start, the start among them, map to the start. */
  lemma ClosestPointBehindStart(r: LineRay2, p: Vec2)
    requires Valid(r)
    requires Dot(Sub(p, r.start), r.axis) <= 0.0
    ensures ClosestPoint(r, p) == r.start
  {
    assert Mul(r.axis, 0.0) == Zero;
  }

  lemma ClosestPointOfStart(r: LineRay2)
    requires Valid(r)
    ensures ClosestPoint(r, r.start) == r.start
  {
    assert Sub(r.start, r.start) == Zero;
    ClosestPointBehindStart(r, r.start);
  }

  /** A point of the ray is its own closest point, so `ClosestPoint` is idempotent. */
  lemma ClosestPointIdempotent(r: LineRay2, p: Vec2)
    requires Valid(r)
    ensures ClosestPoint(r, ClosestPoint(r, p)) == ClosestPoint(r, p)
  {
    var t := Param(r, p);
    var q := ClosestPoint(r, p);
    assert Sub(q, r.start) == Mul(r.axis, t);
    assert Dot(Mul(r.axis, t), r.axis) == t * NormSq(r.axis);
    assert Param(r, q) == t;
  }

  /** The point at the clamped parameter is at least as near to `p` as the
      point at any parameter `u >= 0`. */
  lemma ProjectionIsNearest(r: LineRay2, p: Vec2, u: real)
    requires Valid(r) && u >= 0.0
    ensures DistSq(p, PointAt(r, Param(r, p))) <= DistSq(p, PointAt(r, u))
  {
    var w := Sub(p, r.start);
    var t := Param(r, p);
    assert Sub(p, PointAt(r, u)) == Sub(w, Mul(r.axis, u));
    assert Sub(p, PointAt(r, t)) == Sub(w, Mul(r.axis, t));
    if Dot(w, r.axis) <= 0.0 {
      ProjectionAtLowerEnd(w, r.axis, u);
    } else {
      ProjectionAtMinimum(w, r.axis, t, u);
    }
  }

  /** `segment(length)`: the first `length` units of the ray. Its points are
      the ray's points with parameters scaled by `length`, and its squared
      length is `length²`. */
  function Segment(r: LineRay2, length: real): (s: Segments.LineSegment2)
    requires Valid(r)
    ensures s.start == r.start
    ensures forall t :: Segments.PointAt(s, t) == PointAt(r, t * length)
    ensures DistSq(s.end, s.start) == Sq(length)
  {
    var s := Segments.LineSegment2(r.start, Add(r.start, Mul(r.axis, length)));
    assert Sub(s.end, s.start) == Mul(r.axis, length);
    NormSqScaled(r.axis, length);
    s
  }

  /** `line()`: the supporting line, which every point of the ray lies on. */
  function Line(r: LineRay2): (l: Lines.Line2)
    requires Valid(r)
    ensures Lines.Valid(l)
    ensures forall t :: Lines.OnLine(l, PointAt(r, t))
  {
    NormSqPositive(r.axis);
    Lines.FromPointAxis(r.start, r.axis)
  }
}

=== FILE: segments.dfy ===
/** Line segments between two points. */
module Segments {
  import opened Vectors
  import Lines

  /** The only validity check on a segment is finiteness of its endpoints,
      which every real satisfies: a segment may be degenerate (start == end)
      even though its documentation calls the vertices distinct. */
  datatype LineSegment2 = LineSegment2(start: Vec2, end: Vec2)

  predicate Degenerate(s: LineSegment2) { s.start == s.end }

  /** The direction from start to end, unnormalised. */
  function Direction(s: LineSegment2): Vec2 { Sub(s.end, s.start) }

  /** The point at parameter `t`: start at 0, end at 1. */
  function PointAt(s: LineSegment2, t: real): Vec2 { Add(s.start, Mul(Direction(s), t)) }

  /** The same segment walked the other way. */
  function Reversed(s: LineSegment2): LineSegment2 { LineSegment2(s.end, s.start) }

  /** The midpoint: the point at parameter one half, equally far from both ends. */
  function Center(s: LineSegment2): (r: Vec2)
    ensures Add(r, r) == Add(s.start, s.end)
    ensures r == PointAt(s, 0.5)
  {
    Mul(Add(s.start, s.end), 0.5)
  }

  lemma CenterEquidistant(s: LineSegment2)
    ensures DistSq(Center(s), s.start) == DistSq(Center(s), s.end)
  {
  }

  /** Rust's `f32::clamp(0., 1.)`. */
  function Clamp01(x: real): (r: real)
    ensures 0.0 <= r <= 1.0
    ensures 0.0 <= x <= 1.0 ==> r == x
  {
    if x < 0.0 then 0.0 else if x > 1.0 then 1.0 else x
  }

  /** The clamped projection parameter of `p`. The division by the squared
      length is why a degenerate segment is excluded (it would be 0/0). */
  function Param(s: LineSegment2, p: Vec2): real
    requires !Degenerate(s)
  {
    DistSqPositive(s.end, s.start);
    Clamp01(Dot(Sub(p, s.start), Direction(s)) / NormSq(Direction(s)))
  }

  /** The point of the segment nearest to `p`: a point of the segment, and
      no point of the segment is strictly nearer to `p`. */
  function ClosestPoint(s: LineSegment2, p: Vec2): (r: Vec2)
    requires !Degenerate(s)
    ensures 0.0 <= Param(s, p) <= 1.0 && r == PointAt(s, Param(s, p))
    ensures forall u :: 0.0 <= u <= 1.0 ==> DistSq(p, r) <= DistSq(p, PointAt(s, u))
  {
    assert forall u :: 0.0 <= u <= 1.0 ==> DistSq(p, PointAt(s, Param(s, p))) <= DistSq(p, PointAt(s, u)) by {
      forall u | 0.0 <= u <= 1.0
        ensures DistSq(p, PointAt(s, Param(s, p))) <= DistSq(p, PointAt(s, u))
      {
        ProjectionIsNearest(s, p, u);
      }
    }
    PointAt(s, Param(s, p))
  }

  /** Each endpoint is its own closest point. */
  lemma ClosestPointOfEndpoints(s: LineSegment2)
    requires !Degenerate(s)
    ensures ClosestPoint(s, s.start) == s.start
    ensures ClosestPoint(s, s.end) == s.end
  {
    var d := Direction(s);
    DistSqPositive(s.end, s.start);
    assert Sub(s.end, s.start) == d;
    assert Dot(d, d) == NormSq(d);
    assert Dot(d, d) / NormSq(d) == 1.0;
    assert Add(s.start, Mul(d, 1.0)) == s.end;
    assert Dot(Sub(s.start, s.start), d) == 0.0;
    assert Add(s.start, Mul(d, 0.0)) == s.start;
  }

  /** The offset from a point on the segment to `p`, in terms of the
      parameter. */
  lemma OffsetAlong(s: LineSegment2, p: Vec2, u: real)
    ensures DistSq(p, PointAt(s, u)) == NormSq(Sub(Sub(p, s.start), Mul(Direction(s), u)))
  {
    assert Sub(p, PointAt(s, u)) == Sub(Sub(p, s.start), Mul(Direction(s), u));
  }

  /** The point at the clamped parameter is at least as near to `p` as the
      point at any parameter in [0, 1]. */
  lemma ProjectionIsNearest(s: LineSegment2, p: Vec2, u: real)
    requires !Degenerate(s)
    requires 0.0 <= u <= 1.0
    ensures DistSq(p, PointAt(s, Param(s, p))) <= DistSq(p, PointAt(s, u))
  {
    var w := Sub(p, s.start);
    var d := Direction(s);
    var n := NormSq(d);
    var e := Dot(w, d);
    DistSqPositive(s.end, s.start);
    var q := e / n;
    var t := Param(s, p);
    OffsetAlong(s, p, u);
    OffsetAlong(s, p, t);
    QuotientBounds(e, n);
    if q < 0.0 {
      ProjectionAtLowerEnd(w, d, u);
    } else if q > 1.0 {
      ProjectionAtUpperEnd(w, d, u);
    } else {
      ProjectionAtMinimum(w, d, t, u);
    }
  }

  /** What the sign of a quotient by a positive number says about the dividend. */
  lemma QuotientBounds(e: real, n: real)
    requires n > 0.0
    ensures (e / n) * n == e
    ensures e / n < 0.0 ==> e < 0.0
    ensures e / n > 1.0 ==> e > n
  {
    var q := e / n;
    assert q * n == e;
    if q < 0.0 {
      MulPositive(-q, n);
      assert Prod(-q, n) == -e;
    } else if q > 1.0 {
      MulPositive(q - 1.0, n);
      assert Prod(q - 1.0, n) == e - n;
    }
  }

  /** The perpendicular bisector: the line through the midpoint normal to the
      segment. The source normalises the direction before turning it; this
      model keeps the direction's length, which only scales the line's
      coefficients (see `BisectorNormalisationIsScaling`). */
  function PerpendicularBisector(s: LineSegment2): (r: Lines.Line2)
    requires !Degenerate(s)
    ensures Lines.Valid(r)
    ensures Lines.OnLine(r, Center(s))
  {
    var d := Direction(s);
    assert d != Zero;
    Lines.FromPointAxis(Center(s), Vec2(d.y, -d.x))
  }

  /** A point lies on the perpendicular bisector exactly when it is equally
      far from both endpoints. */
  lemma BisectorIsEquidistantSet(s: LineSegment2, p: Vec2)
    requires !Degenerate(s)
    ensures Lines.OnLine(PerpendicularBisector(s), p) <==> DistSq(p, s.start) == DistSq(p, s.end)
  {
    BisectorCoefficients(s);
    BisectorIdentity(p, s.start, s.end);
  }

  /** The bisector's coefficients: the normal is minus the direction, and the
      midpoint fixes the constant. */
  lemma BisectorCoefficients(s: LineSegment2)
    requires !Degenerate(s)
    ensures var d := Direction(s);
            PerpendicularBisector(s) == Lines.Line2(-d.x, -d.y, -d.x * Center(s).x - d.y * Center(s).y)
  {
  }

  lemma BisectorIdentity(p: Vec2, a: Vec2, b: Vec2)
    ensures DistSq(p, a) - DistSq(p, b)
         == 2.0 * ((b.x - a.x) * p.x + (b.y - a.y) * p.y)
          - 2.0 * ((b.x - a.x) * ((a.x + b.x) * 0.5) + (b.y - a.y) * ((a.y + b.y) * 0.5))
  {
  }

  /** The source's bisector, built from the direction scaled by any positive
      factor (the source uses one over the length), is this model's bisector
      with every coefficient scaled by that factor: the same line. */
  lemma BisectorNormalisationIsScaling(s: LineSegment2, k: real)
    requires !Degenerate(s) && k > 0.0
    ensures var axis := Mul(Direction(s), k);
            axis != Zero &&
            Lines.FromPointAxis(Center(s), Vec2(axis.y, -axis.x))
              == Lines.Scaled(PerpendicularBisector(s), k)
  {
    var d := Direction(s);
    var axis := Mul(d, k);
    if d.x != 0.0 {
      Lines.MulNonZero(d.x, k);
    } else {
      Lines.MulNonZero(d.y, k);
    }
  }

  /** `is_same`: the same endpoints, in either order. */
  function IsSame(s: LineSegment2, o: LineSegment2): (r: bool)
    ensures r <==> o == s || o == Reversed(s)
  {
    (s.start == o.start && s.end == o.end) || (s.start == o.end && s.end == o.start)
  }

  /** `is_same` is reflexive and symmetric. */
  lemma IsSameReflexiveSymmetric(s: LineSegment2, o: LineSegment2)
    ensures IsSame(s, s)
    ensures IsSame(s, o) <==> IsSame(o, s)
    ensures IsSame(s, Reversed(s))
  {
  }

  /** The supporting line; both endpoints, and every point of the segment, lie on it. */
  function Line(s: LineSegment2): (r: Lines.Line2)
    requires !Degenerate(s)
    ensures Lines.Valid(r)
    ensures Lines.OnLine(r, s.start) && Lines.OnLine(r, s.end)
  {
    Lines.FromPoints(s.start, s.end)
  }

  lemma SegmentOnLine(s: LineSegment2, t: real)
    requires !Degenerate(s)
    ensures Lines.OnLine(Line(s), PointAt(s, t))
  {
  }
}

=== FILE: selections.dfy ===
/** Selections of elements of a sequence by increasing index lists. */
module Selections {

  /** Strictly increasing indices, all below `n`. */
  predicate Increasing(idx: seq<nat>, n: nat)
  {
    (forall k :: 0 <= k < |idx| ==> idx[k] < n)
    && (forall j, k :: 0 <= j < k < |idx| ==> idx[j] < idx[k])
  }

  /** An index below every one of an increasing list extends it at the
      front. */
  lemma ConsIncreasing(i: nat, t: seq<nat>, n: nat)
    requires i < n && Increasing(t, n)
    requires forall k :: 0 <= k < |t| ==> i < t[k]
    ensures Increasing([i] + t, n)
  {
    var r := [i] + t;
    assert forall k :: 1 <= k < |r| ==> r[k] == t[k - 1];
  }

  /** The elements at the given indices, in the order given. */
  function Select<T>(v: seq<T>, idx: seq<nat>): (r: seq<T>)
    requires forall k :: 0 <= k < |idx| ==> idx[k] < |v|
    ensures |r| == |idx|
    ensures forall k :: 0 <= k < |idx| ==> r[k] == v[idx[k]]
  {
    seq(|idx|, k requires 0 <= k < |idx| => v[idx[k]])
  }

  /** `a` is obtained from `b` by deleting elements. */
  ghost predicate IsSubsequence<T>(a: seq<T>, b: seq<T>)
  {
    exists idx :: |idx| == |a| && Increasing(idx, |b|)
                  && forall k :: 0 <= k < |a| ==> a[k] == b[idx[k]]
  }

  /** The indices `lo`, `lo + 1`, ..., `hi - 1`. */
  function Range(lo: nat, hi: nat): (r: seq<nat>)
    requires lo <= hi
    ensures |r| == hi - lo
    ensures forall k :: 0 <= k < |r| ==> r[k] == lo + k
    decreases hi - lo
  {
    if lo == hi then [] else [lo] + Range(lo + 1, hi)
  }

  /** `Vec::remove`: drop the element at `i`, shifting the rest down. */
  function RemoveAt<X>(s: seq<X>, i: nat): (r: seq<X>)
    requires i < |s|
    ensures |r| == |s| - 1
    ensures forall j :: 0 <= j < i ==> r[j] == s[j]
    ensures forall j :: i <= j < |r| ==> r[j] == s[j + 1]
    ensures forall x :: x in r ==> x in s
  {
    s[..i] + s[i + 1..]
  }
}

=== FILE: simplification.dfy ===
/** Polyline simplification: the greedy distance-threshold pass and the
    recursive Douglas-Peucker subdivision. Both keep some of the input
    vertices in order; each is modelled by the increasing list of input
    indices it keeps, from which the output polyline is read off. */
module Simplification {
  import opened Vectors
  import opened Selections
  import Segments

  // ---------------------------------------------------------------------------
  // Greedy distance threshold

  /** The greedy pass's test: `p` is farther than `tol` from `q`. The source
      compares square-rooted distances; `DistGt` compares squared ones,
      which is equivalent. */
  function FarFrom(tol: real): (far: (Vec2, Vec2) -> bool)
    ensures forall p, q :: far(p, q) == DistGt(p, q, tol)
  {
    (p: Vec2, q: Vec2) => DistGt(p, q, tol)
  }

  /** No input vertex at an index from `lo` up to `hi - 1` is far from the
      one at index `a`. */
  predicate NotFarBetween<T>(v: seq<T>, far: (T, T) -> bool, a: nat, lo: nat, hi: nat)
    requires a < |v| && hi <= |v|
  {
    forall j :: lo <= j < hi ==> !far(v[j], v[a])
  }

  /** Every input vertex strictly between kept indices `a` and `b` was
      dropped for not being far from the vertex kept at `a`. */
  predicate GreedyGap<T>(v: seq<T>, far: (T, T) -> bool, a: nat, b: nat)
    requires a < |v| && b <= |v|
  {
    NotFarBetween(v, far, a, a + 1, b)
  }

  /** The kept index at position `k` of `r`, unless it is the final input
      vertex, is far from the one kept before it. */
  predicate FarAt<T>(v: seq<T>, far: (T, T) -> bool, r: seq<nat>, k: nat)
    requires 0 < k < |r| && forall m :: 0 <= m < |r| ==> r[m] < |v|
  {
    r[k] < |v| - 1 ==> far(v[r[k]], v[r[k - 1]])
  }

  /** The vertices skipped between positions `k` and `k + 1` of `r`. */
  predicate GapAt<T>(v: seq<T>, far: (T, T) -> bool, r: seq<nat>, k: nat)
    requires k + 1 < |r| && forall m :: 0 <= m < |r| ==> r[m] < |v|
  {
    GreedyGap(v, far, r[k], r[k + 1])
  }

  /** What the greedy pass must return from input index `i` on, the last
      kept vertex being at index `last`: increasing indices from `i` up to
      the final input vertex, each kept one other than the final one far
      from the one kept before it, and each skipped one not far from the
      one kept before it. */
  predicate IsGreedyTail<T>(v: seq<T>, far: (T, T) -> bool, last: nat, i: nat, r: seq<nat>)
    requires last < i <= |v|
  {
    Increasing(r, |v|)
    && (|r| > 0 ==> i <= r[0])
    && (i < |v| ==> |r| > 0 && r[|r| - 1] == |v| - 1)
    && (|r| > 0 ==> NotFarBetween(v, far, last, i, r[0]))
    && (|r| > 0 && r[0] < |v| - 1 ==> far(v[r[0]], v[last]))
    && (forall k :: 0 < k < |r| ==> FarAt(v, far, r, k))
    && (forall k :: 0 <= k < |r| - 1 ==> GapAt(v, far, r, k))
  }

  /** The greedy pass from input index `i` on, the last kept vertex being
      at index `last`: a vertex is kept when it is far from the last kept
      one, and the final input vertex is always kept. */
  function KeptFrom<T>(v: seq<T>, far: (T, T) -> bool, last: nat, i: nat): (r: seq<nat>)
    requires last < i <= |v|
    ensures Increasing(r, |v|)
    ensures forall k :: 0 <= k < |r| ==> i <= r[k]
    ensures i == |v| <==> r == []
    ensures |r| > 0 ==> r[|r| - 1] == |v| - 1
    decreases |v| - i
  {
    if i == |v| then []
    else if far(v[i], v[last]) || i == |v| - 1 then
      var t := KeptFrom(v, far, i, i + 1);
      ConsIncreasing(i, t, |v|);
      [i] + t
    else KeptFrom(v, far, last, i + 1)
  }

  /** The pass computes a greedy tail. */
  lemma {:induction false} KeptFromIsGreedyTail<T>(v: seq<T>, far: (T, T) -> bool, last: nat, i: nat)
    requires last < i <= |v|
    ensures IsGreedyTail(v, far, last, i, KeptFrom(v, far, last, i))
    decreases |v| - i
  {
    if i < |v| {
      if far(v[i], v[last]) || i == |v| - 1 {
        var t := KeptFrom(v, far, i, i + 1);
        KeptFromIsGreedyTail(v, far, i, i + 1);
        ConsIsGreedyTail(v, far, last, i, t);
      } else {
        KeptFromIsGreedyTail(v, far, last, i + 1);
      }
    }
  }

  /** Putting a kept index `i` in front of a greedy tail after it gives a
      greedy tail from `i`. */
  lemma ConsIsGreedyTail<T>(v: seq<T>, far: (T, T) -> bool, last: nat, i: nat, t: seq<nat>)
    requires last < i < |v|
    requires far(v[i], v[last]) || i == |v| - 1
    requires IsGreedyTail(v, far, i, i + 1, t)
    ensures IsGreedyTail(v, far, last, i, [i] + t)
  {
    var r := [i] + t;
    assert forall k :: 1 <= k < |r| ==> r[k] == t[k - 1];
    assert Increasing(r, |v|);
    forall k | 0 < k < |r|
      ensures FarAt(v, far, r, k)
    {
      if k > 1 {
        assert FarAt(v, far, t, k - 1);
      }
    }
    forall k | 0 <= k < |r| - 1
      ensures GapAt(v, far, r, k)
    {
      if k > 0 {
        assert GapAt(v, far, t, k - 1);
      }
    }
  }

  /** A greedy tail is what the pass computes. */
  lemma {:induction false} KeptFromUnique<T>(v: seq<T>, far: (T, T) -> bool, last: nat, i: nat, r: seq<nat>)
    requires last < i <= |v|
    requires IsGreedyTail(v, far, last, i, r)
    ensures r == KeptFrom(v, far, last, i)
    decreases |v| - i, 1
  {
    if i == |v| {
      EmptyTail(v, far, last, r);
    } else if far(v[i], v[last]) || i == |v| - 1 {
      var t := SplitKept(v, far, last, i, r);
      KeptFromUniqueKept(v, far, last, i, t);
    } else {
      KeptFromUniqueSkipped(v, far, last, i, r);
    }
  }

  /** When the pass keeps vertex `i`, its result is `i` followed by the
      pass from `i` on. */
  lemma KeptFromCons<T>(v: seq<T>, far: (T, T) -> bool, last: nat, i: nat, t: seq<nat>)
    requires last < i < |v|
    requires far(v[i], v[last]) || i == |v| - 1
    requires t == KeptFrom(v, far, i, i + 1)
    ensures [i] + t == KeptFrom(v, far, last, i)
  {
  }

  /** The case of `KeptFromUnique` where the pass keeps vertex `i`, the
      rest of the tail being `t`. */
  lemma {:induction false} KeptFromUniqueKept<T>(v: seq<T>, far: (T, T) -> bool, last: nat, i: nat, t: seq<nat>)
    requires last < i < |v|
    requires far(v[i], v[last]) || i == |v| - 1
    requires IsGreedyTail(v, far, i, i + 1, t)
    ensures [i] + t == KeptFrom(v, far, last, i)
    decreases |v| - i, 0
  {
    KeptFromUnique(v, far, i, i + 1, t);
    KeptFromCons(v, far, last, i, t);
  }

  /** The case of `KeptFromUnique` where the pass skips vertex `i`. */
  lemma {:induction false} KeptFromUniqueSkipped<T>(v: seq<T>, far: (T, T) -> bool, last: nat, i: nat, r: seq<nat>)
    requires last < i < |v| - 1
    requires !far(v[i], v[last])
    requires IsGreedyTail(v, far, last, i, r)
    ensures r == KeptFrom(v, far, last, i)
    decreases |v| - i, 0
  {
    SkippedIsNotFirst(v, far, last, i, r);
    KeptFromUnique(v, far, last, i + 1, r);
  }

  /** A greedy tail from past the end is empty. */
  lemma EmptyTail<T>(v: seq<T>, far: (T, T) -> bool, last: nat, r: seq<nat>)
    requires last < |v| && IsGreedyTail(v, far, last, |v|, r)
    ensures r == []
  {
  }

  /** A vertex the pass keeps begins every greedy tail from it. */
  lemma KeptIsFirst<T>(v: seq<T>, far: (T, T) -> bool, last: nat, i: nat, r: seq<nat>)
    requires last < i < |v| && IsGreedyTail(v, far, last, i, r)
    requires far(v[i], v[last]) || i == |v| - 1
    ensures r[0] == i
  {
  }

  /** A greedy tail from a vertex the pass keeps is that vertex followed by
      a greedy tail after it. */
  lemma SplitKept<T>(v: seq<T>, far: (T, T) -> bool, last: nat, i: nat, r: seq<nat>) returns (t: seq<nat>)
    requires last < i < |v| && IsGreedyTail(v, far, last, i, r)
    requires far(v[i], v[last]) || i == |v| - 1
    ensures r == [i] + t && IsGreedyTail(v, far, i, i + 1, t)
  {
    KeptIsFirst(v, far, last, i, r);
    t := r[1..];
    TailIsGreedyTail(v, far, i, r, t);
  }

  /** A vertex the pass skips is in no greedy tail from it, which is then
      also a greedy tail from the next index. */
  lemma SkippedIsNotFirst<T>(v: seq<T>, far: (T, T) -> bool, last: nat, i: nat, r: seq<nat>)
    requires last < i < |v| - 1 && IsGreedyTail(v, far, last, i, r)
    requires !far(v[i], v[last])
    ensures IsGreedyTail(v, far, last, i + 1, r)
  {
    assert r[0] != i;
  }

  /** Dropping a greedy tail's first index `i` leaves a greedy tail after it. */
  lemma TailIsGreedyTail<T>(v: seq<T>, far: (T, T) -> bool, i: nat, r: seq<nat>, t: seq<nat>)
    requires i < |v| && |r| > 0 && r[0] == i && t == r[1..]
    requires Increasing(r, |v|) && r[|r| - 1] == |v| - 1
    requires forall k :: 0 < k < |r| ==> FarAt(v, far, r, k)
    requires forall k :: 0 <= k < |r| - 1 ==> GapAt(v, far, r, k)
    ensures IsGreedyTail(v, far, i, i + 1, t)
  {
    assert forall k :: 0 <= k < |t| ==> t[k] == r[k + 1];
    if |t| > 0 {
      assert GapAt(v, far, r, 0);
      assert FarAt(v, far, r, 1);
    }
    forall k | 0 < k < |t|
      ensures FarAt(v, far, t, k)
    {
      assert FarAt(v, far, r, k + 1);
    }
    forall k | 0 <= k < |t| - 1
      ensures GapAt(v, far, t, k)
    {
      assert GapAt(v, far, r, k + 1);
    }
  }

  /** The indices the greedy pass keeps: none of an empty input; otherwise
      the first vertex, then those `KeptFrom` picks. */
  function KeptIndices<T>(v: seq<T>, far: (T, T) -> bool): (r: seq<nat>)
    ensures |v| == 0 ==> r == []
    ensures |v| > 0 ==> |r| > 0 && r[0] == 0 && r[|r| - 1] == |v| - 1
    ensures Increasing(r, |v|)
  {
    if |v| == 0 then [] else [0] + KeptFrom(v, far, 0, 1)
  }

  /** What a greedy selection is, independently of how it is computed:
      increasing indices from the first input vertex to the last, every
      kept vertex other than the final one far from the one kept before
      it, and every dropped vertex not far from the last one kept before
      it. */
  predicate IsGreedySelection<T>(v: seq<T>, far: (T, T) -> bool, r: seq<nat>)
  {
    Increasing(r, |v|)
    && (|v| == 0 ==> r == [])
    && (|v| > 0 ==> |r| > 0 && r[0] == 0 && r[|r| - 1] == |v| - 1)
    && (forall k :: 0 < k < |r| ==> FarAt(v, far, r, k))
    && (forall k :: 0 <= k < |r| - 1 ==> GapAt(v, far, r, k))
  }

  /** The pass's indices are exactly the greedy selection. */
  lemma GreedySelectionUnique<T>(v: seq<T>, far: (T, T) -> bool, r: seq<nat>)
    ensures IsGreedySelection(v, far, r) <==> r == KeptIndices(v, far)
  {
    if |v| > 0 {
      KeptFromIsGreedyTail(v, far, 0, 1);
      SelectionFromTail(v, far, KeptFrom(v, far, 0, 1));
      if IsGreedySelection(v, far, r) {
        var s := r[1..];
        TailIsGreedyTail(v, far, 0, r, s);
        KeptFromUnique(v, far, 0, 1, s);
        assert r == [0] + s;
      }
    }
  }

  /** The first vertex followed by a greedy tail after it is a greedy
      selection. */
  lemma SelectionFromTail<T>(v: seq<T>, far: (T, T) -> bool, t: seq<nat>)
    requires |v| > 0 && IsGreedyTail(v, far, 0, 1, t)
    ensures IsGreedySelection(v, far, [0] + t)
  {
    var r := [0] + t;
    assert forall k :: 1 <= k < |r| ==> r[k] == t[k - 1];
    assert Increasing(r, |v|);
    forall k | 0 < k < |r|
      ensures FarAt(v, far, r, k)
    {
      if k > 1 {
        assert FarAt(v, far, t, k - 1);
      }
    }
    forall k | 0 <= k < |r| - 1
      ensures GapAt(v, far, r, k)
    {
      if k > 0 {
        assert GapAt(v, far, t, k - 1);
      }
    }
  }

  /** The indices the source's greedy pass keeps for tolerance `tol`. */
  function GreedyIndices(v: seq<Vec2>, tol: real): (r: seq<nat>)
    ensures |v| == 0 ==> r == []
    ensures |v| > 0 ==> |r| > 0 && r[0] == 0 && r[|r| - 1] == |v| - 1
    ensures Increasing(r, |v|)
  {
    KeptIndices(v, FarFrom(tol))
  }

  /** Each kept vertex other than the final one is farther than `tol` from
      the one kept before it, and each dropped vertex lies within `tol` of
      the last one kept before it. */
  lemma GreedyKeepsFarDropsNear(v: seq<Vec2>, tol: real, k: nat, j: nat)
    requires k < |GreedyIndices(v, tol)|
    ensures var r := GreedyIndices(v, tol);
            (0 < k && r[k] < |v| - 1 ==> DistGt(v[r[k]], v[r[k - 1]], tol))
            && (k < |r| - 1 && r[k] < j < r[k + 1] ==> !DistGt(v[j], v[r[k]], tol))
  {
    var r := GreedyIndices(v, tol);
    var far := FarFrom(tol);
    GreedySelectionUnique(v, far, r);
    if 0 < k {
      assert FarAt(v, far, r, k);
    }
    if k < |r| - 1 && r[k] < j < r[k + 1] {
      assert GapAt(v, far, r, k);
      assert !far(v[j], v[r[k]]);
    }
  }

  /** The greedy pass: the kept vertices in input order. */
  function Greedy(v: seq<Vec2>, tol: real): (r: seq<Vec2>)
    ensures |v| == 0 ==> r == []
    ensures |v| > 0 ==> |r| > 0 && r[0] == v[0] && r[|r| - 1] == v[|v| - 1]
    ensures IsSubsequence(r, v)
  {
    var idx := GreedyIndices(v, tol);
    var r := Select(v, idx);
    assert |idx| == |r| && forall k :: 0 <= k < |r| ==> r[k] == v[idx[k]];
    r
  }

  /** Running the pass again on its own output keeps every vertex. */
  lemma KeptIndicesIdempotent<T>(v: seq<T>, far: (T, T) -> bool)
    ensures var w := Select(v, KeptIndices(v, far));
            KeptIndices(w, far) == Range(0, |w|)
  {
    var idx := KeptIndices(v, far);
    GreedySelectionUnique(v, far, idx);
    SelectedIsGreedy(v, far, idx);
    var w := Select(v, idx);
    GreedySelectionUnique(w, far, Range(0, |w|));
  }

  /** The vertices a greedy selection keeps, taken on their own, keep each
      other: every one of them is a greedy choice among them. */
  lemma SelectedIsGreedy<T>(v: seq<T>, far: (T, T) -> bool, idx: seq<nat>)
    requires IsGreedySelection(v, far, idx)
    ensures var w := Select(v, idx);
            IsGreedySelection(w, far, Range(0, |w|))
  {
    var w := Select(v, idx);
    var all := Range(0, |w|);
    forall k | 0 < k < |all|
      ensures FarAt(w, far, all, k)
    {
      assert FarAt(v, far, idx, k);
      if k < |w| - 1 {
        assert idx[k] < idx[|idx| - 1];
      }
    }
    forall k | 0 <= k < |all| - 1
      ensures GapAt(w, far, all, k)
    {
    }
  }

  /** Simplifying a simplified polyline again with the same tolerance
      changes nothing. */
  lemma GreedyIdempotent(v: seq<Vec2>, tol: real)
    ensures Greedy(Greedy(v, tol), tol) == Greedy(v, tol)
  {
    var w := Greedy(v, tol);
    KeptIndicesIdempotent(v, FarFrom(tol));
    assert Select(w, Range(0, |w|)) == w;
  }

  // ---------------------------------------------------------------------------
  // Douglas-Peucker

  /** How far `p` lies from the anchor segment `s`, squared: the distance to
      its closest point on the segment. */
  function Deviation(s: Segments.LineSegment2, p: Vec2): real
    requires !Segments.Degenerate(s)
  {
    DistSq(Segments.ClosestPoint(s, p), p)
  }

  /** Whether `p` lies farther than `tol` from the anchor segment. */
  predicate Deviates(s: Segments.LineSegment2, p: Vec2, tol: real)
    requires !Segments.Degenerate(s)
  {
    DistGt(Segments.ClosestPoint(s, p), p, tol)
  }

  /** The source's scan for the furthest vertex among those at indices
      `lo + 1` up to `m - 1`: the first candidate is taken, and a later one
      replaces it only when strictly farther, so the result is the first
      index of maximal deviation. */
  function Furthest(v: seq<Vec2>, s: Segments.LineSegment2, lo: nat, m: nat): (k: nat)
    requires !Segments.Degenerate(s) && lo + 1 < m <= |v|
    ensures lo < k < m
    ensures forall j :: lo < j < m ==> Deviation(s, v[j]) <= Deviation(s, v[k])
    ensures forall j :: lo < j < k ==> Deviation(s, v[j]) < Deviation(s, v[k])
    decreases m
  {
    if m == lo + 2 then lo + 1
    else
      var b := Furthest(v, s, lo, m - 1);
      if Deviation(s, v[m - 1]) > Deviation(s, v[b]) then m - 1 else b
  }

  /** The anchor segment between the vertices at indices `a` and `b`. */
  function Anchor(v: seq<Vec2>, a: nat, b: nat): Segments.LineSegment2
    requires a < |v| && b < |v|
  {
    Segments.LineSegment2(v[a], v[b])
  }

  /** Every input vertex strictly between kept indices `a` and `b` lies
      within `tol` of the anchor segment from `a` to `b`, or that anchor has
      zero length (the source's NaN distances then never exceed `tol`). */
  predicate WithinAnchor(v: seq<Vec2>, a: nat, b: nat, tol: real)
    requires a < |v| && b < |v|
  {
    var s := Anchor(v, a, b);
    Segments.Degenerate(s) || forall j :: a < j < b ==> !Deviates(s, v[j], tol)
  }

  /** `subdivide` on the anchor from `v[lo]` to `v[hi]` with the vertices
      strictly between as its list: the source's sub-lists are always such
      a slice, so indices stand for them. With no vertex in between, a
      zero-length anchor, or no vertex farther than `tol`, the result is
      the anchor's two ends. Otherwise it splits at the furthest vertex and
      joins the two halves, the split vertex appearing once. */
  function Subdivide(v: seq<Vec2>, lo: nat, hi: nat, tol: real): (r: seq<nat>)
    requires lo < hi < |v|
    ensures |r| >= 2 && r[0] == lo && r[|r| - 1] == hi
    ensures forall k :: 0 <= k < |r| ==> lo <= r[k] <= hi
    ensures Increasing(r, |v|)
    ensures forall k :: 0 <= k < |r| - 1 ==> WithinAnchor(v, r[k], r[k + 1], tol)
    decreases hi - lo
  {
    var s := Anchor(v, lo, hi);
    if hi == lo + 1 || Segments.Degenerate(s) then [lo, hi]
    else
      var m := Furthest(v, s, lo, hi);
      if Deviates(s, v[m], tol) then
        var left := Subdivide(v, lo, m, tol);
        var right := Subdivide(v, m, hi, tol);
        JoinAt(v, left, right, tol);
        left + right[1..]
      else
        DeviationBelowTolerance(s, v[m], tol, lo, hi, v);
        [lo, hi]
  }

  /** Joining two selections that meet at a shared index keeps order, and
      the consecutive pairs of the join are those of the two parts. */
  lemma JoinAt(v: seq<Vec2>, left: seq<nat>, right: seq<nat>, tol: real)
    requires |left| >= 1 && |right| >= 1 && left[|left| - 1] == right[0]
    requires Increasing(left, |v|) && Increasing(right, |v|)
    requires forall k :: 0 <= k < |left| - 1 ==> WithinAnchor(v, left[k], left[k + 1], tol)
    requires forall k :: 0 <= k < |right| - 1 ==> WithinAnchor(v, right[k], right[k + 1], tol)
    ensures Increasing(left + right[1..], |v|)
    ensures forall k :: 0 <= k < |left + right[1..]| - 1 ==>
              WithinAnchor(v, (left + right[1..])[k], (left + right[1..])[k + 1], tol)
  {
    var r := left + right[1..];
    var n := |left|;
    assert forall k :: n - 1 <= k < |r| ==> r[k] == right[k - n + 1];
    forall i, j | 0 <= i < j < |r|
      ensures r[i] < r[j]
    {
      if j < n {
      } else if i < n {
        assert r[i] <= left[n - 1];
      }
    }
  }

  /** When the furthest vertex does not deviate, no vertex does. */
  lemma DeviationBelowTolerance(s: Segments.LineSegment2, p: Vec2, tol: real, lo: nat, hi: nat, v: seq<Vec2>)
    requires !Segments.Degenerate(s) && lo < hi <= |v|
    requires !Deviates(s, p, tol)
    requires forall j :: lo < j < hi ==> Deviation(s, v[j]) <= Deviation(s, p)
    ensures forall j :: lo < j < hi ==> !Deviates(s, v[j], tol)
  {
  }

  /** The subdivision returns just the two ends exactly when the anchor has
      zero length or no vertex in between is farther than `tol` from it. */
  lemma SubdivideKeepsOnlyEnds(v: seq<Vec2>, lo: nat, hi: nat, tol: real)
    requires lo < hi < |v|
    ensures Subdivide(v, lo, hi, tol) == [lo, hi] <==> WithinAnchor(v, lo, hi, tol)
  {
    var s := Anchor(v, lo, hi);
    if hi > lo + 1 && !Segments.Degenerate(s) {
      var m := Furthest(v, s, lo, hi);
      if Deviates(s, v[m], tol) {
        var left := Subdivide(v, lo, m, tol);
        assert Subdivide(v, lo, hi, tol)[1] == left[1] || |left| == 2;
        assert !WithinAnchor(v, lo, hi, tol);
      }
    }
  }

  /** When the furthest vertex deviates, the result splits there: it
      contains the split vertex, which is the first of maximal deviation. */
  lemma SubdivideSplitsAtFurthest(v: seq<Vec2>, lo: nat, hi: nat, tol: real)
    requires lo + 1 < hi < |v| && !Segments.Degenerate(Anchor(v, lo, hi))
    requires Deviates(Anchor(v, lo, hi), v[Furthest(v, Anchor(v, lo, hi), lo, hi)], tol)
    ensures var m := Furthest(v, Anchor(v, lo, hi), lo, hi);
            Subdivide(v, lo, hi, tol) == Subdivide(v, lo, m, tol) + Subdivide(v, m, hi, tol)[1..]
            && m in Subdivide(v, lo, hi, tol)
  {
    var m := Furthest(v, Anchor(v, lo, hi), lo, hi);
    var left := Subdivide(v, lo, m, tol);
    assert (left + Subdivide(v, m, hi, tol)[1..])[|left| - 1] == m;
  }

  /** The Douglas-Peucker indices: none of an empty input, the only vertex
      of a single one, otherwise the subdivision of the anchor from the
      first vertex to the last. */
  function PeuckerIndices(v: seq<Vec2>, tol: real): (r: seq<nat>)
    ensures |v| == 0 ==> r == []
    ensures |v| == 1 ==> r == [0]
    ensures |v| > 1 ==> |r| >= 2 && r[0] == 0 && r[|r| - 1] == |v| - 1
    ensures Increasing(r, |v|)
    ensures forall k :: 0 <= k < |r| - 1 ==> WithinAnchor(v, r[k], r[k + 1], tol)
  {
    if |v| == 0 then []
    else if |v| == 1 then [0]
    else Subdivide(v, 0, |v| - 1, tol)
  }

  /** Douglas-Peucker: the kept vertices in input order. The output starts
      at the first input vertex, ends at the last, and is a subsequence. */
  function DouglasPeucker(v: seq<Vec2>, tol: real): (r: seq<Vec2>)
    ensures |v| == 0 ==> r == []
    ensures |v| == 1 ==> r == v
    ensures |v| > 1 ==> |r| >= 2 && r[0] == v[0] && r[|r| - 1] == v[|v| - 1]
    ensures IsSubsequence(r, v)
  {
    var idx := PeuckerIndices(v, tol);
    var r := Select(v, idx);
    assert |idx| == |r| && forall k :: 0 <= k < |r| ==> r[k] == v[idx[k]];
    r
  }

  /** Every dropped vertex lies within `tol` of the output segment that
      spans it (unless that segment has zero length). */
  lemma DouglasPeuckerWithinTolerance(v: seq<Vec2>, tol: real, k: nat, j: nat)
    requires |v| > 1
    requires k < |PeuckerIndices(v, tol)| - 1
    requires PeuckerIndices(v, tol)[k] < j < PeuckerIndices(v, tol)[k + 1]
    ensures var out := DouglasPeucker(v, tol);
            var s := Segments.LineSegment2(out[k], out[k + 1]);
            Segments.Degenerate(s) || !Deviates(s, v[j], tol)
  {
    var idx := PeuckerIndices(v, tol);
    assert WithinAnchor(v, idx[k], idx[k + 1], tol);
  }

  /** With no vertex in between farther than `tol` from the chord, the
      result is the first and last vertex. */
  lemma DouglasPeuckerFlat(v: seq<Vec2>, tol: real)
    requires |v| > 1 && WithinAnchor(v, 0, |v| - 1, tol)
    ensures DouglasPeucker(v, tol) == [v[0], v[|v| - 1]]
  {
    SubdivideKeepsOnlyEnds(v, 0, |v| - 1, tol);
  }
}

=== FILE: sortable.dfy ===
/** Lexicographic sort keys: wrappers that turn one, two or three scalar keys,
    optionally carrying a payload, into a total order. Equality and ordering
    look only at the keys; a tie on one key falls through to the next.

    A key is a floating-point or integer scalar. Only finiteness matters to the
    wrappers, so a key is either a finite value (every integer key is one) or
    a non-finite float (NaN or an infinity). */
module SortKeys {

  datatype Key = Finite(value: real) | NonFinite

  /** The per-key admission test: floats must be finite, integers always pass. */
  predicate SortableCheck(k: Key) { k.Finite? }

  datatype Ordering = Less | Equal | Greater

  /** The ordering seen from the other argument. */
  function Flip(o: Ordering): Ordering
  {
    match o
    case Less => Greater
    case Equal => Equal
    case Greater => Less
  }

  /** Comparison of two finite scalars. */
  function CompareReals(a: real, b: real): (r: Ordering)
    ensures r == Less <==> a < b
    ensures r == Equal <==> a == b
    ensures r == Greater <==> a > b
  {
    if a < b then Less else if b < a then Greater else Equal
  }

  /** Scalar equality as the source's `eq` sees it when the left key is finite:
      a non-finite right key equals nothing finite. */
  predicate KeyEq(a: Key, b: Key)
    requires SortableCheck(a)
  {
    b.Finite? && a.value == b.value
  }

  // ---------------------------------------------------------------------------
  // The reference order: lexicographic comparison of equally long key lists.

  function LexCmp(xs: seq<real>, ys: seq<real>): Ordering
    requires |xs| == |ys|
    decreases |xs|
  {
    if |xs| == 0 then Equal
    else
      var c := CompareReals(xs[0], ys[0]);
      if c == Equal then LexCmp(xs[1..], ys[1..]) else c
  }

  /** An independent description of "xs sorts before ys": they agree on a
      prefix and differ first at a position where xs is smaller. */
  predicate LexLess(xs: seq<real>, ys: seq<real>)
    requires |xs| == |ys|
  {
    exists i :: 0 <= i < |xs| && xs[..i] == ys[..i] && xs[i] < ys[i]
  }

  /** Taking a sorts-before witness apart at the first position. */
  lemma LexLessUncons(xs: seq<real>, ys: seq<real>)
    requires |xs| == |ys| > 0 && LexLess(xs, ys)
    ensures xs[0] < ys[0] || (xs[0] == ys[0] && LexLess(xs[1..], ys[1..]))
  {
    var i :| 0 <= i < |xs| && xs[..i] == ys[..i] && xs[i] < ys[i];
    if i > 0 {
      assert xs[0] == xs[..i][0] && ys[0] == ys[..i][0];
      assert xs[1..][..i - 1] == xs[..i][1..];
      assert ys[1..][..i - 1] == ys[..i][1..];
      assert xs[1..][i - 1] < ys[1..][i - 1];
    }
  }

  /** The recursive comparison answers Less exactly when xs sorts before ys. */
  lemma {:induction false} LexCmpLessIffLexLess(xs: seq<real>, ys: seq<real>)
    requires |xs| == |ys|
    ensures LexCmp(xs, ys) == Less <==> LexLess(xs, ys)
    decreases |xs|
  {
    if |xs| > 0 {
      LexCmpLessIffLexLess(xs[1..], ys[1..]);
      if LexLess(xs, ys) {
        LexLessUncons(xs, ys);
      }
      if xs[0] == ys[0] && LexLess(xs[1..], ys[1..]) {
        var i :| 0 <= i < |xs| - 1 && xs[1..][..i] == ys[1..][..i] && xs[1..][i] < ys[1..][i];
        assert xs[..i + 1] == [xs[0]] + xs[1..][..i];
        assert ys[..i + 1] == [ys[0]] + ys[1..][..i];
        assert xs[i + 1] < ys[i + 1];
      }
      if xs[0] < ys[0] {
        assert xs[..0] == ys[..0];
      }
    }
  }

  /** The reference order on two and on three keys, unfolded. */
  lemma LexCmpTwo(x1: real, x2: real, y1: real, y2: real)
    ensures LexCmp([x1, x2], [y1, y2])
         == if x1 == y1 then CompareReals(x2, y2) else CompareReals(x1, y1)
  {
    assert [x1, x2][1..] == [x2] && [y1, y2][1..] == [y2];
    assert [x2][1..] == [] && [y2][1..] == [];
    assert LexCmp([x2], [y2]) == CompareReals(x2, y2);
  }

  lemma LexCmpThree(x1: real, x2: real, x3: real, y1: real, y2: real, y3: real)
    ensures LexCmp([x1, x2, x3], [y1, y2, y3])
         == if x1 == y1 then LexCmp([x2, x3], [y2, y3]) else CompareReals(x1, y1)
  {
    assert [x1, x2, x3][1..] == [x2, x3] && [y1, y2, y3][1..] == [y2, y3];
  }

  /** Equal is answered exactly for identical key lists. */
  lemma {:induction false} LexCmpEqualIffSame(xs: seq<real>, ys: seq<real>)
    requires |xs| == |ys|
    ensures LexCmp(xs, ys) == Equal <==> xs == ys
    decreases |xs|
  {
    if |xs| > 0 {
      LexCmpEqualIffSame(xs[1..], ys[1..]);
      if xs == ys {
        assert xs[1..] == ys[1..];
      }
      if xs[0] == ys[0] && xs[1..] == ys[1..] {
        assert xs == [xs[0]] + xs[1..];
        assert ys == [ys[0]] + ys[1..];
      }
    }
  }

  /** Antisymmetry: swapping the arguments flips the answer. */
  lemma {:induction false} LexCmpAntisymmetric(xs: seq<real>, ys: seq<real>)
    requires |xs| == |ys|
    ensures LexCmp(ys, xs) == Flip(LexCmp(xs, ys))
    decreases |xs|
  {
    if |xs| > 0 {
      LexCmpAntisymmetric(xs[1..], ys[1..]);
    }
  }

  /** Transitivity of the strict order. */
  lemma {:induction false} LexCmpTransitive(xs: seq<real>, ys: seq<real>, zs: seq<real>)
    requires |xs| == |ys| == |zs|
    requires LexCmp(xs, ys) == Less && LexCmp(ys, zs) == Less
    ensures LexCmp(xs, zs) == Less
    decreases |xs|
  {
    if xs[0] == ys[0] && ys[0] == zs[0] {
      LexCmpTransitive(xs[1..], ys[1..], zs[1..]);
    }
  }

  // ---------------------------------------------------------------------------
  // The six wrappers. Each comparison is written the way the source nests it
  // and is proved to be the lexicographic reference order on its keys.

  datatype Sortable = Sortable(k: Key)
  datatype SortableWith<T> = SortableWith(k: Key, data: T)
  datatype Sortable2D = Sortable2D(k1: Key, k2: Key)
  datatype Sortable2DWith<T> = Sortable2DWith(k1: Key, k2: Key, data: T)
  datatype Sortable3D = Sortable3D(k1: Key, k2: Key, k3: Key)
  datatype Sortable3DWith<T> = Sortable3DWith(k1: Key, k2: Key, k3: Key, data: T)

  /** `eq` on a one-key wrapper (the source checks only the left key). */
  function SortableEq(a: Sortable, b: Sortable): (r: bool)
    requires SortableCheck(a.k)
    ensures r <==> a == b
    ensures SortableCheck(b.k) ==> (r <==> SortableCmp(a, b) == Equal)
  {
    KeyEq(a.k, b.k)
  }

  /** `cmp` on a one-key wrapper: the order of the scalar. */
  function SortableCmp(a: Sortable, b: Sortable): (r: Ordering)
    requires SortableCheck(a.k) && SortableCheck(b.k)
    ensures r == LexCmp([a.k.value], [b.k.value])
    ensures r == Less <==> a.k.value < b.k.value
    ensures r == Greater <==> a.k.value > b.k.value
  {
    CompareReals(a.k.value, b.k.value)
  }

  /** `eq` with a payload: the payloads are not looked at. */
  function SortableWithEq<T>(a: SortableWith<T>, b: SortableWith<T>): (r: bool)
    requires SortableCheck(a.k)
    ensures r <==> a.k == b.k
    ensures SortableCheck(b.k) ==> (r <==> SortableWithCmp(a, b) == Equal)
  {
    KeyEq(a.k, b.k)
  }

  /** `cmp` with a payload: the order of the key alone, as without a
      payload. */
  function SortableWithCmp<T>(a: SortableWith<T>, b: SortableWith<T>): (r: Ordering)
    requires SortableCheck(a.k) && SortableCheck(b.k)
    ensures r == LexCmp([a.k.value], [b.k.value])
    ensures r == Less <==> a.k.value < b.k.value
  {
    SortableCmp(Sortable(a.k), Sortable(b.k))
  }

  /** `eq` on two keys: both components must agree. */
  function Sortable2DEq(a: Sortable2D, b: Sortable2D): (r: bool)
    requires SortableCheck(a.k1) && SortableCheck(a.k2)
    ensures r <==> a == b
  {
    KeyEq(a.k1, b.k1) && KeyEq(a.k2, b.k2)
  }

  /** `cmp` on two keys: the first decides unless it ties. */
  function Sortable2DCmp(a: Sortable2D, b: Sortable2D): (r: Ordering)
    requires SortableCheck(a.k1) && SortableCheck(b.k1)
    requires SortableCheck(a.k2) && SortableCheck(b.k2)
    ensures r == LexCmp([a.k1.value, a.k2.value], [b.k1.value, b.k2.value])
  {
    LexCmpTwo(a.k1.value, a.k2.value, b.k1.value, b.k2.value);
    var c := CompareReals(a.k1.value, b.k1.value);
    if c == Equal then CompareReals(a.k2.value, b.k2.value) else c
  }

  /** `eq` on two keys with a payload. */
  function Sortable2DWithEq<T>(a: Sortable2DWith<T>, b: Sortable2DWith<T>): (r: bool)
    requires SortableCheck(a.k1) && SortableCheck(a.k2)
    ensures r <==> a.k1 == b.k1 && a.k2 == b.k2
  {
    KeyEq(a.k1, b.k1) && KeyEq(a.k2, b.k2)
  }

  /** `cmp` on two keys with a payload: the order of the keys alone, as
      without a payload. */
  function Sortable2DWithCmp<T>(a: Sortable2DWith<T>, b: Sortable2DWith<T>): (r: Ordering)
    requires SortableCheck(a.k1) && SortableCheck(b.k1)
    requires SortableCheck(a.k2) && SortableCheck(b.k2)
    ensures r == LexCmp([a.k1.value, a.k2.value], [b.k1.value, b.k2.value])
  {
    Sortable2DCmp(Sortable2D(a.k1, a.k2), Sortable2D(b.k1, b.k2))
  }

  /** `eq` on three keys: all components must agree. */
  function Sortable3DEq(a: Sortable3D, b: Sortable3D): (r: bool)
    requires SortableCheck(a.k1) && SortableCheck(a.k2) && SortableCheck(a.k3)
    ensures r <==> a == b
  {
    KeyEq(a.k1, b.k1) && KeyEq(a.k2, b.k2) && KeyEq(a.k3, b.k3)
  }

  /** `cmp` on three keys: ties fall through from the first key to the third. */
  function Sortable3DCmp(a: Sortable3D, b: Sortable3D): (r: Ordering)
    requires SortableCheck(a.k1) && SortableCheck(b.k1)
    requires SortableCheck(a.k2) && SortableCheck(b.k2)
    requires SortableCheck(a.k3) && SortableCheck(b.k3)
    ensures r == LexCmp([a.k1.value, a.k2.value, a.k3.value], [b.k1.value, b.k2.value, b.k3.value])
  {
    LexCmpThree(a.k1.value, a.k2.value, a.k3.value, b.k1.value, b.k2.value, b.k3.value);
    LexCmpTwo(a.k2.value, a.k3.value, b.k2.value, b.k3.value);
    var c := CompareReals(a.k1.value, b.k1.value);
    if c == Equal then
      var c' := CompareReals(a.k2.value, b.k2.value);
      if c' == Equal then CompareReals(a.k3.value, b.k3.value) else c'
    else c
  }

  /** `eq` on three keys with a payload. */
  function Sortable3DWithEq<T>(a: Sortable3DWith<T>, b: Sortable3DWith<T>): (r: bool)
    requires SortableCheck(a.k1) && SortableCheck(a.k2) && SortableCheck(a.k3)
    ensures r <==> a.k1 == b.k1 && a.k2 == b.k2 && a.k3 == b.k3
  {
    KeyEq(a.k1, b.k1) && KeyEq(a.k2, b.k2) && KeyEq(a.k3, b.k3)
  }

  /** `cmp` on three keys with a payload: the order of the keys alone, as
      without a payload. */
  function Sortable3DWithCmp<T>(a: Sortable3DWith<T>, b: Sortable3DWith<T>): (r: Ordering)
    requires SortableCheck(a.k1) && SortableCheck(b.k1)
    requires SortableCheck(a.k2) && SortableCheck(b.k2)
    requires SortableCheck(a.k3) && SortableCheck(b.k3)
    ensures r == LexCmp([a.k1.value, a.k2.value, a.k3.value], [b.k1.value, b.k2.value, b.k3.value])
  {
    Sortable3DCmp(Sortable3D(a.k1, a.k2, a.k3), Sortable3D(b.k1, b.k2, b.k3))
  }

  /** The key list of a checked three-key wrapper. */
  function Keys3(a: Sortable3D): seq<real>
    requires SortableCheck(a.k1) && SortableCheck(a.k2) && SortableCheck(a.k3)
  {
    [a.k1.value, a.k2.value, a.k3.value]
  }

  /** On checked keys, `eq` and `cmp == Equal` agree, for three keys. */
  lemma Sortable3DEqMatchesCmp(a: Sortable3D, b: Sortable3D)
    requires SortableCheck(a.k1) && SortableCheck(b.k1)
    requires SortableCheck(a.k2) && SortableCheck(b.k2)
    requires SortableCheck(a.k3) && SortableCheck(b.k3)
    ensures Sortable3DEq(a, b) <==> Sortable3DCmp(a, b) == Equal
  {
    LexCmpEqualIffSame(Keys3(a), Keys3(b));
    assert Keys3(a) == Keys3(b) ==> a.k1.value == b.k1.value && a.k2.value == b.k2.value && a.k3.value == b.k3.value by {
      if Keys3(a) == Keys3(b) {
        assert Keys3(a)[0] == Keys3(b)[0];
        assert Keys3(a)[1] == Keys3(b)[1];
        assert Keys3(a)[2] == Keys3(b)[2];
      }
    }
  }

  /** `cmp` is a total order on checked three-key wrappers: antisymmetric and
      transitive (the one- and two-key wrappers inherit this from `LexCmp`
      the same way). */
  lemma Sortable3DCmpIsOrder(a: Sortable3D, b: Sortable3D, c: Sortable3D)
    requires SortableCheck(a.k1) && SortableCheck(b.k1) && SortableCheck(c.k1)
    requires SortableCheck(a.k2) && SortableCheck(b.k2) && SortableCheck(c.k2)
    requires SortableCheck(a.k3) && SortableCheck(b.k3) && SortableCheck(c.k3)
    ensures Sortable3DCmp(a, b) == Greater <==> Sortable3DCmp(b, a) == Less
    ensures Sortable3DCmp(a, b) == Less && Sortable3DCmp(b, c) == Less ==> Sortable3DCmp(a, c) == Less
  {
    LexCmpAntisymmetric(Keys3(a), Keys3(b));
    if Sortable3DCmp(a, b) == Less && Sortable3DCmp(b, c) == Less {
      LexCmpTransitive(Keys3(a), Keys3(b), Keys3(c));
    }
  }

  /** The payload-carrying wrappers order exactly like their key-only twins,
      whatever the payloads. */
  lemma PayloadIgnored<T>(a: Sortable3DWith<T>, b: Sortable3DWith<T>, d1: T, d2: T)
    requires SortableCheck(a.k1) && SortableCheck(b.k1)
    requires SortableCheck(a.k2) && SortableCheck(b.k2)
    requires SortableCheck(a.k3) && SortableCheck(b.k3)
    ensures Sortable3DWithCmp(a, b) == Sortable3DWithCmp(a.(data := d1), b.(data := d2))
    ensures Sortable3DWithCmp(a, b)
         == Sortable3DCmp(Sortable3D(a.k1, a.k2, a.k3), Sortable3D(b.k1, b.k2, b.k3))
    ensures Sortable3DWithEq(a, b) == Sortable3DWithEq(a.(data := d1), b.(data := d2))
  {
  }

  /** The literal keys the unit tests use. */
  const K0: Key := Finite(0.0)
  const K1: Key := Finite(1.0)
  const K2: Key := Finite(2.0)
  const K3: Key := Finite(3.0)

  /** The unit test of the one-key wrapper, every assertion as a fact. */
  lemma SortableExamples()
    ensures SortableEq(Sortable(K0), Sortable(K0))
    ensures !SortableEq(Sortable(K0), Sortable(K1))
    ensures SortableCmp(Sortable(K1), Sortable(K0)) == Greater
    ensures SortableCmp(Sortable(K0), Sortable(K1)) == Less
  {
  }

  /** The unit test of the one-key wrapper with a payload. */
  lemma SortableWithExamples()
    ensures SortableWithEq(SortableWith(K0, ()), SortableWith(K0, ()))
    ensures !SortableWithEq(SortableWith(K0, ()), SortableWith(K1, ()))
    ensures SortableWithEq(SortableWith(K0, 123), SortableWith(K0, 321))
    ensures SortableWith(K0, 123).data == 123 && SortableWith(K0, 321).data == 321
    ensures SortableWithCmp(SortableWith(K1, ()), SortableWith(K0, ())) == Greater
    ensures SortableWithCmp(SortableWith(K0, ()), SortableWith(K1, ())) == Less
  {
  }

  /** The unit test of the two-key wrapper. */
  lemma Sortable2DExamples()
    ensures Sortable2DEq(Sortable2D(K0, K1), Sortable2D(K0, K1))
    ensures !Sortable2DEq(Sortable2D(K0, K1), Sortable2D(K1, K1))
    ensures !Sortable2DEq(Sortable2D(K0, K1), Sortable2D(K0, K2))
    ensures Sortable2DEq(Sortable2D(K0, K0), Sortable2D(K0, K0))
    ensures Sortable2DCmp(Sortable2D(K1, K0), Sortable2D(K0, K0)) == Greater
    ensures Sortable2DCmp(Sortable2D(K0, K0), Sortable2D(K1, K0)) == Less
    ensures Sortable2DCmp(Sortable2D(K0, K1), Sortable2D(K0, K0)) == Greater
    ensures Sortable2DCmp(Sortable2D(K0, K0), Sortable2D(K0, K1)) == Less
  {
  }

  /** The unit test of the two-key wrapper with a payload. */
  lemma Sortable2DWithExamples()
    ensures Sortable2DWithEq(Sortable2DWith(K0, K1, ()), Sortable2DWith(K0, K1, ()))
    ensures !Sortable2DWithEq(Sortable2DWith(K0, K1, ()), Sortable2DWith(K1, K1, ()))
    ensures !Sortable2DWithEq(Sortable2DWith(K0, K1, ()), Sortable2DWith(K0, K2, ()))
    ensures Sortable2DWithEq(Sortable2DWith(K0, K0, 123), Sortable2DWith(K0, K0, 321))
    ensures Sortable2DWith(K0, K0, 123).data == 123 && Sortable2DWith(K0, K0, 321).data == 321
    ensures Sortable2DWithCmp(Sortable2DWith(K1, K0, ()), Sortable2DWith(K0, K0, ())) == Greater
    ensures Sortable2DWithCmp(Sortable2DWith(K0, K0, ()), Sortable2DWith(K1, K0, ())) == Less
    ensures Sortable2DWithCmp(Sortable2DWith(K0, K1, ()), Sortable2DWith(K0, K0, ())) == Greater
    ensures Sortable2DWithCmp(Sortable2DWith(K0, K0, ()), Sortable2DWith(K0, K1, ())) == Less
  {
  }

  /** The unit test of the three-key wrapper. */
  lemma Sortable3DExamples()
    ensures Sortable3DEq(Sortable3D(K0, K1, K2), Sortable3D(K0, K1, K2))
    ensures !Sortable3DEq(Sortable3D(K0, K1, K2), Sortable3D(K1, K1, K2))
    ensures !Sortable3DEq(Sortable3D(K0, K1, K2), Sortable3D(K0, K2, K2))
    ensures !Sortable3DEq(Sortable3D(K0, K1, K2), Sortable3D(K0, K1, K3))
    ensures Sortable3DEq(Sortable3D(K0, K0, K0), Sortable3D(K0, K0, K0))
    ensures Sortable3DCmp(Sortable3D(K1, K0, K0), Sortable3D(K0, K0, K0)) == Greater
    ensures Sortable3DCmp(Sortable3D(K0, K0, K0), Sortable3D(K1, K0, K0)) == Less
    ensures Sortable3DCmp(Sortable3D(K0, K1, K0), Sortable3D(K0, K0, K0)) == Greater
    ensures Sortable3DCmp(Sortable3D(K0, K0, K0), Sortable3D(K0, K1, K0)) == Less
    ensures Sortable3DCmp(Sortable3D(K0, K0, K1), Sortable3D(K0, K0, K0)) == Greater
    ensures Sortable3DCmp(Sortable3D(K0, K0, K0), Sortable3D(K0, K0, K1)) == Less
  {
  }

  /** The unit test of the three-key wrapper with a payload. */
  lemma Sortable3DWithExamples()
    ensures Sortable3DWithEq(Sortable3DWith(K0, K1, K2, ()), Sortable3DWith(K0, K1, K2, ()))
    ensures !Sortable3DWithEq(Sortable3DWith(K0, K1, K2, ()), Sortable3DWith(K1, K1, K2, ()))
    ensures !Sortable3DWithEq(Sortable3DWith(K0, K1, K2, ()), Sortable3DWith(K0, K2, K2, ()))
    ensures !Sortable3DWithEq(Sortable3DWith(K0, K1, K2, ()), Sortable3DWith(K0, K1, K3, ()))
    ensures Sortable3DWithEq(Sortable3DWith(K0, K0, K0, 123), Sortable3DWith(K0, K0, K0, 321))
    ensures Sortable3DWith(K0, K0, K0, 123).data == 123 && Sortable3DWith(K0, K0, K0, 321).data == 321
    ensures Sortable3DWithCmp(Sortable3DWith(K1, K0, K0, ()), Sortable3DWith(K0, K0, K0, ())) == Greater
    ensures Sortable3DWithCmp(Sortable3DWith(K0, K0, K0, ()), Sortable3DWith(K1, K0, K0, ())) == Less
    ensures Sortable3DWithCmp(Sortable3DWith(K0, K1, K0, ()), Sortable3DWith(K0, K0, K0, ())) == Greater
    ensures Sortable3DWithCmp(Sortable3DWith(K0, K0, K0, ()), Sortable3DWith(K0, K1, K0, ())) == Less
    ensures Sortable3DWithCmp(Sortable3DWith(K0, K0, K1, ()), Sortable3DWith(K0, K0, K0, ())) == Greater
    ensures Sortable3DWithCmp(Sortable3DWith(K0, K0, K0, ()), Sortable3DWith(K0, K0, K1, ())) == Less
  {
  }
}

=== FILE: triangles.dfy ===
/** Triangles given by three vertices a, b, c. */
module Triangles {
  import opened Options
  import opened Vectors
  import Lines
  import Segments
  import Circles

  /** The validity check demands only finite vertices, which every real
      satisfies: the vertices need not be distinct, although the
      documentation says so. */
  datatype Triangle2 = Triangle2(a: Vec2, b: Vec2, c: Vec2)

  /** `set_a`, `set_b`, `set_c`: replace one vertex, keep the other two. */
  function SetA(t: Triangle2, v: Vec2): (r: Triangle2)
    ensures r.a == v && r.b == t.b && r.c == t.c
  {
    t.(a := v)
  }

  function SetB(t: Triangle2, v: Vec2): (r: Triangle2)
    ensures r.a == t.a && r.b == v && r.c == t.c
  {
    t.(b := v)
  }

  function SetC(t: Triangle2, v: Vec2): (r: Triangle2)
    ensures r.a == t.a && r.b == t.b && r.c == v
  {
    t.(c := v)
  }

  function AB(t: Triangle2): Segments.LineSegment2 { Segments.LineSegment2(t.a, t.b) }
  function BC(t: Triangle2): Segments.LineSegment2 { Segments.LineSegment2(t.b, t.c) }
  function CA(t: Triangle2): Segments.LineSegment2 { Segments.LineSegment2(t.c, t.a) }

  /** The three edges in order: each begins where the previous one ends, and
      the last closes the loop back at `a`. */
  function Edges(t: Triangle2): (r: seq<Segments.LineSegment2>)
    ensures |r| == 3
    ensures r[0].start == t.a && r[1].start == t.b && r[2].start == t.c
    ensures r[0].end == r[1].start && r[1].end == r[2].start && r[2].end == r[0].start
  {
    [AB(t), BC(t), CA(t)]
  }

  // ---------------------------------------------------------------------------
  // Circumcentre and circumcircle

  /** The intersection of the perpendicular bisectors of ab and bc. When two
      consecutive vertices coincide, the edge direction normalises to zero,
      the bisector has all-zero coefficients and the intersection finds a
      zero determinant. Otherwise the bisectors are parallel exactly when the
      three vertices are collinear. So there is no centre exactly for
      collinear vertices, and a centre is equally far from all three. */
  function Circumcenter(t: Triangle2): (r: Option<Vec2>)
    ensures r.None? <==> Orientation(t.a, t.b, t.c) == 0.0
    ensures r.Some? ==> DistSq(r.value, t.a) == DistSq(r.value, t.b) == DistSq(r.value, t.c)
  {
    if t.a == t.b || t.b == t.c then
      None
    else
      var l1 := Segments.PerpendicularBisector(AB(t));
      var l2 := Segments.PerpendicularBisector(BC(t));
      assert Lines.Det(l1, l2) == Orientation(t.a, t.b, t.c);
      var r := Lines.IntersectionPoint(l1, l2);
      if r.Some? then
        Segments.BisectorIsEquidistantSet(AB(t), r.value);
        Segments.BisectorIsEquidistantSet(BC(t), r.value);
        r
      else
        r
  }

  /** The source builds each bisector from the normalised edge direction,
      that is, from this model's bisector scaled by a positive factor. The
      circumcentre does not depend on those factors. */
  lemma CircumcenterIgnoresNormalisation(t: Triangle2, k1: real, k2: real)
    requires t.a != t.b && t.b != t.c
    requires k1 > 0.0 && k2 > 0.0
    ensures Lines.IntersectionPoint(
              Lines.Scaled(Segments.PerpendicularBisector(AB(t)), k1),
              Lines.Scaled(Segments.PerpendicularBisector(BC(t)), k2))
         == Circumcenter(t)
  {
    var l1 := Segments.PerpendicularBisector(AB(t));
    var l2 := Segments.PerpendicularBisector(BC(t));
    var p := Vec2(0.0, 0.0);
    Lines.ScaledSameLine(l1, k1, Lines.Scaled(l2, k2), p);
    Lines.ScaledSameLine(l2, k2, l1, p);
    Lines.IntersectionSymmetric(l1, Lines.Scaled(l2, k2));
    Lines.IntersectionSymmetric(l1, l2);
  }

  /** `circumcircle`: the circle about the circumcentre whose stored radius
      field is twice the distance to `a`. That distance, a square root, is
      supplied by the caller through its defining property. */
  function Circumcircle(t: Triangle2, dist: real): (r: Option<Circles.Circle>)
    requires Circumcenter(t).Some? ==> dist >= 0.0 && Sq(dist) == DistSq(Circumcenter(t).value, t.a)
    ensures r.None? <==> Circumcenter(t).None?
    ensures r.Some? ==> r.value.center == Circumcenter(t).value && Circles.Valid(r.value)
  {
    match Circumcenter(t)
    case None => None
    case Some(cc) =>
      CircumcenterAwayFromA(t);
      DistSqPositive(cc, t.a);
      PositiveRoot(dist, DistSq(cc, t.a));
      Some(Circles.Circle(cc, dist * 2.0))
  }

  /** A non-negative root of a positive number is positive. */
  lemma PositiveRoot(d: real, x: real)
    requires d >= 0.0 && Sq(d) == x && x > 0.0
    ensures d > 0.0
  {
  }

  /** The circumcentre of a non-collinear triangle is not a vertex. */
  lemma CircumcenterAwayFromA(t: Triangle2)
    requires Circumcenter(t).Some?
    ensures Circumcenter(t).value != t.a
  {
    var cc := Circumcenter(t).value;
    if cc == t.a {
      DistSqPositive(cc, t.a);
      DistSqPositive(cc, t.b);
    }
  }

  /** A point lies in the circumcircle exactly when it is no farther from the
      circumcentre than the vertices are: the doubled radius field and the
      halving in containment cancel. */
  lemma CircumcircleContains(t: Triangle2, dist: real, p: Vec2)
    requires Circumcenter(t).Some? ==> dist >= 0.0 && Sq(dist) == DistSq(Circumcenter(t).value, t.a)
    requires Circumcircle(t, dist).Some?
    ensures Circles.ContainsPoint(Circumcircle(t, dist).value, p)
        <==> DistSq(Circumcenter(t).value, p) <= DistSq(Circumcenter(t).value, t.a)
  {
    var cc := Circumcenter(t).value;
    DistSqSymmetric(cc, t.a);
    assert (dist * 2.0) * 0.5 == dist;
  }

  // ---------------------------------------------------------------------------
  // Centroid and scaling

  function Midpoint(u: Vec2, v: Vec2): Vec2 { Mul(Add(u, v), 0.5) }

  /** The preconditions of `centroid`: each median's two points differ, as the
      line validity check demands. */
  predicate CentroidDefined(t: Triangle2)
  {
    t.a != Midpoint(t.b, t.c) && t.b != Midpoint(t.c, t.a)
  }

  /** The intersection of the medians from a and from b. It is absent exactly
      for collinear vertices, and otherwise it is the average of the vertices.
      A vertex on the midpoint of the opposite side makes the triangle
      collinear; with the validity checks off, that median is the zero line,
      the determinant is zero and there is no intersection, so the answer is
      absent then too. */
  function Centroid(t: Triangle2): (r: Option<Vec2>)
    ensures r.None? <==> Orientation(t.a, t.b, t.c) == 0.0
    ensures r.Some? ==> r.value == Mul(Add(Add(t.a, t.b), t.c), 1.0 / 3.0)
  {
    if !CentroidDefined(t) then
      UndefinedCentroidCollinear(t);
      None
    else
      var l1 := Lines.FromPoints(t.a, Segments.Center(BC(t)));
      var l2 := Lines.FromPoints(t.b, Segments.Center(CA(t)));
      assert Lines.Det(l1, l2) == 0.75 * Orientation(t.a, t.b, t.c);
      var r := Lines.IntersectionPoint(l1, l2);
      if r.Some? then
        var g := Mul(Add(Add(t.a, t.b), t.c), 1.0 / 3.0);
        assert Lines.OnLine(l1, g) && Lines.OnLine(l2, g);
        Lines.IntersectionUnique(l1, l2, g);
        r
      else
        r
  }

  /** A vertex on the midpoint of the opposite side lies on that side. */
  lemma UndefinedCentroidCollinear(t: Triangle2)
    requires !CentroidDefined(t)
    ensures Orientation(t.a, t.b, t.c) == 0.0
  {
    if t.a == Midpoint(t.b, t.c) {
      assert Sub(t.a, t.b) == Mul(Sub(t.c, t.b), 0.5);
    } else {
      assert Sub(t.b, t.c) == Mul(Sub(t.a, t.c), 0.5);
    }
  }

  /** The image of one vertex under scaling about `g` by `k`. */
  function ScaleAbout(g: Vec2, v: Vec2, k: real): Vec2 { Add(g, Mul(Sub(v, g), k)) }

  /** `scale` (and `scaled`, which applies it to a copy): scale every vertex
      about the centroid; nothing happens when the centroid does not exist. */
  function Scale(t: Triangle2, k: real): (r: Triangle2)
    ensures Centroid(t).None? ==> r == t
    ensures Centroid(t).Some? ==>
              var g := Centroid(t).value;
              Sub(r.a, g) == Mul(Sub(t.a, g), k) && Sub(r.b, g) == Mul(Sub(t.b, g), k)
              && Sub(r.c, g) == Mul(Sub(t.c, g), k)
  {
    match Centroid(t)
    case None => t
    case Some(g) => Triangle2(ScaleAbout(g, t.a, k), ScaleAbout(g, t.b, k), ScaleAbout(g, t.c, k))
  }

  /** Scaling by one is the identity. */
  lemma ScaleByOne(t: Triangle2)
    ensures Scale(t, 1.0) == t
  {
  }

  /** Scaling by a non-zero factor keeps the centroid where it was. */
  lemma ScaleKeepsCentroid(t: Triangle2, k: real)
    requires k != 0.0
    ensures CentroidDefined(Scale(t, k)) <==> CentroidDefined(t)
    ensures Centroid(Scale(t, k)) == Centroid(t)
  {
    if Centroid(t).Some? {
      var g := Centroid(t).value;
      var s := Scale(t, k);
      assert s == Triangle2(ScaleAbout(g, t.a, k), ScaleAbout(g, t.b, k), ScaleAbout(g, t.c, k));
      ScaledDifference(g, t.a, Midpoint(t.b, t.c), k);
      MidpointScaled(g, t.b, t.c, k);
      ScaledDifference(g, t.b, Midpoint(t.c, t.a), k);
      MidpointScaled(g, t.c, t.a, k);
      assert CentroidDefined(s);
      OrientationScaled(g, t.a, t.b, t.c, k);
      MulNonZeroSq(k, Orientation(t.a, t.b, t.c));
      AverageScaled(g, t.a, t.b, t.c, k);
      var r := Centroid(s);
      assert r.Some? && r.value == g;
    }
  }

  /** Scaling about a point commutes with taking midpoints. */
  lemma MidpointScaled(g: Vec2, u: Vec2, v: Vec2, k: real)
    ensures Midpoint(ScaleAbout(g, u, k), ScaleAbout(g, v, k)) == ScaleAbout(g, Midpoint(u, v), k)
  {
  }

  /** Scaling about the average of three points keeps their average. */
  lemma AverageScaled(g: Vec2, a: Vec2, b: Vec2, c: Vec2, k: real)
    requires g == Mul(Add(Add(a, b), c), 1.0 / 3.0)
    ensures Mul(Add(Add(ScaleAbout(g, a, k), ScaleAbout(g, b, k)), ScaleAbout(g, c, k)), 1.0 / 3.0) == g
  {
    var x := (g.x + (a.x - g.x) * k + (g.x + (b.x - g.x) * k) + (g.x + (c.x - g.x) * k)) * (1.0 / 3.0);
    assert x == g.x + (a.x + b.x + c.x - 3.0 * g.x) * k * (1.0 / 3.0);
    var y := (g.y + (a.y - g.y) * k + (g.y + (b.y - g.y) * k) + (g.y + (c.y - g.y) * k)) * (1.0 / 3.0);
    assert y == g.y + (a.y + b.y + c.y - 3.0 * g.y) * k * (1.0 / 3.0);
  }

  /** Scaling about a common point keeps distinct points distinct. */
  lemma ScaledDifference(g: Vec2, u: Vec2, v: Vec2, k: real)
    requires u != v && k != 0.0
    ensures ScaleAbout(g, u, k) != ScaleAbout(g, v, k)
  {
    if u.x != v.x {
      Lines.MulNonZero(u.x - v.x, k);
    } else {
      Lines.MulNonZero(u.y - v.y, k);
    }
  }

  /** Orientation scales with the square of the factor. */
  lemma OrientationScaled(g: Vec2, a: Vec2, b: Vec2, c: Vec2, k: real)
    ensures Orientation(ScaleAbout(g, a, k), ScaleAbout(g, b, k), ScaleAbout(g, c, k))
         == Prod(Sq(k), Orientation(a, b, c))
  {
    assert Orientation(ScaleAbout(g, a, k), ScaleAbout(g, b, k), ScaleAbout(g, c, k))
        == k * k * Orientation(a, b, c);
  }

  /** A non-zero factor's square times a non-zero number is non-zero. */
  lemma MulNonZeroSq(k: real, o: real)
    requires k != 0.0 && o != 0.0
    ensures Prod(Sq(k), o) != 0.0
  {
    SquarePositive(k);
    if o > 0.0 {
      MulPositive(Sq(k), o);
    } else {
      MulPositive(Sq(k), -o);
      assert Prod(Sq(k), -o) == -Prod(Sq(k), o);
    }
  }

  // ---------------------------------------------------------------------------
  // Point containment and orientation

  /** The source's `sign` helper: twice the signed area of (p1, p2, p3). */
  function Sign(p1: Vec2, p2: Vec2, p3: Vec2): (r: real)
    ensures r == Orientation(p1, p2, p3)
  {
    (p1.x - p3.x) * (p2.y - p3.y) - (p2.x - p3.x) * (p1.y - p3.y)
  }

  /** A point is inside (boundary included) unless the three edge signs
      include both a negative and a positive one: it lies on the same side
      of all three edges, or on an edge's line. */
  function ContainsPoint(t: Triangle2, p: Vec2): (r: bool)
    ensures r <==> (
              (Orientation(t.a, t.b, p) >= 0.0 && Orientation(t.b, t.c, p) >= 0.0 && Orientation(t.c, t.a, p) >= 0.0)
              || (Orientation(t.a, t.b, p) <= 0.0 && Orientation(t.b, t.c, p) <= 0.0 && Orientation(t.c, t.a, p) <= 0.0))
  {
    assert Sign(p, t.a, t.b) == Orientation(t.a, t.b, p);
    assert Sign(p, t.b, t.c) == Orientation(t.b, t.c, p);
    assert Sign(p, t.c, t.a) == Orientation(t.c, t.a, p);
    var d1 := Sign(p, t.a, t.b);
    var d2 := Sign(p, t.b, t.c);
    var d3 := Sign(p, t.c, t.a);
    var hasNeg := d1 < 0.0 || d2 < 0.0 || d3 < 0.0;
    var hasPos := d1 > 0.0 || d2 > 0.0 || d3 > 0.0;
    !(hasNeg && hasPos)
  }

  /** Every vertex is contained. */
  lemma ContainsVertices(t: Triangle2)
    ensures ContainsPoint(t, t.a) && ContainsPoint(t, t.b) && ContainsPoint(t, t.c)
  {
  }

  /** Every point of the edge ab is contained (bc and ca follow by rotation). */
  lemma ContainsEdgePoints(t: Triangle2, s: real)
    requires 0.0 <= s <= 1.0
    ensures ContainsPoint(t, Segments.PointAt(AB(t), s))
  {
    var p := Segments.PointAt(AB(t), s);
    var o := Orientation(t.a, t.b, t.c);
    assert Sign(p, t.a, t.b) == 0.0;
    assert Sign(p, t.b, t.c) == Prod(1.0 - s, o);
    assert Sign(p, t.c, t.a) == Prod(s, o);
    if o >= 0.0 {
      ProdNonNegative(1.0 - s, o);
      ProdNonNegative(s, o);
    } else {
      ProdNonNegative(1.0 - s, -o);
      ProdNonNegative(s, -o);
      assert Prod(1.0 - s, -o) == -Prod(1.0 - s, o);
      assert Prod(s, -o) == -Prod(s, o);
    }
  }

  /** The point with barycentric weights `u`, `v`, `w` on the vertices. */
  function Combination(t: Triangle2, u: real, v: real, w: real): Vec2
  {
    Add(Add(Mul(t.a, u), Mul(t.b, v)), Mul(t.c, w))
  }

  /** The turn about a fixed base is affine in the moving point. */
  lemma OrientationAffine(a: Vec2, b: Vec2, x: Vec2)
    ensures Orientation(a, b, x) == Cross(a, b) - x.x * (b.y - a.y) + x.y * (b.x - a.x)
  {
  }

  /** Against the base (a, b), a weighted point turns by its weight on `c`
      times the turn of (a, b, c). */
  lemma EdgeTurnOfCombination(a: Vec2, b: Vec2, c: Vec2, x: Vec2, v: real, w: real)
    requires x == Add(a, Add(Mul(Sub(b, a), v), Mul(Sub(c, a), w)))
    ensures Orientation(a, b, x) == w * Orientation(a, b, c)
  {
    var e, f := Sub(b, a), Sub(c, a);
    assert Sub(x, a) == Add(Mul(e, v), Mul(f, w));
    assert Cross(e, Add(Mul(e, v), Mul(f, w))) == v * Cross(e, e) + w * Cross(e, f);
  }

  /** Against each edge, a weighted point turns by its weight on the
      opposite vertex times the triangle's own turn. */
  lemma OrientationOfCombination(t: Triangle2, u: real, v: real, w: real)
    requires u + v + w == 1.0
    ensures Orientation(t.a, t.b, Combination(t, u, v, w)) == w * Orientation(t.a, t.b, t.c)
    ensures Orientation(t.b, t.c, Combination(t, u, v, w)) == u * Orientation(t.a, t.b, t.c)
    ensures Orientation(t.c, t.a, Combination(t, u, v, w)) == v * Orientation(t.a, t.b, t.c)
  {
    TurnAgainstAB(t, u, v, w);
    TurnAgainstBC(t, u, v, w);
    TurnAgainstCA(t, u, v, w);
  }

  lemma TurnAgainstAB(t: Triangle2, u: real, v: real, w: real)
    requires u + v + w == 1.0
    ensures Orientation(t.a, t.b, Combination(t, u, v, w)) == w * Orientation(t.a, t.b, t.c)
  {
    var x := Combination(t, u, v, w);
    CombinationAbout(t, u, v, w);
    EdgeTurnOfCombination(t.a, t.b, t.c, x, v, w);
  }

  lemma TurnAgainstBC(t: Triangle2, u: real, v: real, w: real)
    requires u + v + w == 1.0
    ensures Orientation(t.b, t.c, Combination(t, u, v, w)) == u * Orientation(t.a, t.b, t.c)
  {
    var x := Combination(t, u, v, w);
    CombinationAbout(t, u, v, w);
    EdgeTurnOfCombination(t.b, t.c, t.a, x, w, u);
    OrientationCyclic(t.a, t.b, t.c);
  }

  lemma TurnAgainstCA(t: Triangle2, u: real, v: real, w: real)
    requires u + v + w == 1.0
    ensures Orientation(t.c, t.a, Combination(t, u, v, w)) == v * Orientation(t.a, t.b, t.c)
  {
    var x := Combination(t, u, v, w);
    CombinationAbout(t, u, v, w);
    EdgeTurnOfCombination(t.c, t.a, t.b, x, u, v);
    OrientationCyclic(t.a, t.b, t.c);
  }

  /** The weighted point as an offset from each vertex along the two sides
      leaving it. */
  lemma CombinationAbout(t: Triangle2, u: real, v: real, w: real)
    requires u + v + w == 1.0
    ensures Combination(t, u, v, w) == Add(t.a, Add(Mul(Sub(t.b, t.a), v), Mul(Sub(t.c, t.a), w)))
    ensures Combination(t, u, v, w) == Add(t.b, Add(Mul(Sub(t.c, t.b), w), Mul(Sub(t.a, t.b), u)))
    ensures Combination(t, u, v, w) == Add(t.c, Add(Mul(Sub(t.a, t.c), u), Mul(Sub(t.b, t.c), v)))
  {
    OffsetAbout(t.a, t.b, t.c, u, v, w);
    OffsetAbout(t.b, t.c, t.a, v, w, u);
    OffsetAbout(t.c, t.a, t.b, w, u, v);
    assert Combination(t, u, v, w) == Add(Add(Mul(t.b, v), Mul(t.c, w)), Mul(t.a, u));
    assert Combination(t, u, v, w) == Add(Add(Mul(t.c, w), Mul(t.a, u)), Mul(t.b, v));
  }

  /** One vertex's form of a weighted sum of three points. */
  lemma OffsetAbout(p: Vec2, q: Vec2, r: Vec2, u: real, v: real, w: real)
    requires u + v + w == 1.0
    ensures Add(Add(Mul(p, u), Mul(q, v)), Mul(r, w)) == Add(p, Add(Mul(Sub(q, p), v), Mul(Sub(r, p), w)))
  {
    var lhs := Add(Add(Mul(p, u), Mul(q, v)), Mul(r, w));
    var rhs := Add(p, Add(Mul(Sub(q, p), v), Mul(Sub(r, p), w)));
    AffineAbout(p.x, q.x, r.x, u, v, w);
    AffineAbout(p.y, q.y, r.y, u, v, w);
    assert lhs.x == rhs.x && lhs.y == rhs.y;
  }

  /** A weighted sum with weights adding to one, rewritten about its first term. */
  lemma AffineAbout(p: real, q: real, r: real, u: real, v: real, w: real)
    requires u + v + w == 1.0
    ensures p * u + q * v + r * w == p + ((q - p) * v + (r - p) * w)
  {
    assert p * u == p * (1.0 - v - w) == p - p * v - p * w;
    assert (q - p) * v == q * v - p * v;
    assert (r - p) * w == r * w - p * w;
  }

  /** Rotating the three points keeps their turn. */
  lemma OrientationCyclic(a: Vec2, b: Vec2, c: Vec2)
    ensures Orientation(b, c, a) == Orientation(a, b, c)
    ensures Orientation(c, a, b) == Orientation(a, b, c)
  {
  }

  /** Soundness of the containment test: every convex combination of the
      vertices is contained, on whichever side the vertices turn. */
  lemma ContainsCombinations(t: Triangle2, u: real, v: real, w: real)
    requires u >= 0.0 && v >= 0.0 && w >= 0.0 && u + v + w == 1.0
    ensures ContainsPoint(t, Combination(t, u, v, w))
  {
    var d := Orientation(t.a, t.b, t.c);
    OrientationOfCombination(t, u, v, w);
    if d >= 0.0 {
      ProdNonNegative(u, d);
      ProdNonNegative(v, d);
      ProdNonNegative(w, d);
    } else {
      ProdNonNegative(u, -d);
      ProdNonNegative(v, -d);
      ProdNonNegative(w, -d);
    }
  }

  /** Completeness of the containment test for a proper triangle: every
      contained point is a convex combination of the vertices. */
  lemma ContainedIsCombination(t: Triangle2, p: Vec2)
    requires Orientation(t.a, t.b, t.c) != 0.0
    requires ContainsPoint(t, p)
    ensures exists u, v, w :: u >= 0.0 && v >= 0.0 && w >= 0.0 && u + v + w == 1.0
                              && p == Combination(t, u, v, w)
  {
    var d := Orientation(t.a, t.b, t.c);
    var (da, db, dc) := (Orientation(t.b, t.c, p), Orientation(t.c, t.a, p), Orientation(t.a, t.b, p));
    WeightsSum(t, p);
    WeightsRecover(t, p);
    var u, v, w := da / d, db / d, dc / d;
    QuotientNonNegative(da, d);
    QuotientNonNegative(db, d);
    QuotientNonNegative(dc, d);
    QuotientSum(da, db, dc, d);
    assert p == Combination(t, u, v, w) by {
      DivideSum(p.x, t.a.x, da, t.b.x, db, t.c.x, dc, d);
      DivideSum(p.y, t.a.y, da, t.b.y, db, t.c.y, dc, d);
    }
  }

  /** Parts divided by their own sum add up to one. */
  lemma QuotientSum(a: real, b: real, c: real, d: real)
    requires d != 0.0 && a + b + c == d
    ensures a / d + b / d + c / d == 1.0
  {
    assert (a / d + b / d + c / d) * d == a + b + c;
  }

  /** Dividing a weighted sum through by the scale of its weights. */
  lemma DivideSum(q: real, x1: real, y1: real, x2: real, y2: real, x3: real, y3: real, d: real)
    requires d != 0.0
    requires x1 * y1 + x2 * y2 + x3 * y3 == q * d
    ensures q == x1 * (y1 / d) + x2 * (y2 / d) + x3 * (y3 / d)
  {
    var (r1, r2, r3) := (y1 / d, y2 / d, y3 / d);
    assert y1 == r1 * d && y2 == r2 * d && y3 == r3 * d;
    assert (x1 * r1 + x2 * r2 + x3 * r3) * d == x1 * (r1 * d) + x2 * (r2 * d) + x3 * (r3 * d);
  }

  /** The three edge turns of any point add up to the triangle's turn. */
  lemma WeightsSum(t: Triangle2, p: Vec2)
    ensures Orientation(t.b, t.c, p) + Orientation(t.c, t.a, p) + Orientation(t.a, t.b, p)
         == Orientation(t.a, t.b, t.c)
  {
    OrientationAffine(t.a, t.b, p);
    OrientationAffine(t.b, t.c, p);
    OrientationAffine(t.c, t.a, p);
    OrientationAffine(t.a, t.b, t.c);
  }

  /** Weighting the vertices by the opposite edge turns gives the point
      scaled by the triangle's turn. */
  lemma WeightsRecover(t: Triangle2, p: Vec2)
    ensures Add(Add(Mul(t.a, Orientation(t.b, t.c, p)), Mul(t.b, Orientation(t.c, t.a, p))),
                Mul(t.c, Orientation(t.a, t.b, p)))
         == Mul(p, Orientation(t.a, t.b, t.c))
  {
    OrientationAffine(t.a, t.b, p);
    OrientationAffine(t.b, t.c, p);
    OrientationAffine(t.c, t.a, p);
    OrientationAffine(t.a, t.b, t.c);
  }

  /** A quotient of two numbers of the same sign, or of zero, is not negative. */
  lemma QuotientNonNegative(x: real, d: real)
    requires d != 0.0
    requires (x >= 0.0 && d > 0.0) || (x <= 0.0 && d < 0.0)
    ensures x / d >= 0.0
  {
  }

  /** The closed triangle as a point set: the convex combinations of the
      vertices. */
  ghost predicate InClosedTriangle(t: Triangle2, p: Vec2)
  {
    exists u, v, w :: u >= 0.0 && v >= 0.0 && w >= 0.0 && u + v + w == 1.0
                      && p == Combination(t, u, v, w)
  }

  /** For a proper triangle the sign test is exactly membership in the
      closed triangle, in both directions. */
  lemma ContainsPointIsClosedTriangle(t: Triangle2, p: Vec2)
    requires Orientation(t.a, t.b, t.c) != 0.0
    ensures ContainsPoint(t, p) <==> InClosedTriangle(t, p)
  {
    if ContainsPoint(t, p) {
      ContainedIsCombination(t, p);
    }
    if InClosedTriangle(t, p) {
      var u, v, w :| u >= 0.0 && v >= 0.0 && w >= 0.0 && u + v + w == 1.0
                     && p == Combination(t, u, v, w);
      ContainsCombinations(t, u, v, w);
    }
  }

  /** Containment does not depend on which vertex comes first, nor on the
      direction the vertices are listed in. */
  lemma ContainsPointSymmetric(t: Triangle2, p: Vec2)
    ensures ContainsPoint(Triangle2(t.b, t.c, t.a), p) == ContainsPoint(t, p)
    ensures ContainsPoint(Triangle2(t.a, t.c, t.b), p) == ContainsPoint(t, p)
  {
    assert Sign(p, t.a, t.c) == -Sign(p, t.c, t.a);
    assert Sign(p, t.c, t.b) == -Sign(p, t.b, t.c);
    assert Sign(p, t.b, t.a) == -Sign(p, t.a, t.b);
  }

  /** The orientation test of the triangle renderer: clockwise exactly when
      the shoelace sum, twice the signed area, is negative. */
  function IsClockwise(t: Triangle2): (r: bool)
    ensures r <==> Orientation(t.a, t.b, t.c) < 0.0
  {
    t.b.x * t.a.y + t.c.x * t.b.y + t.a.x * t.c.y > t.a.x * t.b.y + t.b.x * t.c.y + t.c.x * t.a.y
  }

  /** Every triangle is made of points of `vs`. */
  predicate VerticesIn(ts: seq<Triangle2>, vs: seq<Vec2>)
  {
    forall k :: 0 <= k < |ts| ==> ts[k].a in vs && ts[k].b in vs && ts[k].c in vs
  }
}

/** The right triangle (0,0), (4,0), (0,3), generalised to any
    right triangle with legs along the axes. */
module TriangleExamples {
  import opened Options
  import opened Vectors
  import Lines
  import Segments
  import opened Triangles

  function Right(w: real, h: real): Triangle2 { Triangle2(Vec2(0.0, 0.0), Vec2(w, 0.0), Vec2(0.0, h)) }

  /** The circumcentre of a right triangle is the midpoint of its hypotenuse. */
  lemma RightCircumcenter(w: real, h: real)
    requires w != 0.0 && h != 0.0
    ensures Circumcenter(Right(w, h)) == Some(Vec2(w / 2.0, h / 2.0))
  {
    var t := Right(w, h);
    var cc := Vec2(w / 2.0, h / 2.0);
    var l1 := Segments.PerpendicularBisector(AB(t));
    var l2 := Segments.PerpendicularBisector(BC(t));
    Segments.BisectorIsEquidistantSet(AB(t), cc);
    Segments.BisectorIsEquidistantSet(BC(t), cc);
    assert DistSq(cc, t.a) == DistSq(cc, t.b) == DistSq(cc, t.c) by {
      assert Sub(cc, t.a) == Vec2(w / 2.0, h / 2.0);
      assert Sub(cc, t.b) == Vec2(-(w / 2.0), h / 2.0);
      assert Sub(cc, t.c) == Vec2(w / 2.0, -(h / 2.0));
      assert Sq(-(w / 2.0)) == Sq(w / 2.0);
      assert Sq(-(h / 2.0)) == Sq(h / 2.0);
    }
    Lines.MulNonZero(w, h);
    assert Orientation(t.a, t.b, t.c) == w * h;
    assert Lines.Det(l1, l2) == Orientation(t.a, t.b, t.c);
    Lines.IntersectionUnique(l1, l2, cc);
  }

  /** The centroid of the same triangle lies a third of the way along each leg. */
  lemma RightCentroid(w: real, h: real)
    requires w != 0.0 && h != 0.0
    ensures CentroidDefined(Right(w, h))
    ensures Centroid(Right(w, h)) == Some(Vec2(w / 3.0, h / 3.0))
  {
    var t := Right(w, h);
    Lines.MulNonZero(w, h);
    assert Orientation(t.a, t.b, t.c) == w * h;
    assert Midpoint(t.b, t.c) == Vec2(w * 0.5, h * 0.5);
    assert Midpoint(t.c, t.a) == Vec2(0.0, h * 0.5);
    assert Mul(Add(Add(t.a, t.b), t.c), 1.0 / 3.0) == Vec2(w / 3.0, h / 3.0);
  }
}

=== FILE: vectors.dfy ===
/** Two-dimensional vectors over exact reals, and the distance comparisons the
    geometry uses. Distances are never square-rooted: every comparison of a
    distance against a bound is stated on squared distances (see
    `DistComparisonsMatchSqrt`). */
module Vectors {

  /** A point or displacement in the plane. */
  datatype Vec2 = Vec2(x: real, y: real)

  const Zero: Vec2 := Vec2(0.0, 0.0)

  function Add(u: Vec2, v: Vec2): Vec2 { Vec2(u.x + v.x, u.y + v.y) }

  function Sub(u: Vec2, v: Vec2): Vec2 { Vec2(u.x - v.x, u.y - v.y) }

  function Mul(v: Vec2, k: real): Vec2 { Vec2(v.x * k, v.y * k) }

  function Dot(u: Vec2, v: Vec2): real { u.x * v.x + u.y * v.y }

  /** The z component of the cross product: positive when `v` turns
      counter-clockwise from `u`. */
  function Cross(u: Vec2, v: Vec2): real { u.x * v.y - u.y * v.x }

  /** Twice the signed area of the triangle (a, b, c). */
  function Orientation(a: Vec2, b: Vec2, c: Vec2): real { Cross(Sub(b, a), Sub(c, a)) }

  /** The squared length of a vector. */
  function NormSq(v: Vec2): real { Sq(v.x) + Sq(v.y) }

  /** The squared Euclidean distance between two points. */
  function DistSq(u: Vec2, v: Vec2): real { NormSq(Sub(u, v)) }

  /** The point `a + t·(b − a)`. */
  function Lerp(a: Vec2, b: Vec2, t: real): Vec2 { Add(a, Mul(Sub(b, a), t)) }

  /** `distance(u, v) <= r`, without a square root. */
  predicate DistLe(u: Vec2, v: Vec2, r: real) { r >= 0.0 && DistSq(u, v) <= Sq(r) }

  /** `distance(u, v) < r`, without a square root. */
  predicate DistLt(u: Vec2, v: Vec2, r: real) { r > 0.0 && DistSq(u, v) < Sq(r) }

  /** `distance(u, v) > r`, without a square root. */
  predicate DistGt(u: Vec2, v: Vec2, r: real) { r < 0.0 || DistSq(u, v) > Sq(r) }

  /** A product of reals, kept behind a function so that facts about its
      sign stay facts about this term. */
  function Prod(a: real, b: real): real { a * b }

  function Sq(a: real): real { Prod(a, a) }

  lemma MulPositive(a: real, b: real)
    requires a > 0.0 && b > 0.0
    ensures Prod(a, b) > 0.0
  {
  }

  lemma ProdNegNeg(a: real, b: real)
    ensures Prod(-a, -b) == Prod(a, b)
  {
  }

  /** A non-zero real has a positive square. */
  lemma SquarePositive(a: real)
    requires a != 0.0
    ensures Sq(a) > 0.0
  {
    if a > 0.0 {
      MulPositive(a, a);
    } else {
      MulPositive(-a, -a);
      ProdNegNeg(a, a);
    }
  }

  lemma SquareNonNegative(a: real)
    ensures Sq(a) >= 0.0
  {
    if a != 0.0 {
      SquarePositive(a);
    }
  }

  /** Squared lengths are non-negative, and zero only for the zero vector. */
  lemma NormSqPositive(v: Vec2)
    ensures NormSq(v) >= 0.0
    ensures NormSq(v) == 0.0 <==> v == Zero
  {
    SquareNonNegative(v.x);
    SquareNonNegative(v.y);
    if v.x != 0.0 {
      SquarePositive(v.x);
    } else if v.y != 0.0 {
      SquarePositive(v.y);
    }
  }

  /** Squared distances are non-negative, and zero only between equal points. */
  lemma DistSqPositive(u: Vec2, v: Vec2)
    ensures DistSq(u, v) >= 0.0
    ensures DistSq(u, v) == 0.0 <==> u == v
  {
    var d := Sub(u, v);
    NormSqPositive(d);
    SubZero(u, v);
  }

  lemma SubZero(u: Vec2, v: Vec2)
    ensures Sub(u, v) == Zero <==> u == v
  {
  }

  lemma DistSqSymmetric(u: Vec2, v: Vec2)
    ensures DistSq(u, v) == DistSq(v, u)
  {
    ProdNegNeg(u.x - v.x, u.x - v.x);
    ProdNegNeg(u.y - v.y, u.y - v.y);
  }

  lemma QuotientInUnitInterval(h: real, d: real)
    requires 0.0 < h < d
    ensures 0.0 < h / d < 1.0
  {
    var q := h / d;
    assert q * d == h;
    if q <= 0.0 {
      ProdNonNegative(-q, d);
    }
    if q >= 1.0 {
      ProdNonNegative(q - 1.0, d);
    }
  }

  /** For non-negative reals, comparing squares is comparing the values. */
  lemma SquareMonotonic(d: real, r: real)
    requires d >= 0.0 && r >= 0.0
    ensures d <= r <==> Sq(d) <= Sq(r)
    ensures d < r <==> Sq(d) < Sq(r)
  {
    if d < r {
      SquareStrictlyIncreasing(d, r);
    } else if r < d {
      SquareStrictlyIncreasing(r, d);
    }
  }

  lemma SquareStrictlyIncreasing(d: real, r: real)
    requires 0.0 <= d < r
    ensures Sq(d) < Sq(r)
  {
    MulPositive(r - d, r + d);
    assert Prod(r - d, r + d) == Sq(r) - Sq(d);
  }

  /** A product of two reals of the same sign is non-negative. */
  lemma ProdNonNegative(a: real, b: real)
    requires (a >= 0.0 && b >= 0.0) || (a <= 0.0 && b <= 0.0)
    ensures Prod(a, b) >= 0.0
  {
    if a == 0.0 || b == 0.0 {
      assert Prod(a, b) == 0.0;
    } else if a > 0.0 {
      MulPositive(a, b);
    } else {
      MulPositive(-a, -b);
      ProdNegNeg(a, b);
    }
  }

  /** The squared distance from `w` to the point `u·d`, expanded in `u`. */
  lemma ExpandAlong(w: Vec2, d: Vec2, u: real)
    ensures NormSq(Sub(w, Mul(d, u))) == Quadratic(NormSq(d), Dot(w, d), NormSq(w), u)
  {
    OffsetComponents(w, d, u);
    SquareExpand(w.x, d.x, u);
    SquareExpand(w.y, d.y, u);
    AddExpansions(w, d, u);
  }

  lemma OffsetComponents(w: Vec2, d: Vec2, u: real)
    ensures NormSq(Sub(w, Mul(d, u))) == Sq(w.x - d.x * u) + Sq(w.y - d.y * u)
  {
  }

  lemma AddExpansions(w: Vec2, d: Vec2, u: real)
    ensures (Sq(w.x) - 2.0 * u * (w.x * d.x) + u * u * Sq(d.x)) + (Sq(w.y) - 2.0 * u * (w.y * d.y) + u * u * Sq(d.y))
            == Quadratic(NormSq(d), Dot(w, d), NormSq(w), u)
  {
  }

  lemma SquareExpand(a: real, b: real, u: real)
    ensures Sq(a - b * u) == Sq(a) - 2.0 * u * (a * b) + u * u * Sq(b)
  {
  }

  /** `c − 2·u·e + u²·n`: a squared distance as a function of the parameter `u`. */
  function Quadratic(n: real, e: real, c: real, u: real): real
  {
    c - 2.0 * u * e + u * u * n
  }

  lemma GapIdentity(n: real, e: real, c: real, t: real, u: real)
    ensures Quadratic(n, e, c, u) - Quadratic(n, e, c, t) == Prod(u - t, (u + t) * n - 2.0 * e)
  {
  }

  /** Moving the parameter of a point `t·d` along a direction from `t` to `u`
      changes the squared distance to `w` by this product. */
  lemma ProjectionGap(w: Vec2, d: Vec2, t: real, u: real)
    ensures NormSq(Sub(w, Mul(d, u))) - NormSq(Sub(w, Mul(d, t)))
         == Prod(u - t, (u + t) * NormSq(d) - 2.0 * Dot(w, d))
  {
    ExpandAlong(w, d, u);
    ExpandAlong(w, d, t);
    GapIdentity(NormSq(d), Dot(w, d), NormSq(w), t, u);
  }

  /** At the exact projection parameter no other parameter is nearer. */
  lemma ProjectionAtMinimum(w: Vec2, d: Vec2, t: real, u: real)
    requires t * NormSq(d) == Dot(w, d)
    ensures NormSq(Sub(w, Mul(d, t))) <= NormSq(Sub(w, Mul(d, u)))
  {
    var n := NormSq(d);
    ProjectionGap(w, d, t, u);
    NormSqPositive(d);
    assert (u + t) * n - 2.0 * Dot(w, d) == Prod(u - t, n);
    if u >= t {
      ProdNonNegative(u - t, n);
    } else {
      ProdNonNegative(t - u, n);
      assert Prod(t - u, n) == -Prod(u - t, n);
    }
    ProdNonNegative(u - t, Prod(u - t, n));
  }

  /** When the projection parameter falls at or below 0, parameter 0 is
      nearest among all non-negative parameters. */
  lemma ProjectionAtLowerEnd(w: Vec2, d: Vec2, u: real)
    requires Dot(w, d) <= 0.0 && u >= 0.0
    ensures NormSq(Sub(w, Mul(d, 0.0))) <= NormSq(Sub(w, Mul(d, u)))
  {
    ProjectionGap(w, d, 0.0, u);
    NormSqPositive(d);
    ProdNonNegative(u, NormSq(d));
    assert (u + 0.0) * NormSq(d) - 2.0 * Dot(w, d) >= Prod(u, NormSq(d));
    ProdNonNegative(u - 0.0, (u + 0.0) * NormSq(d) - 2.0 * Dot(w, d));
  }

  /** When the projection parameter falls at or above 1, parameter 1 is
      nearest among all parameters up to 1. */
  lemma ProjectionAtUpperEnd(w: Vec2, d: Vec2, u: real)
    requires Dot(w, d) >= NormSq(d) && u <= 1.0
    ensures NormSq(Sub(w, Mul(d, 1.0))) <= NormSq(Sub(w, Mul(d, u)))
  {
    ProjectionGap(w, d, 1.0, u);
    NormSqPositive(d);
    ProdNonNegative(1.0 - u, NormSq(d));
    assert (u + 1.0) * NormSq(d) - 2.0 * Dot(w, d) <= -Prod(1.0 - u, NormSq(d));
    ProdNonNegative(u - 1.0, (u + 1.0) * NormSq(d) - 2.0 * Dot(w, d));
  }

  /** Scaling a vector scales its squared length by the square of the factor. */
  lemma NormSqScaled(v: Vec2, k: real)
    ensures NormSq(Mul(v, k)) == Sq(k) * NormSq(v)
  {
  }

  /** Squaring undoes a division: (h/d)² · d² = h². */
  lemma SqQuotient(h: real, d: real)
    requires d != 0.0
    ensures Sq(h / d) * Sq(d) == Sq(h)
  {
    var q := h / d;
    assert q * d == h;
    assert Sq(q) * Sq(d) == (q * d) * (q * d);
  }

  /** The squared encodings agree with the source's comparisons of the
      square-rooted distance `d` against a bound `r`. */
  lemma DistComparisonsMatchSqrt(u: Vec2, v: Vec2, d: real, r: real)
    requires d >= 0.0 && Sq(d) == DistSq(u, v)
    ensures DistLe(u, v, r) <==> d <= r
    ensures DistLt(u, v, r) <==> d < r
    ensures DistGt(u, v, r) <==> d > r
  {
    if r >= 0.0 {
      SquareMonotonic(d, r);
    }
  }
}

=== FILE: vertexlists.dfy ===
/** Closed vertex lists: polygons given by their vertices in order. */
module VertexLists {
  import opened Vectors
  import Segments
  import Polylines
  import Collision

  datatype VertexList2 = VertexList2(vertices: seq<Vec2>)

  // ---------------------------------------------------------------------------
  // Edges and simplicity

  /** The index after `i` in a cyclic list of `n`: the source's `(i + 1) % n`. */
  function Next(i: nat, n: nat): (k: nat)
    requires i < n
    ensures k < n
    ensures k == (i + 1) % n
  {
    if i + 1 < n then i + 1 else 0
  }

  /** One edge from each vertex to the next, the last wrapping back to the
      first; a single vertex gives one zero-length edge. */
  function Edges(l: VertexList2): (r: seq<Segments.LineSegment2>)
    ensures |r| == |l.vertices|
    ensures forall i :: 0 <= i < |r| - 1 ==> r[i] == Segments.LineSegment2(l.vertices[i], l.vertices[i + 1])
    ensures |r| > 0 ==> r[|r| - 1] == Segments.LineSegment2(l.vertices[|r| - 1], l.vertices[0])
  {
    var v := l.vertices;
    seq(|v|, i requires 0 <= i < |v| => Segments.LineSegment2(v[i], v[Next(i, |v|)]))
  }

  /** The closed edges are the open polyline's segments plus the closing edge
      from the last vertex back to the first. */
  lemma EdgesClosePolyline(l: VertexList2)
    requires |l.vertices| > 0
    ensures Edges(l) == Polylines.LineSegments(Polylines.Polyline(l.vertices))
                        + [Segments.LineSegment2(l.vertices[|l.vertices| - 1], l.vertices[0])]
  {
  }

  /** The edge pairs the simplicity test examines: an edge and every later
      edge except its successor, and, for the first edge, except the closing
      edge (its predecessor). Adjacent edges share a vertex and are skipped. */
  predicate TestedPair(n: int, i: int, j: int)
  {
    0 <= i && i + 2 <= j < n && !(i == 0 && j == n - 1)
  }

  /** No examined edge pair collides. */
  predicate Simple(l: VertexList2)
  {
    NoTestedPairHits(Edges(l), Collision.SegmentSegment)
  }

  predicate NoTestedPairHits<S>(e: seq<S>, hit: (S, S) -> bool)
  {
    forall i, j :: 0 <= i < |e| && 0 <= j < |e| && TestedPair(|e|, i, j) ==> !hit(e[i], e[j])
  }

  /** `is_simple_polygon`: the source's double loop with its early exit. */
  method IsSimplePolygon(l: VertexList2) returns (r: bool)
    ensures r <==> Simple(l)
  {
    r := ScanPairs(Edges(l), Collision.SegmentSegment);
  }

  /** The double loop itself, for any pairwise test: each edge against every
      later edge but its successor (and, for the first edge, but the last),
      stopping at the first hit. */
  method ScanPairs<S>(edges: seq<S>, hit: (S, S) -> bool) returns (r: bool)
    ensures r <==> NoTestedPairHits(edges, hit)
  {
    var n := |edges|;
    var i := 0;
    while i < n
      invariant 0 <= i <= n
      invariant forall a, b :: 0 <= a < i && 0 <= b < n && TestedPair(n, a, b) ==> !hit(edges[a], edges[b])
    {
      var hi := n - (if i == 0 then 1 else 0);
      var j := i + 2;
      while j < hi
        invariant i + 2 <= j
        invariant forall b :: i + 2 <= b < j && b < hi ==> !hit(edges[i], edges[b])
      {
        if hit(edges[i], edges[j]) {
          assert TestedPair(n, i, j);
          return false;
        }
        j := j + 1;
      }
      i := i + 1;
    }
    return true;
  }

  /** Every list of at most three vertices is simple: there is no pair of
      non-adjacent edges to examine. */
  lemma SmallListsAreSimple(l: VertexList2)
    requires |l.vertices| <= 3
    ensures Simple(l)
  {
  }

  // ---------------------------------------------------------------------------
  // Orientation by the shoelace formula

  /** The `k`-th shoelace term: the cross product of vertex `k` with the next
      one, wrapping around. */
  function Term(v: seq<Vec2>, k: nat): real
    requires k < |v|
  {
    Cross(v[k], v[Next(k, |v|)])
  }

  /** The running total after the source's loop has visited `m` vertices. */
  function ShoelacePrefix(v: seq<Vec2>, m: nat): real
    requires m <= |v|
  {
    if m == 0 then 0.0 else ShoelacePrefix(v, m - 1) + Term(v, m - 1)
  }

  /** Twice the signed area. */
  function Shoelace(v: seq<Vec2>): real { ShoelacePrefix(v, |v|) }

  /** The sum of cross products along an open chain. */
  function ChainCross(s: seq<Vec2>): real
  {
    if |s| < 2 then 0.0 else Cross(s[0], s[1]) + ChainCross(s[1..])
  }

  lemma {:induction false} ChainCrossSnoc(s: seq<Vec2>, x: Vec2)
    requires |s| >= 1
    ensures ChainCross(s + [x]) == ChainCross(s) + Cross(s[|s| - 1], x)
    decreases |s|
  {
    if |s| == 1 {
      assert s + [x] == [s[0], x];
      assert ([s[0], x])[1..] == [x];
    } else {
      assert (s + [x])[1..] == s[1..] + [x];
      ChainCrossSnoc(s[1..], x);
    }
  }

  /** The loop's running total is the chain sum of the visited prefix, one
      vertex further. */
  lemma {:induction false} PrefixIsChain(v: seq<Vec2>, m: nat)
    requires m < |v|
    ensures ShoelacePrefix(v, m) == ChainCross(v[..m + 1])
  {
    if m == 0 {
    } else {
      PrefixIsChain(v, m - 1);
      assert v[..m + 1] == v[..m] + [v[m]];
      ChainCrossSnoc(v[..m], v[m]);
    }
  }

  /** The shoelace sum is the open chain's sum plus the closing term. */
  lemma ShoelaceIsClosedChain(v: seq<Vec2>)
    requires |v| >= 1
    ensures Shoelace(v) == ChainCross(v) + Cross(v[|v| - 1], v[0])
  {
    PrefixIsChain(v, |v| - 1);
    assert v[..|v|] == v;
  }

  /** `is_clockwise`: half the shoelace sum is positive. */
  function IsClockwise(l: VertexList2): (r: bool)
    ensures r <==> Shoelace(l.vertices) > 0.0
  {
    Shoelace(l.vertices) / 2.0 > 0.0
  }

  // ---------------------------------------------------------------------------
  // Reversal and orientation normalisation

  function Reverse(s: seq<Vec2>): (r: seq<Vec2>)
    ensures |r| == |s|
    ensures forall i :: 0 <= i < |s| ==> r[i] == s[|s| - 1 - i]
  {
    if |s| == 0 then [] else Reverse(s[1..]) + [s[0]]
  }

  lemma {:induction false} ReversePreservesMultiset(s: seq<Vec2>)
    ensures multiset(Reverse(s)) == multiset(s)
  {
    if |s| > 0 {
      ReversePreservesMultiset(s[1..]);
      assert s == [s[0]] + s[1..];
    }
  }

  lemma {:induction false} ChainCrossReverse(s: seq<Vec2>)
    ensures ChainCross(Reverse(s)) == -ChainCross(s)
    decreases |s|
  {
    if |s| >= 2 {
      var t := s[1..];
      ChainCrossReverse(t);
      ChainCrossSnoc(Reverse(t), s[0]);
      assert Cross(t[0], s[0]) == -Cross(s[0], s[1]);
    }
  }

  /** Reversing the vertex order negates the signed area. */
  lemma ShoelaceReverse(v: seq<Vec2>)
    ensures Shoelace(Reverse(v)) == -Shoelace(v)
  {
    if |v| >= 1 {
      var r := Reverse(v);
      ShoelaceIsClosedChain(v);
      ShoelaceIsClosedChain(r);
      ChainCrossReverse(v);
      assert Cross(r[|r| - 1], r[0]) == -Cross(v[|v| - 1], v[0]);
    }
  }

  /** `make_clockwise`: reverse the list unless it is already clockwise. The
      result is the list or its reverse, so the vertices are kept; it is
      clockwise unless the signed area is zero, in which case the list is
      reversed to no effect on the test. */
  function MakeClockwise(l: VertexList2): (r: VertexList2)
    ensures r == l || r.vertices == Reverse(l.vertices)
    ensures multiset(r.vertices) == multiset(l.vertices)
    ensures Shoelace(l.vertices) != 0.0 ==> IsClockwise(r)
    ensures Shoelace(l.vertices) == 0.0 ==> r.vertices == Reverse(l.vertices) && !IsClockwise(r)
  {
    ReversePreservesMultiset(l.vertices);
    ShoelaceReverse(l.vertices);
    if !IsClockwise(l) then VertexList2(Reverse(l.vertices)) else l
  }

  /** `make_counterclockwise`: reverse the list when it is clockwise; afterwards
      it never is. */
  function MakeCounterclockwise(l: VertexList2): (r: VertexList2)
    ensures r == l || r.vertices == Reverse(l.vertices)
    ensures multiset(r.vertices) == multiset(l.vertices)
    ensures !IsClockwise(r)
    ensures Shoelace(r.vertices) <= 0.0
  {
    ReversePreservesMultiset(l.vertices);
    ShoelaceReverse(l.vertices);
    if IsClockwise(l) then VertexList2(Reverse(l.vertices)) else l
  }

  /** Normalising twice changes nothing more. */
  lemma MakeCounterclockwiseIdempotent(l: VertexList2)
    ensures MakeCounterclockwise(MakeCounterclockwise(l)) == MakeCounterclockwise(l)
  {
  }
}
